=== FILE: README.md ===
# ionos-performance: a verified model of the plugin's core

This project models, in Dafny, the logic at the heart of the IONOS Performance
WordPress plugin and its bundled IONOS packages:

- the `.htaccess` handler, which inserts, removes, re-versions and migrates
  named snippet blocks (`# START W` … `# END W`, with a `# <versionMarker> <version>`
  line) inside the `.htaccess` text (`HtaccessBlocks`, `HtaccessHandler`);
- the two snippet policies that drive it: the basic-settings feature (three
  snippets switched by `basic_*` options, plus the checksum-based migration of
  known healthy files) and the caching feature (one snippet switched by the
  feature predicates, with PHP's strict comparisons kept as written)
  (`BasicHtaccess`, `CachingHtaccess`);
- the page cache: the skip-cache rules, the cache path built from scheme, host
  and URL path, the cache-file mode mask, recursive size and clearing of the
  cache directory tree with the multisite "deletable" rule, storing and serving
  pages, cache keys and expiry (`Caching`, `CacheFileSystem`, `CachingHelper`);
- option handling: defaults, lookups, merges and the validation of both
  settings tabs, including the post-ID sanitiser (`BasicSettings`,
  `CachingManager`, `CachingGui`);
- the cache-clearing cron job (`CacheCron`);
- two small stateful registries: the plugin-state hook handler, which records
  options and transients to delete on deactivation or uninstall
  (`PluginStateHooks`), and the settings-page builder with its settings fields
  (`SettingsPage`).

WordPress itself is an environment (`WordPress`): a `Site` object holding the
options and transients, a `Hooks` list of registered actions, a
`SettingsRegistry`, and a cron `Scheduler`. PHP values are modelled by
`PhpValues.Value` (null, bool, int, string, array-as-map) with PHP's
truthiness, `isset` and `(int)` casts; a string cast reads the leading number
with its fraction and exponent and truncates it toward zero. The string
built-ins the code relies on (`strpos`, `str_replace`, `explode`/`implode`,
`trim`, `strtolower`) are in `PhpStrings`, together with the expansion of a
`preg_replace` replacement string: `$n`, `${n}` and `\n` stand for group n,
and a backslash makes a following backslash or dollar sign literal. Re-versioning
passes the new snippet to `preg_replace` as its replacement, so the snippet is
expanded for each block it replaces, while insertion puts it in literally. The fixed regular expressions of the source are written as string
functions: the shortest `# START W(.|\n)*?# END W` block, the rest of a version
line, the trailing `\n*` after a removed block, the IONOS-block and
comment-line stripping before the checksum scan, the comma split and the
cookie-name prefixes.

Where the source updates state in place the model does too. The `.htaccess` file
is an `HtaccessFile` object whose `text` field the handler methods rewrite.
The cache directory is a `CacheStore` whose tree the cache methods replace.
`PluginState`, `SettingsBuilder` and `SettingsField` are classes whose methods
update their fields. Each such method is proved against a function of the old
state, and the properties are proved about those functions. Calls the model
cannot see are parameters:

- `did_action` counts;
- the `features.*` configuration values;
- filter results;
- `is_ssl`;
- `validate_file`;
- `get_permalink`;
- the plugin detector;
- the sha1, md5 and gzip functions;
- the set of readable template files.

`create_files` writes through WordPress's `wp_mkdir_p`, which
`CacheFileSystem.MakeTarget` models by what it does. Trailing slashes are
trimmed first. A target that exists succeeds exactly when it is a directory,
and the file system resolves its path, `..` included, so a URL path ending in
`/..` writes into the parent directory when that directory exists. A missing
target that holds `../` is refused. Otherwise PHP's recursive `mkdir` expands
the path and makes the missing directories. The directory names come from
`file_path()` after `trailingslashit`, so a trailing backslash of the URL
path is dropped. `manage_cache` looks the page file up along the same
resolved path.

The caching feature's `get_options` and `get_option`
(`performance-feature-caching/inc/Manager.php`, lines 84-86 and 240-247) are
the same code as the basic-settings `Manager`'s and share its functions.

## Model

| member | source | states |
|---|---|---|
| HtaccessBlocks.NextBlock | wp-content/plugins/ionos-performance/vendor/ionos/htaccess-handler/src/HtaccessHandler.php:197 | the next block found from a position starts with `# START W` and ends with `# END W`, both inside the text, the end after the start, the shortest such match |
| HtaccessBlocks.CountBlocksPositive | wp-content/plugins/ionos-performance/vendor/ionos/htaccess-handler/src/HtaccessHandler.php:188-198 | `has_snippet`'s count is positive exactly when a `# START W … # END W` block occurs in the text |
| HtaccessBlocks.BlockGroups | wp-content/plugins/ionos-performance/vendor/ionos/htaccess-handler/src/HtaccessHandler.php:237 | the groups a block match hands to the replacement: the whole block, and the last character before the end tag, unset when the tags touch |
| HtaccessBlocks.SubstituteLast | wp-content/plugins/ionos-performance/vendor/ionos/htaccess-handler/src/HtaccessHandler.php:237 | the only block is replaced by the snippet expanded for that block, the text around it kept |
| HtaccessBlocks.ReplaceOnly | wp-content/plugins/ionos-performance/vendor/ionos/htaccess-handler/src/HtaccessHandler.php:237 | a single outdated block is replaced by the expanded snippet; the text before and after it is kept |
| HtaccessBlocks.PlainSnippetLiteral | wp-content/plugins/ionos-performance/vendor/ionos/htaccess-handler/src/HtaccessHandler.php:233-237 | a snippet whose parts hold no backslash or dollar sign goes in exactly as written |
| PhpStrings.BackrefAt | wp-content/plugins/ionos-performance/vendor/ionos/htaccess-handler/src/HtaccessHandler.php:237 | a reference starts with a backslash or a dollar sign, names a group below 100 and ends inside the replacement |
| PhpStrings.PlainReplacementLiteral | wp-content/plugins/ionos-performance/vendor/ionos/htaccess-handler/src/HtaccessHandler.php:237 | a replacement without backslashes and dollar signs is put in literally |
| PhpStrings.EscapedReplacementLiteral | wp-content/plugins/ionos-performance/vendor/ionos/htaccess-handler/src/HtaccessHandler.php:237 | escaping every backslash and dollar sign makes any text come out literally |
| PhpStrings.ReplacementExamples | wp-content/plugins/ionos-performance/vendor/ionos/htaccess-handler/src/HtaccessHandler.php:237 | `$0`, `${1}` and `\1` give their groups, an unset group gives nothing, and a doubled backslash gives one |
| PhpValues.ScientificToInt | wp-content/plugins/ionos-performance/vendor/ionos/performance-feature-caching/inc/Caching.php:215 | `intval` of `<m>e<k>` is m times 10 to the k |
| PhpValues.FractionTruncated | wp-content/plugins/ionos-performance/vendor/ionos/performance-feature-caching/inc/Gui.php:526 | `(int)` of `<a>.<digits>` is a: the fraction is cut off |
| PhpValues.ScientificExample | wp-content/plugins/ionos-performance/vendor/ionos/performance-feature-caching/inc/Caching.php:215 | `intval( '1e3' )` is 1000 |
| PhpValues.FractionExample | wp-content/plugins/ionos-performance/vendor/ionos/performance-feature-caching/inc/Gui.php:526 | `(int) '7.25'` is 7 |
| PhpValues.NatDecimalRoundTrip | wp-content/plugins/ionos-performance/vendor/ionos/performance-feature-caching/inc/Caching.php:215 | the decimal text of a non-negative integer converts back to it |
| HtaccessBlocks.NoBlocksUnchanged | wp-content/plugins/ionos-performance/vendor/ionos/htaccess-handler/src/HtaccessHandler.php:297-299 | with no block, removing and re-versioning both leave the text as it is |
| HtaccessBlocks.RemoveBlocksShrinks | wp-content/plugins/ionos-performance/vendor/ionos/htaccess-handler/src/HtaccessHandler.php:304 | removing blocks never lengthens the text, and removing at least one drops at least both tags |
| HtaccessBlocks.InsertMakesBlock | wp-content/plugins/ionos-performance/vendor/ionos/htaccess-handler/src/HtaccessHandler.php:262-282 | after the snippet is inserted, a block for its wrapper is present |
| HtaccessBlocks.RemoveAfterInsert | wp-content/plugins/ionos-performance/vendor/ionos/htaccess-handler/src/HtaccessHandler.php:276-304 | insert then remove restores the text when `# BEGIN WordPress` occurs at most once and no block existed; in the append branch the two added newlines remain |
| HtaccessBlocks.InsertedVersion | wp-content/plugins/ionos-performance/vendor/ionos/htaccess-handler/src/HtaccessHandler.php:89-99 | after insertion the version read back from the `# <versionMarker> ` line is the configured version |
| HtaccessBlocks.VersionOfLine | wp-content/plugins/ionos-performance/vendor/ionos/htaccess-handler/src/HtaccessHandler.php:93-94 | the version read is the rest of the first `# <versionMarker> ` line, up to the line break |
| HtaccessBlocks.VersionOf | wp-content/plugins/ionos-performance/vendor/ionos/htaccess-handler/src/HtaccessHandler.php:93 | a version read never contains a line break |
| HtaccessBlocks.SkipNewlines | wp-content/plugins/ionos-performance/vendor/ionos/htaccess-handler/src/HtaccessHandler.php:304 | the `(\n*)` after a removed block: every skipped character is a newline and the next one is not |
| HtaccessHandler.ValidMarkersMembers | wp-content/plugins/ionos-performance/vendor/ionos/htaccess-handler/src/HtaccessHandler.php:64-80 | a marker is kept, under its key and in order, exactly when it defines all four of wrapperMarker, versionMarker, version and templatePath |
| HtaccessHandler.ValidateMarkers | wp-content/plugins/ionos-performance/vendor/ionos/htaccess-handler/src/HtaccessHandler.php:64-80 | the loop computes the list of complete markers |
| HtaccessHandler.TemplateKeys | wp-content/plugins/ionos-performance/vendor/ionos/htaccess-handler/src/HtaccessHandler.php:106-124 | a template is loaded for a key exactly when that marker's template path is readable |
| HtaccessHandler.LoadTemplates | wp-content/plugins/ionos-performance/vendor/ionos/htaccess-handler/src/HtaccessHandler.php:106-124 | the loop loads each readable template, trimmed, with every replacement applied |
| HtaccessHandler.VersionKeys | wp-content/plugins/ionos-performance/vendor/ionos/htaccess-handler/src/HtaccessHandler.php:89-99 | a version is recorded for a key exactly when the marker's version line is found |
| HtaccessHandler.GetVersions | wp-content/plugins/ionos-performance/vendor/ionos/htaccess-handler/src/HtaccessHandler.php:89-99 | the loop computes the versions found in the content |
| HtaccessHandler.MigrateAbsent | wp-content/plugins/ionos-performance/vendor/ionos/htaccess-handler/src/HtaccessHandler.php:133-152 | content without any legacy string is left unchanged by the migration |
| HtaccessHandler.MigrateMarkerAbsent | wp-content/plugins/ionos-performance/vendor/ionos/htaccess-handler/src/HtaccessHandler.php:138-148 | one marker's migrations change nothing when none of its legacy strings occurs |
| HtaccessHandler.ReplaceEachAbsent | wp-content/plugins/ionos-performance/vendor/ionos/htaccess-handler/src/HtaccessHandler.php:145-147 | replacing absent legacy strings changes nothing |
| HtaccessHandler.Migrate | wp-content/plugins/ionos-performance/vendor/ionos/htaccess-handler/src/HtaccessHandler.php:133-152 | the loop applies every marker's migrations in order, skipping migration keys the marker does not define |
| HtaccessHandler.MarkerField | wp-content/plugins/ionos-performance/vendor/ionos/htaccess-handler/src/HtaccessHandler.php:139 | a migration key names a marker field exactly when it is one of the four defined fields |
| HtaccessHandler.UpdateStepOnlyWhenStale | wp-content/plugins/ionos-performance/vendor/ionos/htaccess-handler/src/HtaccessHandler.php:212-237 | a marker's blocks are rewritten only if the block exists, its template loaded, a version was found and it differs from the configured one |
| HtaccessHandler.UpdateAllCurrent | wp-content/plugins/ionos-performance/vendor/ionos/htaccess-handler/src/HtaccessHandler.php:203-241 | when every found version is current, re-versioning leaves the content unchanged |
| HtaccessHandler.UpdateAllNoBlocks | wp-content/plugins/ionos-performance/vendor/ionos/htaccess-handler/src/HtaccessHandler.php:212-215 | when no marker has a block, re-versioning leaves the content unchanged |
| HtaccessHandler.Handler.constructor | wp-content/plugins/ionos-performance/vendor/ionos/htaccess-handler/src/HtaccessHandler.php:30-39 | the handler keeps the valid markers; with none it loads no templates |
| HtaccessHandler.Handler.Read | wp-content/plugins/ionos-performance/vendor/ionos/htaccess-handler/src/HtaccessHandler.php:48-55 | an unreadable file reads as absent; a readable one is migrated, and unchanged when it holds no legacy text |
| HtaccessHandler.Handler.ReadContent | wp-content/plugins/ionos-performance/vendor/ionos/htaccess-handler/src/HtaccessHandler.php:48-55 | reads the current file through the migration |
| HtaccessHandler.Handler.GetContent | wp-content/plugins/ionos-performance/vendor/ionos/htaccess-handler/src/HtaccessHandler.php:172-178 | the migrated content, or `''` when the file is unreadable |
| HtaccessHandler.Handler.Write | wp-content/plugins/ionos-performance/vendor/ionos/htaccess-handler/src/HtaccessHandler.php:161-165 | the file afterwards holds exactly the written content |
| HtaccessHandler.Handler.HasSnippet | wp-content/plugins/ionos-performance/vendor/ionos/htaccess-handler/src/HtaccessHandler.php:188-198 | `false` only when no content is passed and the file is unreadable; otherwise a count that is positive exactly when a block is present |
| HtaccessHandler.Handler.AfterInsert | wp-content/plugins/ionos-performance/vendor/ionos/htaccess-handler/src/HtaccessHandler.php:249-283 | unreadable file or block present: unchanged; otherwise the snippet is inserted and a block is then present |
| HtaccessHandler.Handler.InsertSnippet | wp-content/plugins/ionos-performance/vendor/ionos/htaccess-handler/src/HtaccessHandler.php:249-283 | the file afterwards is `AfterInsert` of the old file |
| HtaccessHandler.Handler.AfterRemove | wp-content/plugins/ionos-performance/vendor/ionos/htaccess-handler/src/HtaccessHandler.php:290-306 | unreadable file or no block: unchanged; otherwise every block is removed and the text shrinks by at least both tags |
| HtaccessHandler.Handler.RemoveSnippet | wp-content/plugins/ionos-performance/vendor/ionos/htaccess-handler/src/HtaccessHandler.php:290-306 | the file afterwards is `AfterRemove` of the old file |
| HtaccessHandler.Handler.AfterUpdate | wp-content/plugins/ionos-performance/vendor/ionos/htaccess-handler/src/HtaccessHandler.php:203-241 | unreadable file: unchanged; with no blocks the migrated content is written back as read |
| HtaccessHandler.Handler.MaybeUpdateSnippets | wp-content/plugins/ionos-performance/vendor/ionos/htaccess-handler/src/HtaccessHandler.php:203-241 | the file afterwards is `AfterUpdate` of the old file |
| BasicHtaccess.Policy.constructor | wp-content/plugins/ionos-performance/vendor/ionos/performance-feature-basic-settings/inc/Htaccess.php:117-119 | the policy wraps a handler built from the three markers, over the given file |
| BasicHtaccess.Policy.ShouldRemoveSnippet | wp-content/plugins/ionos-performance/vendor/ionos/performance-feature-basic-settings/inc/Htaccess.php:202-218 | true exactly when the feature is off, the plugin is deactivating, or some snippet is present while its `basic_<key>` switch is off |
| BasicHtaccess.Policy.ShouldInsertSnippet | wp-content/plugins/ionos-performance/vendor/ionos/performance-feature-basic-settings/inc/Htaccess.php:225-237 | false when the feature is off; otherwise true exactly when some switched-on snippet is absent |
| BasicHtaccess.Policy.SwitchedOn | wp-content/plugins/ionos-performance/vendor/ionos/performance-feature-basic-settings/inc/Htaccess.php:243-247 | the keys whose `basic_<key>` option is on, and only those |
| BasicHtaccess.Policy.Removable | wp-content/plugins/ionos-performance/vendor/ionos/performance-feature-basic-settings/inc/Htaccess.php:256-260 | the keys whose option is off, or every key when forced |
| BasicHtaccess.Policy.RemovableForced | wp-content/plugins/ionos-performance/vendor/ionos/performance-feature-basic-settings/inc/Htaccess.php:257 | a forced removal covers all three snippets |
| BasicHtaccess.Policy.InsertSnippets | wp-content/plugins/ionos-performance/vendor/ionos/performance-feature-basic-settings/inc/Htaccess.php:242-248 | the file afterwards has the switched-on snippets inserted, in marker order |
| BasicHtaccess.Policy.RemoveSnippets | wp-content/plugins/ionos-performance/vendor/ionos/performance-feature-basic-settings/inc/Htaccess.php:255-261 | the file afterwards has the removable snippets removed, in marker order |
| BasicHtaccess.InsertEachAppend | wp-content/plugins/ionos-performance/vendor/ionos/performance-feature-basic-settings/inc/Htaccess.php:243-247 | inserting one more key inserts it after the earlier ones |
| BasicHtaccess.RemoveEachAppend | wp-content/plugins/ionos-performance/vendor/ionos/performance-feature-basic-settings/inc/Htaccess.php:256-260 | removing one more key removes it after the earlier ones |
| BasicHtaccess.Policy.MaybeUpdate | wp-content/plugins/ionos-performance/vendor/ionos/performance-feature-basic-settings/inc/Htaccess.php:180-195 | removal due: only switched-off snippets are removed and nothing else happens; otherwise insertion when due, then re-versioning; the deactivation return is never reached |
| BasicHtaccess.Policy.DeactivationRemoves | wp-content/plugins/ionos-performance/vendor/ionos/performance-feature-basic-settings/inc/Htaccess.php:185-187 | while deactivating, removal is always due (`should_remove_snippet` tests `did_action` first), so the early return of `maybe_update` is dead |
| BasicHtaccess.Policy.HandleDeactivation | wp-content/plugins/ionos-performance/vendor/ionos/performance-feature-basic-settings/inc/Htaccess.php:274-279 | when removal is due all three snippets are removed; otherwise the file is unchanged |
| BasicHtaccess.LineStop | wp-content/plugins/ionos-performance/vendor/ionos/performance-feature-basic-settings/inc/Htaccess.php:164 | the end of a comment line: no newline before it, a newline or the end of text at it |
| BasicHtaccess.LastIndexIn | wp-content/plugins/ionos-performance/vendor/ionos/performance-feature-basic-settings/inc/Htaccess.php:163 | the last `# END IONOS` occurrence before a bound, or none |
| BasicHtaccess.IonosBlockEnd | wp-content/plugins/ionos-performance/vendor/ionos/performance-feature-basic-settings/inc/Htaccess.php:163 | an IONOS block ends after its start and inside the text |
| BasicHtaccess.FirstMatch | wp-content/plugins/ionos-performance/vendor/ionos/performance-feature-basic-settings/inc/Htaccess.php:168-174 | the first table entry in order whose checksum equals the hash, or `none` when no entry matches |
| BasicHtaccess.MatchChecksum | wp-content/plugins/ionos-performance/vendor/ionos/performance-feature-basic-settings/inc/Htaccess.php:168-174 | the loop returns `FirstMatch` |
| BasicHtaccess.Policy.ScanHtaccess | wp-content/plugins/ionos-performance/vendor/ionos/performance-feature-basic-settings/inc/Htaccess.php:162-175 | the first entry matching the hash of the file with IONOS blocks and comment lines stripped and trimmed |
| BasicHtaccess.EntryNamed | wp-content/plugins/ionos-performance/vendor/ionos/performance-feature-basic-settings/inc/Htaccess.php:140 | the table entry of a given name, when one exists |
| BasicHtaccess.EnabledSwitches | wp-content/plugins/ionos-performance/vendor/ionos/performance-feature-basic-settings/inc/Htaccess.php:146-149 | `basic_<opt>` = 1 for every listed option and nothing else |
| BasicHtaccess.OptionsAfterMigrate | wp-content/plugins/ionos-performance/vendor/ionos/performance-feature-basic-settings/inc/Htaccess.php:138-150 | the healthy flag is 1, every listed `basic_<opt>` is 1, and other options are unchanged |
| BasicHtaccess.Policy.BaseText | wp-content/plugins/ionos-performance/vendor/ionos/performance-feature-basic-settings/inc/Htaccess.php:141-143 | the base template replaces the file when it is readable; otherwise the file stays |
| BasicHtaccess.Policy.MaybeMigrate | wp-content/plugins/ionos-performance/vendor/ionos/performance-feature-basic-settings/inc/Htaccess.php:124-155 | nothing changes unless the feature is on, the flag is unset and the scan matches; then the flag, switches and base file are applied |
| BasicHtaccess.Policy.ApplyHealthy | wp-content/plugins/ionos-performance/vendor/ionos/performance-feature-basic-settings/inc/Htaccess.php:138-154 | sets the options as `OptionsAfterMigrate` and the file as `BaseText`, transients untouched |
| BasicSettings.GetOptions | wp-content/plugins/ionos-performance/vendor/ionos/performance-feature-basic-settings/inc/Manager.php:39-41 | the stored `ionos-performance` option, or `[]` when it is missing |
| BasicSettings.FeatureOptions | wp-content/plugins/ionos-performance/vendor/ionos/performance-feature-basic-settings/inc/Manager.php:48-56 | exactly the stored entries whose key starts with `basic_` |
| BasicSettings.GetOption | wp-content/plugins/ionos-performance/vendor/ionos/performance-feature-basic-settings/inc/Manager.php:148-155 | the stored value when set and non-null, else null |
| BasicSettings.OptionsAfterSet | wp-content/plugins/ionos-performance/vendor/ionos/performance-feature-basic-settings/inc/Manager.php:66 | every entry is the new value when given, else the stored one |
| BasicSettings.SetOptions | wp-content/plugins/ionos-performance/vendor/ionos/performance-feature-basic-settings/inc/Manager.php:65-68 | the stored option becomes the merge of old and new; nothing else changes |
| BasicSettings.Switch | wp-content/plugins/ionos-performance/vendor/ionos/performance-feature-basic-settings/inc/Settings.php:151-153 | `(int) !empty(...)`: 1 exactly when the entry is present and truthy, else 0 |
| BasicSettings.ValidateTab | wp-content/plugins/ionos-performance/vendor/ionos/performance-feature-basic-settings/inc/Settings.php:144-155 | empty data gives `[]`; otherwise all three switches are normalised to 0/1 and other keys are kept |
| BasicSettings.ValidateOptions | wp-content/plugins/ionos-performance/vendor/ionos/performance-feature-basic-settings/inc/Settings.php:139-156 | another tab: the `basic_*` options overlaid by array data, `array_merge`'s TypeError for non-array data; this tab: `[]` for empty data, the TypeError for any other non-array, `ValidateTab` for an array |
| BasicSettings.ValidateTabIdempotent | wp-content/plugins/ionos-performance/vendor/ionos/performance-feature-basic-settings/inc/Settings.php:148-155 | validating validated data changes nothing |
| CachingHtaccess.MarkerConfigLoaded | wp-content/plugins/ionos-performance/vendor/ionos/performance-feature-caching/inc/Htaccess.php:20-36 | one valid marker at version v2 whose template has the cache-directory placeholder replaced, with the two legacy names migrated |
| CachingHtaccess.CachingPolicy.constructor | wp-content/plugins/ionos-performance/vendor/ionos/performance-feature-caching/inc/Htaccess.php:41-43 | the handler is built from the caching marker over the given file |
| CachingHtaccess.CachingPolicy.ShouldRemoveSnippet | wp-content/plugins/ionos-performance/vendor/ionos/performance-feature-caching/inc/Htaccess.php:78-92 | false only for an unreadable file; otherwise true exactly when the feature is off or the plugin is deactivating |
| CachingHtaccess.CachingPolicy.ShouldInsertSnippet | wp-content/plugins/ionos-performance/vendor/ionos/performance-feature-caching/inc/Htaccess.php:99-105 | the `true ===` test never holds, so the answer is always `is_feature_enabled()` |
| CachingHtaccess.CachingPolicy.MaybeUpdate | wp-content/plugins/ionos-performance/vendor/ionos/performance-feature-caching/inc/Htaccess.php:48-71 | removal due: block removed and cache cleared; deactivating or disabled: unchanged; otherwise the snippet is inserted |
| CachingHtaccess.CachingPolicy.HandleDeactivation | wp-content/plugins/ionos-performance/vendor/ionos/performance-feature-caching/inc/Htaccess.php:134-138 | removes the block under the same condition, without clearing the cache |
| Caching.SkipCache | wp-content/plugins/ionos-performance/vendor/ionos/performance-feature-caching/inc/Caching.php:154-226 | skip exactly when one of the listed conditions holds, and never otherwise |
| Caching.AbsentHeadersDoNotSkip | wp-content/plugins/ionos-performance/vendor/ionos/performance-feature-caching/inc/Caching.php:169-175 | an absent request method or Accept header decides as GET with `text/html` would |
| Caching.ExcludedIds | wp-content/plugins/ionos-performance/vendor/ionos/performance-feature-caching/inc/Caching.php:215 | the `intval` of each non-empty comma part, in order; `intval` reads a fraction and an exponent and truncates toward zero |
| Caching.ListedIdExcluded | wp-content/plugins/ionos-performance/vendor/ionos/performance-feature-caching/inc/Caching.php:215-216 | an ID written first in `without_ids` is among the excluded IDs |
| Caching.ExcludedPageSkipped | wp-content/plugins/ionos-performance/vendor/ionos/performance-feature-caching/inc/Caching.php:214-219 | a singular page whose ID is listed in `without_ids` is skipped |
| Caching.Basename | wp-content/plugins/ionos-performance/vendor/ionos/performance-feature-caching/inc/Caching.php:186 | the script's basename holds no slash |
| Caching.BasenameOfScript | wp-content/plugins/ionos-performance/vendor/ionos/performance-feature-caching/inc/Caching.php:186 | the basename of `dir/file` is `file` |
| Caching.CacheSignature | wp-content/plugins/ionos-performance/vendor/ionos/performance-feature-caching/inc/Caching.php:42-53 | the signature is an HTML comment starting with two newlines |
| Caching.StoreItem | wp-content/plugins/ionos-performance/vendor/ionos/performance-feature-caching/inc/Caching.php:25-33 | empty data writes nothing; otherwise the data plus signature is stored, or the request dies on an invalid path |
| Caching.SetCache | wp-content/plugins/ionos-performance/vendor/ionos/performance-feature-caching/inc/Caching.php:237-270 | `''` for an empty buffer; otherwise the possibly filtered data is returned, and stored when the filter allows it |
| Caching.ClearCache | wp-content/plugins/ionos-performance/vendor/ionos/performance-feature-caching/inc/Caching.php:60-65 | the cache directory is cleared recursively |
| Caching.ClearCacheEmpties | wp-content/plugins/ionos-performance/vendor/ionos/performance-feature-caching/inc/Caching.php:60-65 | on single-site or in the network admin no file remains after clearing, when no directory's name ends in `\` |
| Caching.FlushTotalCache | wp-content/plugins/ionos-performance/vendor/ionos/performance-feature-caching/inc/Caching.php:115-123 | no-op once `save_post_revision` fired; otherwise the cache is cleared and the size transient deleted |
| Caching.GetCacheSize | wp-content/plugins/ionos-performance/vendor/ionos/performance-feature-caching/inc/Caching.php:93-107 | a truthy stored size is returned; otherwise the total size is computed and stored, including when it was 0 |
| Caching.ResponseFor | wp-content/plugins/ionos-performance/vendor/ionos/performance-feature-caching/inc/Caching.php:130-144 | a skipped request is left alone; a cached file is printed when it exists; otherwise output is buffered |
| Caching.StoredPageIsServed | wp-content/plugins/ionos-performance/vendor/ionos/performance-feature-caching/inc/Caching.php:130-144 | the page stored by `store_item` is served on the next request for that URL and ends the request |
| Caching.CacheExpires | wp-content/plugins/ionos-performance/vendor/ionos/performance-feature-caching/inc/Caching.php:279-281 | 3600 times the `cache_expires` option, 0 when unset |
| Caching.CacheHash | wp-content/plugins/ionos-performance/vendor/ionos/performance-feature-caching/inc/Caching.php:292-304 | the key always ends in `.ionos-performance` |
| Caching.CacheHashKey | wp-content/plugins/ionos-performance/vendor/ionos/performance-feature-caching/inc/Caching.php:292-304 | the hashed key is prefix + host + path, the same with and without a query |
| CacheFileSystem.Untrailingslash | wp-content/plugins/ionos-performance/vendor/ionos/performance-feature-caching/inc/FileSystem.php:159 | drops exactly the trailing slashes and backslashes |
| CacheFileSystem.Trailingslash | wp-content/plugins/ionos-performance/vendor/ionos/performance-feature-caching/inc/FileSystem.php:82 | the result ends in exactly one `/` |
| CacheFileSystem.UrlPath | wp-content/plugins/ionos-performance/vendor/ionos/performance-feature-caching/inc/FileSystem.php:66 | the path part of a request URI stops at the first `?` or `#` |
| CacheFileSystem.FilePath | wp-content/plugins/ionos-performance/vendor/ionos/performance-feature-caching/inc/FileSystem.php:62-83 | dies with `Invalid file path.` exactly when validation fails; otherwise the cache directory path with a trailing slash |
| CacheFileSystem.FilePathIgnoresQueryAndCase | wp-content/plugins/ionos-performance/vendor/ionos/performance-feature-caching/inc/FileSystem.php:62-83 | the query string and the host's case do not change the path |
| CacheFileSystem.FilePathExact | wp-content/plugins/ionos-performance/vendor/ionos/performance-feature-caching/inc/FileSystem.php:68-82 | the path is cache dir + `/` + prefix + host + URL path + `/` |
| CacheFileSystem.CacheFile | wp-content/plugins/ionos-performance/vendor/ionos/performance-feature-caching/inc/FileSystem.php:94-109 | `file_gzip` and `file_html`: the file name appended to the given directory, or to `file_path()` when it is empty; the death of `file_path()` is passed on |
| CacheFileSystem.CacheFileMode | wp-content/plugins/ionos-performance/vendor/ionos/performance-feature-caching/inc/FileSystem.php:45-48 | a cache file never has execute or special bits, and keeps the directory's read and write bits |
| CacheFileSystem.DirSizeOf | wp-content/plugins/ionos-performance/vendor/ionos/performance-feature-caching/inc/FileSystem.php:121-148 | a size only for a non-empty directory |
| CacheFileSystem.DirSizeIsTotal | wp-content/plugins/ionos-performance/vendor/ionos/performance-feature-caching/inc/FileSystem.php:121-148 | the computed size is the recursive sum of file sizes |
| CacheFileSystem.DirSize | wp-content/plugins/ionos-performance/vendor/ionos/performance-feature-caching/inc/FileSystem.php:121-148 | the loop computes `DirSizeOf` |
| CacheFileSystem.IsDeletable | wp-content/plugins/ionos-performance/vendor/ionos/performance-feature-caching/inc/FileSystem.php:206-261 | only paths under the cache dir; all of them on single-site or network admin; on multisite the blog's prefix is needed and the root-site and sibling-blog paths are refused |
| CacheFileSystem.Cleared | wp-content/plugins/ionos-performance/vendor/ionos/performance-feature-caching/inc/FileSystem.php:158-193 | a directory is removed only when recursive, non-empty before and deletable; otherwise the node keeps its kind and mode |
| CacheFileSystem.ClearDir | wp-content/plugins/ionos-performance/vendor/ionos/performance-feature-caching/inc/FileSystem.php:158-193 | the loop computes `Cleared` |
| CacheFileSystem.ProtectedFilesSurvive | wp-content/plugins/ionos-performance/vendor/ionos/performance-feature-caching/inc/FileSystem.php:174-184 | a file `is_deletable` refuses is still there after clearing |
| CacheFileSystem.ClearRemovesAllFiles | wp-content/plugins/ionos-performance/vendor/ionos/performance-feature-caching/inc/FileSystem.php:158-193 | on single-site or network admin a recursive clear of the cache directory leaves no file, when no subdirectory's name ends in `\` |
| CacheFileSystem.CutNameKept | wp-content/plugins/ionos-performance/vendor/ionos/performance-feature-caching/inc/FileSystem.php:159-178 | a subdirectory whose name ends in `\` survives a recursive clear whole, because the recursive call trims its path |
| CacheFileSystem.HtmlReadBack | wp-content/plugins/ionos-performance/vendor/ionos/performance-feature-caching/inc/FileSystem.php:23 | the HTML file written reads back as the data with the file mode |
| CacheFileSystem.GzipReadBack | wp-content/plugins/ionos-performance/vendor/ionos/performance-feature-caching/inc/FileSystem.php:24 | the gzip file written reads back as the compressed data |
| CacheFileSystem.CacheStore.CreateFiles | wp-content/plugins/ionos-performance/vendor/ionos/performance-feature-caching/inc/FileSystem.php:16-25 | an invalid path dies and writes nothing; otherwise the tree is what `wp_mkdir_p` leaves, with both files written into the target directory when it succeeds |
| CacheFileSystem.MakeTargetReady | wp-content/plugins/ionos-performance/vendor/ionos/performance-feature-caching/inc/FileSystem.php:19-21 | when `wp_mkdir_p` succeeds the target is a directory and the path, `..` included, resolves to it |
| CacheFileSystem.TrailingDotDotIsParent | wp-content/plugins/ionos-performance/vendor/ionos/performance-feature-caching/inc/FileSystem.php:19-21 | a target ending in `/..` below an existing directory is that directory's parent, and `wp_mkdir_p` succeeds on it |
| CacheFileSystem.TrailingBackslashIgnored | wp-content/plugins/ionos-performance/vendor/ionos/performance-feature-caching/inc/FileSystem.php:68-82 | a trailing backslash of the URL path does not change the directory the files go to |
| CacheFileSystem.FilePathNames | wp-content/plugins/ionos-performance/vendor/ionos/performance-feature-caching/inc/FileSystem.php:62-83 | `file_path()` is the cache dir, `/`, the relative path without trailing slashes or backslashes, and `/`: the names the files are written under |
| CacheFileSystem.CreatedFilesReadBack | wp-content/plugins/ionos-performance/vendor/ionos/performance-feature-caching/inc/FileSystem.php:16-25 | after a successful `wp_mkdir_p` both files, reached through the request's path, read back as written |
| CachingHelper.PregSplit | wp-content/plugins/ionos-performance/vendor/ionos/performance-feature-caching/inc/Helper.php:54-56 | the non-empty comma parts in order: none empty, none holding a comma |
| CachingHelper.NonEmptyPartsAll | wp-content/plugins/ionos-performance/vendor/ionos/performance-feature-caching/inc/Helper.php:55 | with no empty parts nothing is dropped, and nothing is trimmed |
| CachingHelper.PregSplitJoin | wp-content/plugins/ionos-performance/vendor/ionos/performance-feature-caching/inc/Helper.php:54-56 | joining the parts again gives the input back when no part is empty |
| CachingHelper.NonEmptyPartsAppend | wp-content/plugins/ionos-performance/vendor/ionos/performance-feature-caching/inc/Helper.php:55 | dropping empty parts keeps the order: the parts of `p + q` are those of `p` then those of `q` |
| CachingHelper.PregSplitNoComma | wp-content/plugins/ionos-performance/vendor/ionos/performance-feature-caching/inc/Helper.php:54-56 | text without a comma is one part, or none when empty |
| CachingHelper.PregSplitConcat | wp-content/plugins/ionos-performance/vendor/ionos/performance-feature-caching/inc/Helper.php:54-56 | the parts of `a,b` are those of `a` followed by those of `b`, for all `a` and `b` |
| CachingHelper.HasCookieBypass | wp-content/plugins/ionos-performance/vendor/ionos/performance-feature-caching/inc/Helper.php:65-77 | false with no cookies; true exactly when a cookie name starts with one of the three prefixes |
| CachingHelper.CookieValuesIgnored | wp-content/plugins/ionos-performance/vendor/ionos/performance-feature-caching/inc/Helper.php:70-74 | cookie values play no part |
| CachingHelper.HasConflictingCachingPlugins | wp-content/plugins/ionos-performance/vendor/ionos/performance-feature-caching/inc/Helper.php:17-24 | no conflict when the list is empty; otherwise the detector's answer |
| CachingManager.FeatureOptions | wp-content/plugins/ionos-performance/vendor/ionos/performance-feature-caching/inc/Manager.php:93-107 | exactly the three keys; each is the stored value when set, else the default |
| CachingManager.FeatureOptionsDefaults | wp-content/plugins/ionos-performance/vendor/ionos/performance-feature-caching/inc/Manager.php:94-98 | with nothing stored the defaults are 1, 12 and `''` |
| CachingManager.FeatureOptionsStored | wp-content/plugins/ionos-performance/vendor/ionos/performance-feature-caching/inc/Manager.php:100-104 | a stored `cache_expires` replaces the default |
| CachingManager.PreComment | wp-content/plugins/ionos-performance/vendor/ionos/performance-feature-caching/inc/Manager.php:314-320 | flushes only when `approved` is the integer 1; returns it unchanged |
| CachingManager.TouchComment | wp-content/plugins/ionos-performance/vendor/ionos/performance-feature-caching/inc/Manager.php:330-334 | flushes exactly when the new status differs from the old |
| CachingManager.RewriteRulesUpdated | wp-content/plugins/ionos-performance/vendor/ionos/performance-feature-caching/inc/Manager.php:35-45 | flushes exactly when the old rewrite rules are not identical to the new: the same pairs in the same order |
| CachingManager.ReorderedRulesDiffer | wp-content/plugins/ionos-performance/vendor/ionos/performance-feature-caching/inc/Manager.php:38 | two rules saved in the other order are not identical although they map the same patterns to the same queries, so the cache is flushed |
| CachingManager.PublishPostTypes | wp-content/plugins/ionos-performance/vendor/ionos/performance-feature-caching/inc/Manager.php:366-380 | flushes only for a non-empty post, status `publish` or `future`, and a user who can publish |
| CachingManager.FlushActions | wp-content/plugins/ionos-performance/vendor/ionos/performance-feature-caching/inc/Manager.php:412-414 | one action per table row, to the flush callback with zero arguments |
| CachingManager.RegisterFlushCacheHooks | wp-content/plugins/ionos-performance/vendor/ionos/performance-feature-caching/inc/Manager.php:387-415 | the hooks afterwards hold the old ones plus one action per row |
| CachingManager.DefaultFlushHooksRegistered | wp-content/plugins/ionos-performance/vendor/ionos/performance-feature-caching/inc/Manager.php:388-400 | 11 distinct hooks, all at priority 10, all to the flush callback |
| CachingGui.KeptIds | wp-content/plugins/ionos-performance/vendor/ionos/performance-feature-caching/inc/Gui.php:545-549 | the parts that are numeric and have a permalink, in order |
| CachingGui.SanitizePostIds | wp-content/plugins/ionos-performance/vendor/ionos/performance-feature-caching/inc/Gui.php:538-552 | the loop computes the sanitized ID list: `''` for an empty value, a TypeError for a non-empty array |
| CachingGui.SanitizedIdsKept | wp-content/plugins/ionos-performance/vendor/ionos/performance-feature-caching/inc/Gui.php:538-552 | an ID is in the result exactly when it was in the input, numeric and with a permalink |
| CachingGui.SanitizeIdempotent | wp-content/plugins/ionos-performance/vendor/ionos/performance-feature-caching/inc/Gui.php:538-552 | sanitizing a sanitized list changes nothing |
| CachingGui.KeptIdsRoundTrip | wp-content/plugins/ionos-performance/vendor/ionos/performance-feature-caching/inc/Gui.php:543-551 | splitting the joined kept IDs gives them back |
| CachingGui.ValidateOptions | wp-content/plugins/ionos-performance/vendor/ionos/performance-feature-caching/inc/Gui.php:506-529 | another tab: feature options overlaid by the data, a non-array counting as `[]`; this tab: `[]` for empty data, a TypeError for other non-arrays and for a non-empty array of IDs, else `caching_enabled` 0/1, `cache_expires` 0 or its `(int)` value, IDs sanitized, others kept |
| CachingGui.ValidateCachingIdempotent | wp-content/plugins/ionos-performance/vendor/ionos/performance-feature-caching/inc/Gui.php:514-528 | validating validated caching data changes nothing |
| CachingGui.FreshSiteCaches | wp-content/plugins/ionos-performance/vendor/ionos/performance-feature-caching/inc/Gui.php:559-563 | caching is enabled on a site with no stored options |
| CachingGui.SwitchedOffIsDisabled | wp-content/plugins/ionos-performance/vendor/ionos/performance-feature-caching/inc/Gui.php:559-563 | a stored `caching_enabled` of 0 disables caching |
| CachingGui.MaybeRemoveExistingCustomerOptions | wp-content/plugins/ionos-performance/vendor/ionos/performance-feature-caching/inc/Gui.php:571-580 | both notice flags are deleted only when one is set and the new value enables caching |
| CacheCron.AddCronCacheExpiration | wp-content/plugins/ionos-performance/vendor/ionos/performance-feature-caching/inc/Cron.php:71-79 | adds the expire schedule with interval `cache_expires * 3600`; other schedules unchanged |
| CacheCron.DefaultInterval | wp-content/plugins/ionos-performance/vendor/ionos/performance-feature-caching/inc/Cron.php:72-74 | with no stored lifetime the interval is 43200 |
| CacheCron.IntervalIsCacheLifetime | wp-content/plugins/ionos-performance/vendor/ionos/performance-feature-caching/inc/Cron.php:72-74 | the interval equals the cached pages' lifetime |
| CacheCron.Schedule | wp-content/plugins/ionos-performance/vendor/ionos/performance-feature-caching/inc/Cron.php:30-35 | adds the event only when none is scheduled; afterwards one is scheduled |
| CacheCron.UnSchedule | wp-content/plugins/ionos-performance/vendor/ionos/performance-feature-caching/inc/Cron.php:55-60 | removes the next event only when one is scheduled |
| CacheCron.ScheduleThenUnschedule | wp-content/plugins/ionos-performance/vendor/ionos/performance-feature-caching/inc/Cron.php:30-60 | scheduling then unscheduling restores the other events |
| CacheCron.RunCacheCron | wp-content/plugins/ionos-performance/vendor/ionos/performance-feature-caching/inc/Cron.php:86-88 | clears the cache directory |
| PluginStateHooks.PluginState.constructor | wp-content/plugins/ionos-performance/vendor/ionos/plugin-state-hook-handler/src/PluginState.php:45-48 | no entities, hooks not registered |
| PluginStateHooks.PluginState.RegisterCleanupHooks | wp-content/plugins/ionos-performance/vendor/ionos/plugin-state-hook-handler/src/PluginState.php:55-67 | the first call registers the deactivate and uninstall hooks; a second call throws and changes nothing |
| PluginStateHooks.EntitiesOf | wp-content/plugins/ionos-performance/vendor/ionos/plugin-state-hook-handler/src/PluginState.php:150-154 | each name becomes a `{name, type}` entity, in order |
| PluginStateHooks.PluginState.RemoveEntitiesOnEvent | wp-content/plugins/ionos-performance/vendor/ionos/plugin-state-hook-handler/src/PluginState.php:141-161 | throws before registration; otherwise every name is appended under its event |
| PluginStateHooks.NamesStoredTwice | wp-content/plugins/ionos-performance/vendor/ionos/plugin-state-hook-handler/src/PluginState.php:155 | the strict duplicate check never matches, so a name given twice is stored twice |
| PluginStateHooks.PluginState.RemoveOptionsOnUninstall | wp-content/plugins/ionos-performance/vendor/ionos/plugin-state-hook-handler/src/PluginState.php:168-170 | appends options under `uninstall` |
| PluginStateHooks.PluginState.RemoveTransientsOnUninstall | wp-content/plugins/ionos-performance/vendor/ionos/plugin-state-hook-handler/src/PluginState.php:177-179 | appends transients under `uninstall` |
| PluginStateHooks.PluginState.RemoveOptionsOnDeactivation | wp-content/plugins/ionos-performance/vendor/ionos/plugin-state-hook-handler/src/PluginState.php:186-188 | appends options under `deactivate` |
| PluginStateHooks.PluginState.RemoveTransientsOnDeactivation | wp-content/plugins/ionos-performance/vendor/ionos/plugin-state-hook-handler/src/PluginState.php:195-197 | appends transients under `deactivate` |
| PluginStateHooks.AfterCleanupRemoves | wp-content/plugins/ionos-performance/vendor/ionos/plugin-state-hook-handler/src/PluginState.php:79-88 | cleanup deletes exactly the listed names of that kind |
| PluginStateHooks.PluginState.Cleanup | wp-content/plugins/ionos-performance/vendor/ionos/plugin-state-hook-handler/src/PluginState.php:74-89 | deletes the event's options and transients; other kinds and other events are ignored |
| PluginStateHooks.PluginState.Uninstall | wp-content/plugins/ionos-performance/vendor/ionos/plugin-state-hook-handler/src/PluginState.php:101-103 | only the `uninstall` list is processed |
| PluginStateHooks.PluginState.Deactivate | wp-content/plugins/ionos-performance/vendor/ionos/plugin-state-hook-handler/src/PluginState.php:108-110 | only the `deactivate` list is processed |
| PluginStateHooks.PluginState.OnActivation | wp-content/plugins/ionos-performance/vendor/ionos/plugin-state-hook-handler/src/PluginState.php:120-132 | throws for a non-callable; the `=== true` guard never fires, so the hook is always registered |
| SettingsPage.PutAll | wp-content/plugins/ionos-performance/vendor/ionos/settings-builder/src/SettingsBuilder.php:140 | the merged keys: the other's values win, existing keys keep their order |
| SettingsPage.MergeMapsSpec | wp-content/plugins/ionos-performance/vendor/ionos/settings-builder/src/SettingsBuilder.php:140 | `array_merge` of tab maps: the other's tabs win and the existing order comes first |
| SettingsPage.SettingsBuilder.constructor | wp-content/plugins/ionos-performance/vendor/ionos/settings-builder/src/SettingsBuilder.php:60-64 | the given names, no tabs, no callbacks |
| SettingsPage.SettingsBuilder.MergeHookName | wp-content/plugins/ionos-performance/vendor/ionos/settings-builder/src/SettingsBuilder.php:97 | the hook name ends in `_merge_settings_page` and so is never empty |
| SettingsPage.SettingsBuilder.RegisterMergeHook | wp-content/plugins/ionos-performance/vendor/ionos/settings-builder/src/SettingsBuilder.php:96-99 | adds the merge filter under the hook name |
| SettingsPage.SettingsBuilder.UnregisterMergeHook | wp-content/plugins/ionos-performance/vendor/ionos/settings-builder/src/SettingsBuilder.php:106-112 | never throws; the merge filter is gone afterwards |
| SettingsPage.SettingsBuilder.Merge | wp-content/plugins/ionos-performance/vendor/ionos/settings-builder/src/SettingsBuilder.php:139-141 | the other builder's tabs are merged in |
| SettingsPage.SettingsBuilder.AddTab | wp-content/plugins/ionos-performance/vendor/ionos/settings-builder/src/SettingsBuilder.php:151-158 | creates or resets the tab with the title and no elements |
| SettingsPage.SettingsBuilder.AddField | wp-content/plugins/ionos-performance/vendor/ionos/settings-builder/src/SettingsBuilder.php:171-187 | throws with no tab; otherwise stores the field under its name and registers a setting only for names without `[` |
| SettingsPage.NextIndex | wp-content/plugins/ionos-performance/vendor/ionos/settings-builder/src/SettingsBuilder.php:201 | the next integer key is past every integer key used |
| SettingsPage.SettingsBuilder.AddElement | wp-content/plugins/ionos-performance/vendor/ionos/settings-builder/src/SettingsBuilder.php:199-207 | throws with no tab; otherwise appends the element under the next integer key |
| SettingsPage.SettingsBuilder.AddSanitizeCallback | wp-content/plugins/ionos-performance/vendor/ionos/settings-builder/src/SettingsBuilder.php:214-226 | registers each option name at most once |
| SettingsPage.SettingsBuilder.CurrentTab | wp-content/plugins/ionos-performance/vendor/ionos/settings-builder/src/SettingsBuilder.php:245-250 | the requested tab if it exists, else the first |
| SettingsPage.FieldNameParts | wp-content/plugins/ionos-performance/vendor/ionos/settings-builder/src/Elements/AbstractSettingsField.php:61-66 | for `opt[key]` the option name is `opt` and the key is `key` |
| SettingsPage.ArrayFieldValue | wp-content/plugins/ionos-performance/vendor/ionos/settings-builder/src/Elements/AbstractSettingsField.php:60-69 | an `opt[key]` field reads `opt[key]` when set, else `''` |
| SettingsPage.SettingsField.GetValue | wp-content/plugins/ionos-performance/vendor/ionos/settings-builder/src/Elements/AbstractSettingsField.php:70 | a name without `[` reads the option of that name |
| SettingsPage.SettingsField.Render | wp-content/plugins/ionos-performance/vendor/ionos/settings-builder/src/Elements/AbstractSettingsField.php:45-53 | sets `name`, fills `value` only when unset, keeps the rest |
| SettingsPage.SettingsField.GetTemplate | wp-content/plugins/ionos-performance/vendor/ionos/settings-builder/src/Elements/AbstractSettingsField.php:79-81 | directory + `/../templates/fields/` + template name |
| SettingsPage.SettingsField.SanitizeInput | wp-content/plugins/ionos-performance/vendor/ionos/settings-builder/src/Elements/AbstractSettingsField.php:84-86 | the identity |

## Left out

- General regular expressions. Only the fixed patterns the source uses are modelled, as string functions, with the replacement-string expansion of `preg_replace`. The PCRE backtrack limit is not modelled, and neither is `preg_replace` returning null on failure.
- PHP arrays with integer keys. Option arrays are maps from string keys, so `array_merge`'s renumbering of numeric keys is not modelled. The same goes for numeric-string tab ids and field names in the settings builder.
- Non-array stored options. `Manager::get_options()` is taken to be an array or missing.
- `handle_activation` of both policies, `handle_option_changes`, `register_publish_hooks`, `edit_comment`, `flush_cache`, `process_flush_request` and every `init`. They only wire hooks or call modelled operations in sequence, apart from `flush_cache`'s call of `re_schedule`.
- `re_schedule` (`Cron.php`, lines 42-48). It calls `wp_reschedule_event`, which moves the cron event to its next run time, and then unschedules the old time. WordPress's rescheduling arithmetic is not part of this model, so the move of the event to a new time is not modelled.
- The multisite `switch_to_blog` loops, redirects and `exit`, output buffering, `wp_safe_remote_get` after a migration, and `readfile`'s output.
- File I/O. `.htaccess` is a text field, and `write`'s temporary file and rename is a plain assignment. The cache directory is an abstract tree. `is_readable` permission failures other than a missing file are not modelled, and neither is `fopen` failing for an existing path.
- Transient expiry times (15 minutes for the cache size).
- Hashes and compression. sha1, md5 and `gzencode` are function parameters, and their contents are not modelled.
- `wp_parse_url`'s handling of `host:port`, of URLs with a scheme, and of malformed URIs. The request URI is split at the first `?` or `#`.
- The `date_i18n` timestamp and the translated strings of the cache signature and of the cron schedule's display name. They are parameters.
- `load_template`, `render_tab_list` and the other rendering of the settings builder. `enque_assets`, `clean_up` with `unregister_setting`, and the `uninstall_plugins` option that `register_uninstall_hook` writes are also out.
- Caching.CacheExpires: gives a result only for an unset or integer `cache_expires`. It does not model PHP's numeric-string multiplication or the TypeError for other types.
- CacheCron.AddCronCacheExpiration: approximates `$expires * 3600` with `(int)` of the stored value. It does not model float results or the TypeError for non-numeric strings.
- PhpValues.StringToInt: computes the value of a fraction or exponent exactly. PHP goes through a double, so digits past double precision may round differently, and values outside the 64-bit range are not clamped. This reaches `Caching.ExcludedIds` (`intval`) and `CachingGui.ValidateOptions` (`cache_expires`).
- CachingGui.ValidateOptions: ends with the TypeError's message only, as the `Died` outcome. The message of `array_merge` is cut before the type it names. The same holds for `BasicSettings.ValidateOptions`.
- CacheFileSystem.Cleared: a subdirectory whose name ends in `\` is kept as it is. PHP hands its trimmed path to `clear_dir`. When a sibling directory has the trimmed name, PHP clears that sibling at this point as well as at its own entry. A name made only of backslashes makes PHP recurse into the same directory until the request fails. Neither is modelled.
- CacheFileSystem.ClearDir: the final emptiness test is modelled as "no entry is left". PHP counts `glob( $dir/* )`, which skips dot-files and reads `[`, `?`, `*` and `\` in `$dir` as pattern characters. So PHP may keep an emptied directory such as `p[1]` whose pattern matches a non-empty sibling `p1`, where the model removes it. A directory holding only dot-files stays in both, because `rmdir` refuses it.
- CacheFileSystem.ClearRemovesAllFiles: promises an empty cache only for trees whose directory names do not end in `\` or `/`. `CutNameKept` states what stays otherwise.
- Caching.ClearCacheEmpties: has the same restriction as `ClearRemovesAllFiles`, for the same reason.
- Caching.ExcludedIds: reads an array stored as `without_ids` as the string `Array`. PHP 8's `preg_split` raises a TypeError there. `validate_options` never stores such an array.
- PhpValues.LooseEqualsInt: only integer strings are compared by value. PHP 8 also compares a numeric string with a fraction or an exponent by value, so `"1.0" == 1` holds there but not in the model. This reaches `Caching.SkipCache` and `CachingGui.IsCachingEnabled`.
- CacheFileSystem.CacheStore.CreateFiles: a path whose `..` climbs above `CACHE_DIR` (an empty host with the URL path `/..`) is taken to make `wp_mkdir_p` fail. PHP finds the parent of `CACHE_DIR` and writes the files there, outside the modelled tree.
- SettingsPage.SettingsBuilder.AddSanitizeCallback: compares option names exactly. PHP's loose `in_array` would also equate numeric strings such as `'1'` and `'01'`.
- SettingsPage.SettingsField.GetValue: states only the case of a name without `[` in its ensures. The `opt[key]` case is stated by `SettingsPage.ArrayFieldValue` for names without a second `[` or a `]` in the key. `isset` on a string-valued option (string offsets) is not modelled.
- HtaccessHandler.Handler.AfterUpdate: its ensures covers an unreadable file and a file without blocks. When a block is stale, the rewrite is stated by `UpdateStepOnlyWhenStale` rather than by a full description of the new text.
- The caching marker's migrations run in the order the source lists them, as written.

=== FILE: basic_htaccess.dfy ===
/** The basic-settings feature's `.htaccess` policy: three snippets
    (directory index, cache expiration, deflate), each switched by its
    `basic_<key>` option, and a one-time migration that recognises a known
    healthy `.htaccess` by its checksum. */
module BasicHtaccess {
  import opened PhpValues
  import opened PhpStrings
  import opened HtaccessBlocks
  import opened HtaccessHandler
  import opened WordPress
  import opened BasicSettings

  /** The option flagging that the `.htaccess` was recognised as healthy. */
  const HealthyOption: string := "ionos_performance_is_healthy_htaccess"

  /** The snippet keys, in the order they are configured. */
  const Keys: seq<string> := ["directory_index", "cache_expiration", "deflate"]

  /** `HTACCESS_MARKERS` for the feature directory `dir`. */
  function MarkerConfig(dir: string): seq<(string, RawMarker)> {
    [("directory_index", RawMarker(Some("IONOS Performance Directory Index"), Some("IONOS Directory Index"), Some("v1"),
                                   Some(dir + "/templates/template-htaccess-directory-index-snippet.tpl"), [], [])),
     ("cache_expiration", RawMarker(Some("IONOS Performance Cache Expiration"), Some("IONOS Cache Expiration"), Some("v1"),
                                    Some(dir + "/templates/template-htaccess-cache-expiration-snippet.tpl"), [], [])),
     ("deflate", RawMarker(Some("IONOS Performance Deflate"), Some("IONOS Deflate"), Some("v1"),
                           Some(dir + "/templates/template-htaccess-deflate-snippet.tpl"), [], []))]
  }

  /** An entry of the table of healthy `.htaccess` files. */
  datatype HealthyEntry = HealthyEntry(name: string, checksum: string, enabledOptions: Option<seq<string>>,
                                       baseTemplate: Option<string>)

  const AllSnippets: seq<string> := ["deflate", "cache_expiration", "directory_index"]

  /** `HEALTHY_HTACCESS_CONTENTS` for the feature directory `dir`, in table order. */
  function HealthyTable(dir: string): seq<HealthyEntry> {
    [HealthyEntry("wordpress_with_permalinks", "2e41169cee4a2bc99cc48c845ce587b0beb5fc09", None, None),
     HealthyEntry("wordpress_with_permalinks_and_module_check", "a32fba8a5dbaef1abe1c381103e61a91e4ea5d93", None, None),
     HealthyEntry("wordpress_without_permalinks", "ab043d23eca357fc9bc61cc845f54a09db5f89bc", None, None),
     HealthyEntry("aps_package_without_modifications", "313da2b115207bf6d8eb6a0c16d1e6df7473191d", Some(AllSnippets),
                  Some(dir + "/templates/template-htaccess-aps-default-base.tpl")),
     HealthyEntry("aps_package_without_modifications_20230119", "b135449c4d64ca190c53301532b78f9da43e7e46", Some(AllSnippets),
                  Some(dir + "/templates/template-htaccess-aps-default-base.tpl")),
     HealthyEntry("aps_package_without_modifications_no_ssl", "ad36633fe28def5c278eb3135e115c09f756025e", Some(AllSnippets),
                  Some(dir + "/templates/template-htaccess-aps-default-base-no-ssl.tpl")),
     HealthyEntry("waas_default", "bea64df68edb2283ca87a166daf6b1476bb4bfa1", Some(AllSnippets),
                  Some(dir + "/templates/template-htaccess-waas-default-base.tpl")),
     HealthyEntry("waas_default_20220113", "2b47ee2ad0ef57d0a47ccd4462123bb1cf252fb8", Some(AllSnippets),
                  Some(dir + "/templates/template-htaccess-waas-default-base.tpl"))]
  }

  // ---------------------------------------------------------------------
  // Recognising a healthy .htaccess

  const IonosStart: string := "# START IONOS"
  const IonosEnd: string := "# END IONOS"

  /** The first newline at or after `p`, or the end: where `.*` stops. */
  function LineStop(c: string, p: nat): (q: nat)
    requires p <= |c|
    ensures p <= q <= |c|
    ensures forall k :: p <= k < q ==> c[k] != '\n'
    ensures q == |c| || c[q] == '\n'
    decreases |c| - p
  {
    if p < |c| && c[p] != '\n' then LineStop(c, p + 1) else p
  }

  /** The last occurrence of `pat` that starts at or after `from` and ends by `to`. */
  function LastIndexIn(c: string, pat: string, from: nat, stop: nat): (r: Option<nat>)
    ensures r.Some? ==> from <= r.value && r.value + |pat| <= stop && OccursAt(c, pat, r.value)
    ensures r.None? ==> (forall k :: from <= k && k + |pat| <= stop ==> !OccursAt(c, pat, k))
    decreases stop
  {
    if stop < from + |pat| then None
    else if OccursAt(c, pat, stop - |pat|) then Some(stop - |pat|)
    else LastIndexIn(c, pat, from, stop - 1)
  }

  /** Where the match of `# START IONOS.*(.|\n)*?# END IONOS` that begins at
      `i` ends: the greedy `.*` first takes the rest of the start line, so the
      end tag is the first one after that line; only when there is none does
      `.*` give back characters, and the last end tag on the start line is used. */
  function IonosBlockEnd(c: string, i: nat): (r: Option<nat>)
    requires i + |IonosStart| <= |c|
    ensures r.Some? ==> i + |IonosStart| + |IonosEnd| <= r.value <= |c|
  {
    var l := LineStop(c, i + |IonosStart|);
    match IndexFrom(c, IonosEnd, l)
    case Some(k) => Some(k + |IonosEnd|)
    case None =>
      match LastIndexIn(c, IonosEnd, i + |IonosStart|, l)
      case Some(k) => Some(k + |IonosEnd|)
      case None => None
  }

  /** The first `preg_replace` of `scan_htaccess`: every IONOS block from `from`
      on deleted with the rest of its end line and the newlines after it. */
  function StripIonosFrom(c: string, from: nat): string
    requires from <= |c|
    decreases |c| - from
  {
    match IndexFrom(c, IonosStart, from)
    case None => c[from..]
    case Some(i) =>
      match IonosBlockEnd(c, i)
      case None => c[from..]
      case Some(k) => c[from..i] + StripIonosFrom(c, SkipNewlines(c, LineStop(c, k)))
  }

  /** The second `preg_replace`: every line from the line start `from` on that
      begins with `#` and ends with a newline is deleted. */
  function DropCommentLines(c: string, from: nat): string
    requires from <= |c|
    decreases |c| - from
  {
    if from == |c| then ""
    else
      var e := LineStop(c, from);
      if e == |c| then c[from..]
      else if c[from] == '#' then DropCommentLines(c, e + 1)
      else c[from..e + 1] + DropCommentLines(c, e + 1)
  }

  /** The text whose hash identifies a healthy `.htaccess`. */
  function Cleaned(c: string): string {
    var stripped := StripIonosFrom(c, 0);
    Trim(DropCommentLines(stripped, 0))
  }

  /** `r` is the name of the first entry of `table` whose checksum is `hash`. */
  ghost predicate FirstNamed(table: seq<HealthyEntry>, hash: string, r: string) {
    exists i :: 0 <= i < |table| && table[i].checksum == hash && r == table[i].name
                && forall j :: 0 <= j < i ==> table[j].checksum != hash
  }

  /** The name of the first entry, in table order, whose checksum is `hash`, or `none`. */
  function FirstMatch(table: seq<HealthyEntry>, hash: string): (r: string)
    ensures (forall i :: 0 <= i < |table| ==> table[i].checksum != hash) ==> r == "none"
    ensures (exists i :: 0 <= i < |table| && table[i].checksum == hash) ==> FirstNamed(table, hash, r)
    decreases |table|
  {
    if table == [] then "none"
    else if table[0].checksum == hash then
      assert FirstNamed(table, hash, table[0].name) by {
        assert table[0].checksum == hash && table[0].name == table[0].name;
      }
      table[0].name
    else
      var r := FirstMatch(table[1..], hash);
      assert forall i :: 1 <= i < |table| ==> table[i] == table[1..][i - 1];
      assert (exists i :: 0 <= i < |table| && table[i].checksum == hash) ==> FirstNamed(table, hash, r) by {
        if exists i :: 0 <= i < |table| && table[i].checksum == hash {
          var i :| 0 <= i < |table| && table[i].checksum == hash;
          assert table[1..][i - 1].checksum == hash;
          FirstNamedBehind(table, hash, r);
        }
      }
      r
  }

  /** The first match behind a non-matching head is the first match. */
  lemma {:induction false} FirstNamedBehind(table: seq<HealthyEntry>, hash: string, r: string)
    requires table != [] && table[0].checksum != hash && FirstNamed(table[1..], hash, r)
    ensures FirstNamed(table, hash, r)
  {
    var i' :| 0 <= i' < |table[1..]| && table[1..][i'].checksum == hash && r == table[1..][i'].name
              && forall j :: 0 <= j < i' ==> table[1..][j].checksum != hash;
    assert table[i' + 1] == table[1..][i'];
    forall j | 0 <= j < i' + 1 ensures table[j].checksum != hash {
      if j > 0 {
        assert table[j] == table[1..][j - 1];
      }
    }
  }

  /** The loop of `scan_htaccess` over the table. */
  method MatchChecksum(table: seq<HealthyEntry>, hash: string) returns (r: string)
    ensures r == FirstMatch(table, hash)
  {
    for i := 0 to |table|
      invariant FirstMatch(table, hash) == FirstMatch(table[i..], hash)
    {
      if hash == table[i].checksum {
        return table[i].name;
      }
      assert table[i..][1..] == table[i + 1..];
    }
    return "none";
  }

  /** The entry of the table with the given name (the first entry when none has it). */
  function EntryNamed(table: seq<HealthyEntry>, name: string): (e: HealthyEntry)
    requires |table| > 0
    ensures (exists i :: 0 <= i < |table| && table[i].name == name) ==> e.name == name && e in table
  {
    if |table| == 1 || table[0].name == name then table[0]
    else
      var e := EntryNamed(table[1..], name);
      assert (exists i :: 0 <= i < |table| && table[i].name == name) ==> exists i :: 0 <= i < |table[1..]| && table[1..][i].name == name by {
        if exists i :: 0 <= i < |table| && table[i].name == name {
          var i :| 0 <= i < |table| && table[i].name == name;
          assert table[1..][i - 1] == table[i];
        }
      }
      e
  }

  /** The switches a healthy entry turns on. */
  function EnabledSwitches(options: seq<string>): (m: map<string, Value>)
    ensures forall o :: o in options ==> "basic_" + o in m && m["basic_" + o] == Int(1)
    ensures forall k :: k in m ==> m[k] == Int(1)
    decreases |options|
  {
    if options == [] then map[]
    else
      var n := |options| - 1;
      assert forall o :: o in options <==> o in options[..n] || o == options[n];
      EnabledSwitches(options[..n])["basic_" + options[n] := Int(1)]
  }

  /** The options table after a migration to the healthy entry `e`: the
      healthy flag is 1 and every switch `e` lists is 1. */
  function OptionsAfterMigrate(options: map<string, Value>, e: HealthyEntry): (r: map<string, Value>)
    ensures HealthyOption in r && r[HealthyOption] == Int(1)
    ensures e.enabledOptions.Some? ==> OptionName in r && forall o :: o in e.enabledOptions.value ==>
              EntryOf(r[OptionName], "basic_" + o) == Int(1)
    ensures forall k :: k in options && k != HealthyOption && k != OptionName ==> k in r && r[k] == options[k]
  {
    var flagged := options[HealthyOption := Int(1)];
    match e.enabledOptions
    case None => flagged
    case Some(list) =>
      var stored := if OptionName in flagged then flagged[OptionName] else Arr(map[]);
      flagged[OptionName := OptionsAfterSet(stored, EnabledSwitches(list))]
  }

  // ---------------------------------------------------------------------
  // The policy object

  class Policy {
    const site: Site
    const dir: string
    /** The readable files (templates and healthy base files) and their contents. */
    const files: map<string, string>
    /** `HTACCESS_MARKERS` and `HEALTHY_HTACCESS_CONTENTS`. */
    const config: seq<(string, RawMarker)>
    const table: seq<HealthyEntry>
    var htaccess: Handler

    /** The handler is the one the constructor builds from `HTACCESS_MARKERS`. */
    predicate Valid()
      reads this
    {
      htaccess.markers == ValidMarkers(config)
      && htaccess.templates == (if htaccess.markers == [] then map[] else TemplatesOf(htaccess.markers, files))
    }

    constructor (site: Site, dir: string, files: map<string, string>, disk: HtaccessFile)
      ensures Valid()
      ensures this.site == site && this.dir == dir && this.files == files && htaccess.disk == disk
      ensures config == MarkerConfig(dir) && table == HealthyTable(dir)
    {
      this.site := site;
      this.dir := dir;
      this.files := files;
      var markers := MarkerConfig(dir);
      var handler := new Handler(markers, files, disk);
      config := markers;
      table := HealthyTable(dir);
      htaccess := handler;
    }

    /** `basic_<key>` is on. */
    predicate IsOn(key: string)
      reads site
    {
      Truthy(GetOption(site, "basic_" + key))
    }

    /** `has_snippet( key )` on the file is truthy. */
    predicate Present(key: string)
      reads this, htaccess.disk
    {
      Truthy(htaccess.HasSnippet(key, None))
    }

    /** `should_remove_snippet`: the feature is off, the plugin is being
        deactivated, or a snippet is present whose switch is off. */
    predicate RemovalDue(enabled: Value, deactivations: nat)
      reads this, site, htaccess.disk
    {
      !Truthy(enabled) || deactivations > 0 || exists i :: 0 <= i < |Keys| && !IsOn(Keys[i]) && Present(Keys[i])
    }

    /** `should_insert_snippet`: the feature is on and a snippet whose switch is on is absent. */
    predicate InsertionDue(enabled: Value)
      reads this, site, htaccess.disk
    {
      Truthy(enabled) && exists i :: 0 <= i < |Keys| && IsOn(Keys[i]) && !Present(Keys[i])
    }

    method ShouldRemoveSnippet(enabled: Value, deactivations: nat) returns (r: bool)
      ensures r == RemovalDue(enabled, deactivations)
    {
      if !Truthy(enabled) {
        return true;
      }
      if deactivations > 0 {
        return true;
      }
      for i := 0 to |Keys|
        invariant forall j :: 0 <= j < i ==> IsOn(Keys[j]) || !Present(Keys[j])
      {
        if !IsOn(Keys[i]) && Present(Keys[i]) {
          return true;
        }
      }
      return false;
    }

    method ShouldInsertSnippet(enabled: Value) returns (r: bool)
      ensures r == InsertionDue(enabled)
    {
      if !Truthy(enabled) {
        return false;
      }
      for i := 0 to |Keys|
        invariant forall j :: 0 <= j < i ==> !IsOn(Keys[j]) || Present(Keys[j])
      {
        if IsOn(Keys[i]) && !Present(Keys[i]) {
          return true;
        }
      }
      return false;
    }

    /** The keys whose switch is on, in order. */
    function SwitchedOn(keys: seq<string>): (r: seq<string>)
      reads site
      ensures forall k :: k in r <==> k in keys && IsOn(k)
      decreases |keys|
    {
      if keys == [] then []
      else
        var n := |keys| - 1;
        var r := SwitchedOn(keys[..n]);
        assert forall k :: k in keys <==> k in keys[..n] || k == keys[n];
        if IsOn(keys[n]) then r + [keys[n]] else r
    }

    /** The keys `remove_snippets( force )` acts on: those whose switch is
        off, or all of them when forced. */
    function Removable(keys: seq<string>, force: bool): (r: seq<string>)
      reads site
      ensures forall k :: k in r <==> k in keys && (force || !IsOn(k))
      decreases |keys|
    {
      if keys == [] then []
      else
        var n := |keys| - 1;
        var r := Removable(keys[..n], force);
        assert forall k :: k in keys <==> k in keys[..n] || k == keys[n];
        if force || !IsOn(keys[n]) then r + [keys[n]] else r
    }

    /** Forced, `remove_snippets` acts on every key. */
    lemma {:induction false} RemovableForced(keys: seq<string>)
      ensures Removable(keys, true) == keys
      decreases |keys|
    {
      if keys != [] {
        var n := |keys| - 1;
        RemovableForced(keys[..n]);
        assert keys[..n] + [keys[n]] == keys;
      }
    }

    /** `insert_snippets`: `insert_snippet` for every key whose switch is on. */
    method InsertSnippets()
      modifies htaccess.disk
      ensures htaccess.disk.text == InsertEach(htaccess, old(htaccess.disk.text), SwitchedOn(Keys))
    {
      for i := 0 to |Keys|
        invariant htaccess.disk.text == InsertEach(htaccess, old(htaccess.disk.text), SwitchedOn(Keys[..i]))
      {
        assert Keys[..i + 1][..i] == Keys[..i];
        if Truthy(GetOption(site, "basic_" + Keys[i])) {
          htaccess.InsertSnippet(Keys[i]);
          InsertEachAppend(htaccess, old(htaccess.disk.text), SwitchedOn(Keys[..i]), Keys[i]);
        }
      }
      assert Keys[..|Keys|] == Keys;
    }

    /** `remove_snippets( force )`: `remove_snippet` for every key whose switch
        is off, or for every key when forced. */
    method RemoveSnippets(force: bool)
      modifies htaccess.disk
      ensures htaccess.disk.text == RemoveEach(htaccess, old(htaccess.disk.text), Removable(Keys, force))
    {
      for i := 0 to |Keys|
        invariant htaccess.disk.text == RemoveEach(htaccess, old(htaccess.disk.text), Removable(Keys[..i], force))
      {
        assert Keys[..i + 1][..i] == Keys[..i];
        if !Truthy(GetOption(site, "basic_" + Keys[i])) || force {
          htaccess.RemoveSnippet(Keys[i]);
          RemoveEachAppend(htaccess, old(htaccess.disk.text), Removable(Keys[..i], force), Keys[i]);
        }
      }
      assert Keys[..|Keys|] == Keys;
    }

    /** `maybe_update`: when removal is due, the snippets whose switch is off
        are removed and nothing else happens; otherwise the missing snippets
        are inserted when due and the handler re-versions the snippets. Removal
        is due whenever the plugin is being deactivated, so the early return
        for that case never runs. */
    method MaybeUpdate(enabled: Value, deactivations: nat)
      modifies htaccess.disk
      ensures old(RemovalDue(enabled, deactivations)) ==>
                htaccess.disk.text == RemoveEach(htaccess, old(htaccess.disk.text), Removable(Keys, false))
      ensures !old(RemovalDue(enabled, deactivations)) ==>
                htaccess.disk.text == htaccess.AfterUpdate(
                  if old(InsertionDue(enabled)) then InsertEach(htaccess, old(htaccess.disk.text), SwitchedOn(Keys))
                  else old(htaccess.disk.text))
    {
      var remove := ShouldRemoveSnippet(enabled, deactivations);
      if remove {
        RemoveSnippets(false);
        return;
      }
      if deactivations > 0 {
        // The source returns here while deactivating; removal is then
        // always due (`DeactivationRemoves`), so this is never reached.
        assert false;
      }
      var insert := ShouldInsertSnippet(enabled);
      if insert {
        InsertSnippets();
      }
      htaccess.MaybeUpdateSnippets();
    }

    /** While the plugin is being deactivated, removal is due whatever the
        options and the file hold: `maybe_update` never reaches its
        deactivation return. */
    lemma {:induction false} DeactivationRemoves(enabled: Value, deactivations: nat)
      requires deactivations > 0
      ensures RemovalDue(enabled, deactivations)
    {
    }

    /** `handle_deactivation`: every snippet is removed when removal is due. */
    method HandleDeactivation(enabled: Value, deactivations: nat)
      modifies htaccess.disk
      ensures old(RemovalDue(enabled, deactivations)) ==>
                htaccess.disk.text == RemoveEach(htaccess, old(htaccess.disk.text), Keys)
      ensures !old(RemovalDue(enabled, deactivations)) ==> htaccess.disk.text == old(htaccess.disk.text)
    {
      var remove := ShouldRemoveSnippet(enabled, deactivations);
      if remove {
        RemoveSnippets(true);
        RemovableForced(Keys);
      }
    }

    /** The text `get_content` gives. */
    function ContentOrEmpty(): string
      reads this, htaccess.disk
    {
      match htaccess.Current()
      case None => ""
      case Some(c) => c
    }

    /** `scan_htaccess`: the healthy entry whose checksum is the hash of the
        cleaned text, or `none`. `sha1` is the hash function. */
    method ScanHtaccess(sha1: string -> string) returns (r: string)
      ensures r == FirstMatch(table, sha1(Cleaned(ContentOrEmpty())))
    {
      var content := htaccess.GetContent();
      r := MatchChecksum(table, sha1(Cleaned(content)));
    }

    /** A migration happens: the feature is on, the healthy flag is not set
        and the scan recognises the file. */
    predicate MigrationDue(enabled: Value, sha1: string -> string)
      reads this, site, htaccess.disk
    {
      Truthy(enabled) && !Truthy(site.GetOption(HealthyOption, Bool(false)))
      && FirstMatch(table, sha1(Cleaned(ContentOrEmpty()))) != "none"
    }

    /** `maybe_migrate`: when due, the healthy flag is set, the entry's base
        file (if readable) replaces the `.htaccess`, and the entry's switches
        are turned on together with a fresh handler. */
    method MaybeMigrate(enabled: Value, sha1: string -> string)
      requires Valid()
      modifies this, site, htaccess.disk
      ensures Valid() && htaccess.disk == old(htaccess.disk)
      ensures site.transients == old(site.transients)
      ensures !old(MigrationDue(enabled, sha1)) ==>
                site.options == old(site.options) && htaccess.disk.text == old(htaccess.disk.text)
      ensures old(MigrationDue(enabled, sha1)) ==>
                var e := EntryNamed(table, old(FirstMatch(table, sha1(Cleaned(ContentOrEmpty())))));
                site.options == OptionsAfterMigrate(old(site.options), e)
                && htaccess.disk.text == BaseText(e, old(htaccess.disk.text))
    {
      if !Truthy(enabled) {
        return;
      }
      if Truthy(site.GetOption(HealthyOption, Bool(false))) {
        return;
      }
      var kind := ScanHtaccess(sha1);
      if kind == "none" {
        return;
      }
      var e := EntryNamed(table, kind);
      ApplyHealthy(e);
    }

    /** The `.htaccess` text after migrating to `e`: its base file when that can be read. */
    function BaseText(e: HealthyEntry, f: Option<string>): (r: Option<string>)
      ensures e.baseTemplate.Some? && e.baseTemplate.value in files ==> r == Some(files[e.baseTemplate.value])
      ensures !(e.baseTemplate.Some? && e.baseTemplate.value in files) ==> r == f
    {
      if e.baseTemplate.Some? && e.baseTemplate.value in files then Some(files[e.baseTemplate.value]) else f
    }

    /** The part of `maybe_migrate` after a healthy entry `e` was recognised. */
    method ApplyHealthy(e: HealthyEntry)
      requires Valid()
      modifies this, site, htaccess.disk
      ensures Valid() && htaccess.disk == old(htaccess.disk)
      ensures site.transients == old(site.transients)
      ensures site.options == OptionsAfterMigrate(old(site.options), e)
      ensures htaccess.disk.text == BaseText(e, old(htaccess.disk.text))
    {
      site.UpdateOption(HealthyOption, Int(1));
      if e.baseTemplate.Some? && e.baseTemplate.value in files {
        htaccess.Write(files[e.baseTemplate.value]);
      }
      if e.enabledOptions.Some? {
        SetOptions(site, EnabledSwitches(e.enabledOptions.value));
        htaccess := new Handler(config, files, htaccess.disk);
      }
    }
  }

  /** The file state after `insert_snippet` for each key in turn. */
  function InsertEach(h: Handler, f: Option<string>, keys: seq<string>): Option<string>
    decreases |keys|
  {
    if keys == [] then f else h.AfterInsert(InsertEach(h, f, keys[..|keys| - 1]), keys[|keys| - 1])
  }

  /** The file state after `remove_snippet` for each key in turn. */
  function RemoveEach(h: Handler, f: Option<string>, keys: seq<string>): Option<string>
    decreases |keys|
  {
    if keys == [] then f else h.AfterRemove(RemoveEach(h, f, keys[..|keys| - 1]), keys[|keys| - 1])
  }

  lemma {:induction false} InsertEachAppend(h: Handler, f: Option<string>, keys: seq<string>, key: string)
    ensures InsertEach(h, f, keys + [key]) == h.AfterInsert(InsertEach(h, f, keys), key)
  {
    assert (keys + [key])[..|keys|] == keys;
  }

  lemma {:induction false} RemoveEachAppend(h: Handler, f: Option<string>, keys: seq<string>, key: string)
    ensures RemoveEach(h, f, keys + [key]) == h.AfterRemove(RemoveEach(h, f, keys), key)
  {
    assert (keys + [key])[..|keys|] == keys;
  }
}

=== FILE: basic_settings.dfy ===
/** The basic-settings feature's options: all plugin options live in one
    array option, of which this feature owns the `basic_*` entries. */
module BasicSettings {
  import opened PhpValues
  import opened PhpStrings
  import opened WordPress

  /** The option holding every plugin option. */
  const OptionName: string := "ionos-performance"

  /** The settings tab of this feature. */
  const TabName: string := "basic-settings"

  /** The switches of the three `.htaccess` snippets. */
  const SwitchNames: seq<string> := ["basic_directory_index", "basic_cache_expiration", "basic_deflate"]

  /** `Manager::get_options`: the stored plugin options, or an empty array. */
  function GetOptions(site: Site): (v: Value)
    reads site
    ensures OptionName !in site.options ==> v == Arr(map[])
    ensures OptionName in site.options ==> v == site.options[OptionName]
  {
    site.GetOption(OptionName, Arr(map[]))
  }

  /** `Manager::get_feature_options`: the stored entries whose key starts with `basic_`. */
  function FeatureOptions(site: Site): (m: map<string, Value>)
    reads site
    ensures forall k :: k in m <==> k in EntriesOf(GetOptions(site)) && StartsWith(k, "basic_")
    ensures forall k :: k in m ==> m[k] == EntriesOf(GetOptions(site))[k]
  {
    var stored := EntriesOf(GetOptions(site));
    map k | k in stored && StartsWith(k, "basic_") :: stored[k]
  }

  /** `Manager::get_option`: the stored entry when it is set and not null, else null. */
  function GetOption(site: Site, name: string): (v: Value)
    reads site
    ensures v != Null <==> IsSetIn(GetOptions(site), name)
    ensures v != Null ==> v == EntriesOf(GetOptions(site))[name]
  {
    var options := GetOptions(site);
    if IsSetIn(options, name) then options.entries[name] else Null
  }

  /** `Manager::set_options`: the stored options merged with `options`, the new entries winning. */
  method SetOptions(site: Site, options: map<string, Value>)
    modifies site
    ensures site.options == old(site.options)[OptionName := OptionsAfterSet(old(GetOptions(site)), options)]
    ensures site.transients == old(site.transients)
  {
    var merged := ArrayMerge(EntriesOf(GetOptions(site)), options);
    site.UpdateOption(OptionName, Arr(merged));
  }

  /** The stored options after `set_options( options )`: every given entry
      reads back as given and every other entry as before. */
  function OptionsAfterSet(stored: Value, options: map<string, Value>): (r: Value)
    ensures forall name :: EntryOf(r, name) == if name in options then options[name] else EntryOf(stored, name)
  {
    Arr(ArrayMerge(EntriesOf(stored), options))
  }

  /** `(int) ! empty( $data[ $name ] )`. */
  function Switch(data: map<string, Value>, name: string): (v: Value)
    ensures v == Int(0) || v == Int(1)
    ensures v == Int(1) <==> name in data && Truthy(data[name])
  {
    Int(if Truthy(EntryOf(Arr(data), name)) then 1 else 0)
  }

  /** `Settings::validate_options` on this feature's own tab. */
  function ValidateTab(data: map<string, Value>): (r: map<string, Value>)
    ensures data == map[] ==> r == map[]
    ensures data != map[] ==> r.Keys == data.Keys + set n | n in SwitchNames
    ensures data != map[] ==> forall k :: k in r ==> r[k] == if k in SwitchNames then Switch(data, k) else data[k]
  {
    if data == map[] then map[]
    else
      var switches := map[
        "basic_directory_index" := Switch(data, "basic_directory_index"),
        "basic_cache_expiration" := Switch(data, "basic_cache_expiration"),
        "basic_deflate" := Switch(data, "basic_deflate")];
      assert switches.Keys == set n | n in SwitchNames;
      assert forall k :: k in switches ==> switches[k] == Switch(data, k);
      ArrayMerge(data, switches)
  }

  /** `Settings::validate_options`: another tab's data is laid over this
      feature's stored options (a TypeError from `array_merge` when the data
      is not an array); on this tab, empty data gives an empty array, any
      other non-array a TypeError, and an array has the three switches
      normalised to 0 or 1 (absent ones to 0) and every other entry kept. */
  function ValidateOptions(site: Site, data: Value, tab: string): (r: Result<map<string, Value>>)
    reads site
    ensures tab != TabName && !data.Arr? ==> r == Died(MergeSecondNotArray)
    ensures tab != TabName && data.Arr? ==>
              r.Ok? && r.value.Keys == FeatureOptions(site).Keys + data.entries.Keys &&
              forall k :: k in r.value ==> r.value[k] == if k in data.entries then data.entries[k] else FeatureOptions(site)[k]
    ensures tab == TabName && !Truthy(data) ==> r == Ok(map[])
    ensures tab == TabName && Truthy(data) && !data.Arr? ==> r == Died(MergeFirstNotArray)
    ensures tab == TabName && data.Arr? ==> r == Ok(ValidateTab(data.entries))
  {
    if tab != TabName then
      if data.Arr? then Ok(ArrayMerge(FeatureOptions(site), data.entries)) else Died(MergeSecondNotArray)
    else if !Truthy(data) then Ok(map[])
    else if !data.Arr? then Died(MergeFirstNotArray)
    else Ok(ValidateTab(data.entries))
  }

  /** Validating what the basic-settings tab produced gives the same options again. */
  lemma {:induction false} ValidateTabIdempotent(data: map<string, Value>)
    ensures ValidateTab(ValidateTab(data)) == ValidateTab(data)
  {
    var once := ValidateTab(data);
    if data != map[] {
      assert "basic_deflate" in once;
      var twice := ValidateTab(once);
      assert twice.Keys == once.Keys;
      forall k | k in twice
        ensures twice[k] == once[k]
      {
        if k in SwitchNames {
          SwitchStable(once, k);
        }
      }
    }
  }

  /** A switch already stored as 0 or 1 reads back unchanged. */
  lemma {:induction false} SwitchStable(data: map<string, Value>, name: string)
    requires name in data && (data[name] == Int(0) || data[name] == Int(1))
    ensures Switch(data, name) == data[name]
  {
    assert Truthy(Int(1)) && !Truthy(Int(0));
  }
}

=== FILE: cache_fs.dfy ===
/** The page cache on disk (`FileSystem`): the cache directory is a tree of
    directories and files below `CACHE_DIR`; the class `CacheStore` holds it.
    The functions here build the cache paths, compute the size of a tree, say
    which paths may be deleted and what clearing a directory leaves. */
module CacheFileSystem {
  import opened PhpValues
  import opened PhpStrings

  /** A directory entry with its `stat` mode (type and permission bits). */
  datatype Node = File(mode: bv32, data: string) | Dir(mode: bv32, entries: seq<(string, Node)>)

  /** The site the request runs on, as `is_deletable` consults it: the blog's
      domain and path, and the paths of the other blogs on that domain. */
  datatype Blog = Blog(id: int, domain: string, path: string)

  datatype Install = Install(
    cacheDir: string,           // CACHE_DIR
    ssl: bool,                  // is_ssl()
    multisite: bool,            // is_multisite()
    networkAdmin: bool,         // is_network_admin()
    blog: Blog,                 // get_blog_details( get_current_blog_id() )
    rootSiteDomain: string,     // DOMAIN_CURRENT_SITE
    siblingPaths: seq<string>)  // paths of the other blogs on the blog's domain

  const DirType: bv32 := 0x4000
  const FileType: bv32 := 0x8000

  predicate IsSlash(c: char) { c == '/' || c == '\\' }

  /** `untrailingslashit`: drops every trailing `/` and `\`. */
  function Untrailingslash(s: string): (r: string)
    ensures r <= s
    ensures r == "" || !IsSlash(r[|r| - 1])
    ensures forall k :: |r| <= k < |s| ==> IsSlash(s[k])
    decreases |s|
  {
    if |s| > 0 && IsSlash(s[|s| - 1]) then Untrailingslash(s[..|s| - 1]) else s
  }

  /** `trailingslashit`. */
  function Trailingslash(s: string): (r: string)
    ensures |r| > 0 && r[|r| - 1] == '/'
  {
    Untrailingslash(s) + "/"
  }

  /** Stripping trailing slashes behind a text that does not end in one
      keeps that text. */
  lemma {:induction false} UntrailingslashKeeps(d: string, t: string)
    requires d == "" || !IsSlash(d[|d| - 1])
    ensures d <= Untrailingslash(d + t)
  {
    var r := Untrailingslash(d + t);
    if d != "" {
      assert (d + t)[|d| - 1] == d[|d| - 1];
      assert !IsSlash((d + t)[|d| - 1]);
    }
    assert |r| >= |d|;
    assert r[..|d|] == (d + t)[..|d|] == d;
  }

  function SslPrefix(ssl: bool): string {
    if ssl then "https-" else ""
  }

  // ---------------------------------------------------------------- sizes

  /** The bytes of all files in a tree. */
  function TotalSize(n: Node): nat
    decreases n, 1
  {
    match n
    case File(_, data) => |data|
    case Dir(_, entries) => EntriesSize(n, |entries|)
  }

  function EntriesSize(n: Node, k: nat): nat
    requires n.Dir? && k <= |n.entries|
    decreases n, 0, k
  {
    if k == 0 then 0 else EntriesSize(n, k - 1) + TotalSize(n.entries[k - 1].1)
  }

  function OrZero(v: Option<nat>): nat {
    if v.Some? then v.value else 0
  }

  /** What `dir_size` returns: null (None) for a file and for an empty
      directory, otherwise the sum over the entries, where a subdirectory
      contributes its own `dir_size` (null adding as 0). */
  function DirSizeOf(n: Node): (r: Option<nat>)
    ensures r.Some? <==> n.Dir? && n.entries != []
    decreases n, 1
  {
    if n.File? || n.entries == [] then None else Some(DirSum(n, |n.entries|))
  }

  function DirSum(n: Node, k: nat): nat
    requires n.Dir? && k <= |n.entries|
    decreases n, 0, k
  {
    if k == 0 then 0
    else
      var child := n.entries[k - 1].1;
      DirSum(n, k - 1) + (if child.Dir? then OrZero(DirSizeOf(child)) else |child.data|)
  }

  /** `dir_size` of a directory is the total size of the files below it;
      an empty directory (null) has none. */
  lemma {:induction false} DirSizeIsTotal(n: Node)
    requires n.Dir?
    ensures OrZero(DirSizeOf(n)) == TotalSize(n)
    decreases n, 1
  {
    DirSumIsTotal(n, |n.entries|);
  }

  lemma {:induction false} DirSumIsTotal(n: Node, k: nat)
    requires n.Dir? && k <= |n.entries|
    ensures DirSum(n, k) == EntriesSize(n, k)
    decreases n, 0, k
  {
    if k > 0 {
      DirSumIsTotal(n, k - 1);
      var child := n.entries[k - 1].1;
      if child.Dir? {
        DirSizeIsTotal(child);
      }
    }
  }

  /** `dir_size`: walks the entries, adding file sizes and the sizes of
      subdirectories. */
  method DirSize(n: Node) returns (r: Option<nat>)
    ensures r == DirSizeOf(n)
    decreases n
  {
    if n.File? || |n.entries| == 0 {
      return None;
    }
    var size := 0;
    var i := 0;
    while i < |n.entries|
      invariant 0 <= i <= |n.entries|
      invariant size == DirSum(n, i)
    {
      var child := n.entries[i].1;
      if child.Dir? {
        var s := DirSize(child);
        size := size + OrZero(s);
      } else {
        size := size + |child.data|;
      }
      i := i + 1;
    }
    return Some(size);
  }

  // ---------------------------------------------------------- deletable

  /** The cache directory of the current blog. */
  function BlogDir(ins: Install): string {
    ins.cacheDir + "/" + SslPrefix(ins.ssl) + ins.blog.domain + ins.blog.path
  }

  /** The cache directory of the network's root site. */
  function RootSiteDir(ins: Install): string {
    ins.cacheDir + "/" + SslPrefix(ins.ssl) + ins.rootSiteDomain + "/"
  }

  /** The loop over the other blogs: does `file` lie in one of their
      directories below `base`? */
  function InSibling(file: string, base: string, paths: seq<string>): (r: bool)
    ensures r <==> exists i :: 0 <= i < |paths| && StartsWith(file, base + paths[i])
  {
    if |paths| == 0 then false
    else if StartsWith(file, base + paths[0]) then true
    else
      assert forall i :: 1 <= i < |paths| ==> paths[i] == paths[1..][i - 1];
      InSibling(file, base, paths[1..])
  }

  /** `is_deletable` for an existing entry (`isDir` says whether it is a
      directory). */
  function IsDeletable(ins: Install, file: string, isDir: bool): (r: bool)
    ensures r ==> StartsWith(file, ins.cacheDir)
    ensures !ins.multisite || ins.networkAdmin ==> (r <==> StartsWith(file, ins.cacheDir))
    ensures ins.multisite && !ins.networkAdmin && r ==>
              StartsWith(if isDir then Trailingslash(file) else file, BlogDir(ins))
    ensures (ins.multisite && !ins.networkAdmin && ins.blog.path == "/" &&
             (if isDir then Trailingslash(file) else file) == RootSiteDir(ins)) ==> !r
    ensures ins.multisite && !ins.networkAdmin && ins.blog.path == "/" ==>
              forall i :: (0 <= i < |ins.siblingPaths| &&
                StartsWith(if isDir then Trailingslash(file) else file,
                           ins.cacheDir + "/" + SslPrefix(ins.ssl) + ins.blog.domain + ins.siblingPaths[i])) ==> !r
  {
    if !StartsWith(file, ins.cacheDir) then false
    else if !ins.multisite || ins.networkAdmin then true
    else
      var f := if isDir then Trailingslash(file) else file;
      if !StartsWith(f, BlogDir(ins)) then false
      else if ins.blog.path != "/" then true
      else if f == RootSiteDir(ins) then false
      else !InSibling(f, ins.cacheDir + "/" + SslPrefix(ins.ssl) + ins.blog.domain, ins.siblingPaths)
  }

  // ----------------------------------------------------------- clearing

  /** What `clear_dir( dir, recursive )` leaves of the tree `n` found at
      `dir`: None when the directory itself is removed. */
  function Cleared(ins: Install, dir: string, n: Node, recursive: bool): (r: Option<Node>)
    ensures r.None? ==> recursive && n.Dir? && n.entries != [] && IsDeletable(ins, Untrailingslash(dir), true)
    ensures r.Some? ==> r.value.mode == n.mode && r.value.Dir? == n.Dir?
    decreases n, 1
  {
    var d := Untrailingslash(dir);
    if n.File? || n.entries == [] then Some(n)
    else
      var kept := ClearedEntries(ins, d, n, recursive, |n.entries|);
      if recursive && IsDeletable(ins, d, true) && kept == [] then None
      else Some(Dir(n.mode, kept))
  }

  /** The first `k` entries of the directory `n` at `d` after the loop of
      `clear_dir`: subdirectories are cleared when recursive, deletable
      files are unlinked, everything else stays. The recursive call starts
      with `untrailingslashit`, so a subdirectory whose name ends in `\`
      is looked up under the cut name, not as itself: it stays as it is. */
  function ClearedEntries(ins: Install, d: string, n: Node, recursive: bool, k: nat): seq<(string, Node)>
    requires n.Dir? && k <= |n.entries|
    decreases n, 0, k
  {
    if k == 0 then []
    else
      var kept := ClearedEntries(ins, d, n, recursive, k - 1);
      var name := n.entries[k - 1].0;
      var child := n.entries[k - 1].1;
      var path := d + "/" + name;
      if child.Dir? && recursive then
        if Untrailingslash(path) != path then kept + [(name, child)]
        else
          match Cleared(ins, path, child, true)
          case None => kept
          case Some(c) => kept + [(name, c)]
      else if child.File? && IsDeletable(ins, path, false) then kept
      else kept + [(name, child)]
  }

  /** `clear_dir`: loops over the entries of the directory, clearing
      subdirectories (when recursive) and unlinking deletable files, then
      removes the directory itself when recursive, deletable and empty. */
  method ClearDir(ins: Install, dir: string, n: Node, recursive: bool) returns (r: Option<Node>)
    ensures r == Cleared(ins, dir, n, recursive)
    decreases n
  {
    var d := Untrailingslash(dir);
    if n.File? || |n.entries| == 0 {
      return Some(n);
    }
    var kept: seq<(string, Node)> := [];
    var i := 0;
    while i < |n.entries|
      invariant 0 <= i <= |n.entries|
      invariant kept == ClearedEntries(ins, d, n, recursive, i)
    {
      var name := n.entries[i].0;
      var child := n.entries[i].1;
      var path := d + "/" + name;
      if child.Dir? && recursive {
        if Untrailingslash(path) != path {
          kept := kept + [(name, child)];
        } else {
          var c := ClearDir(ins, path, child, true);
          if c.Some? {
            kept := kept + [(name, c.value)];
          }
        }
      } else if !(child.File? && IsDeletable(ins, path, false)) {
        kept := kept + [(name, child)];
      }
      i := i + 1;
    }
    if recursive && IsDeletable(ins, d, true) && kept == [] {
      return None;
    }
    return Some(Dir(n.mode, kept));
  }

  /** The full paths of the files in the tree `n` at `dir`, built the way
      `clear_dir` builds them. */
  function FilePaths(dir: string, n: Node): set<string>
    decreases n, 1
  {
    if n.File? then {} else EntryFilePaths(Untrailingslash(dir), n, |n.entries|)
  }

  function EntryFilePaths(d: string, n: Node, k: nat): set<string>
    requires n.Dir? && k <= |n.entries|
    decreases n, 0, k
  {
    if k == 0 then {} else EntryFilePaths(d, n, k - 1) + EntryPaths(d, n.entries[k - 1])
  }

  /** The file paths an entry of the directory at `d` stands for. */
  function EntryPaths(d: string, e: (string, Node)): set<string>
    decreases e.1, 2
  {
    if e.1.File? then {d + "/" + e.0} else FilePaths(d + "/" + e.0, e.1)
  }

  lemma {:induction false} EntryFilePathsPrefix(d: string, m: bv32, es: seq<(string, Node)>, e: (string, Node), k: nat)
    requires k <= |es|
    ensures EntryFilePaths(d, Dir(m, es + [e]), k) == EntryFilePaths(d, Dir(m, es), k)
  {
    if k > 0 {
      EntryFilePathsPrefix(d, m, es, e, k - 1);
      assert (es + [e])[k - 1] == es[k - 1];
    }
  }

  /** Appending an entry adds its paths. */
  lemma {:induction false} EntryFilePathsAppend(d: string, m: bv32, es: seq<(string, Node)>, e: (string, Node))
    ensures EntryFilePaths(d, Dir(m, es + [e]), |es| + 1) == EntryFilePaths(d, Dir(m, es), |es|) + EntryPaths(d, e)
  {
    EntryFilePathsPrefix(d, m, es, e, |es|);
    assert (es + [e])[|es|] == e;
  }

  /** `clear_dir` never removes a file that `is_deletable` refuses: such a
      file is still there afterwards, at the same path. */
  lemma {:induction false} ProtectedFilesSurvive(ins: Install, dir: string, n: Node, recursive: bool, p: string)
    requires p in FilePaths(dir, n) && !IsDeletable(ins, p, false)
    ensures Cleared(ins, dir, n, recursive).Some?
    ensures p in FilePaths(dir, Cleared(ins, dir, n, recursive).value)
    decreases n, 1
  {
    var d := Untrailingslash(dir);
    var kept := ClearedEntries(ins, d, n, recursive, |n.entries|);
    ClearedEntriesKeep(ins, d, n, recursive, |n.entries|, p);
    assert FilePaths(dir, Dir(n.mode, kept)) == EntryFilePaths(d, Dir(n.mode, kept), |kept|);
  }

  lemma {:induction false} ClearedEntriesKeep(ins: Install, d: string, n: Node, recursive: bool, k: nat, p: string)
    requires n.Dir? && k <= |n.entries|
    requires p in EntryFilePaths(d, n, k) && !IsDeletable(ins, p, false)
    ensures var kept := ClearedEntries(ins, d, n, recursive, k);
            p in EntryFilePaths(d, Dir(n.mode, kept), |kept|)
    decreases n, 0, k
  {
    var kept := ClearedEntries(ins, d, n, recursive, k - 1);
    var name := n.entries[k - 1].0;
    var child := n.entries[k - 1].1;
    var path := d + "/" + name;
    if p in EntryFilePaths(d, n, k - 1) {
      ClearedEntriesKeep(ins, d, n, recursive, k - 1, p);
      if child.Dir? && recursive && Untrailingslash(path) != path {
        EntryFilePathsAppend(d, n.mode, kept, (name, child));
      } else if child.Dir? && recursive {
        var c := Cleared(ins, path, child, true);
        if c.Some? {
          EntryFilePathsAppend(d, n.mode, kept, (name, c.value));
        }
      } else if !(child.File? && IsDeletable(ins, path, false)) {
        EntryFilePathsAppend(d, n.mode, kept, (name, child));
      }
    } else if child.File? {
      EntryFilePathsAppend(d, n.mode, kept, (name, child));
    } else if recursive && Untrailingslash(path) == path {
      ProtectedFilesSurvive(ins, path, child, true, p);
      var c := Cleared(ins, path, child, true);
      EntryFilePathsAppend(d, n.mode, kept, (name, c.value));
    } else {
      EntryFilePathsAppend(d, n.mode, kept, (name, child));
    }
  }

  /** A directory name that `untrailingslashit` leaves whole: not empty
      and not ending in `/` or `\`. */
  predicate KeptName(name: string) {
    name != "" && !IsSlash(name[|name| - 1])
  }

  /** Every directory below `n` has a name `untrailingslashit` leaves whole. */
  predicate DirNamesKept(n: Node)
    decreases n
  {
    n.Dir? ==> forall i :: 0 <= i < |n.entries| && n.entries[i].1.Dir? ==>
                 KeptName(n.entries[i].0) && DirNamesKept(n.entries[i].1)
  }

  /** Below a directory that has no trailing slash, a kept name gives a
      path that `untrailingslashit` leaves whole. */
  lemma {:induction false} KeptNamePath(d: string, name: string)
    requires KeptName(name)
    ensures Untrailingslash(d + "/" + name) == d + "/" + name
  {
    var path := d + "/" + name;
    assert path[|path| - 1] == name[|name| - 1];
  }

  /** A recursive clear leaves a subdirectory whose name ends in `\` (or
      `/`) exactly as it was, with every file below it. */
  lemma {:induction false} CutNameKept(ins: Install, dir: string, n: Node, i: nat)
    requires n.Dir? && i < |n.entries| && n.entries[i].1.Dir? && !KeptName(n.entries[i].0)
    ensures Cleared(ins, dir, n, true).Some?
    ensures n.entries[i] in Cleared(ins, dir, n, true).value.entries
  {
    var d := Untrailingslash(dir);
    var name := n.entries[i].0;
    var path := d + "/" + name;
    if name == "" {
      assert path == d + "/";
      assert Untrailingslash(path) == Untrailingslash(d);
    }
    assert Untrailingslash(path) != path;
    ClearedEntriesHold(ins, d, n, i, |n.entries|);
  }

  /** The cut entry `i` is in every later prefix of the loop's result. */
  lemma {:induction false} ClearedEntriesHold(ins: Install, d: string, n: Node, i: nat, k: nat)
    requires n.Dir? && i < k <= |n.entries| && n.entries[i].1.Dir?
    requires Untrailingslash(d + "/" + n.entries[i].0) != d + "/" + n.entries[i].0
    ensures n.entries[i] in ClearedEntries(ins, d, n, true, k)
    decreases k
  {
    if k - 1 > i {
      ClearedEntriesHold(ins, d, n, i, k - 1);
    }
  }

  /** On a single site (or in the network admin) a recursive clear of a
      directory inside `CACHE_DIR`, none of whose subdirectories has a name
      ending in `\`, removes every file below it. */
  lemma {:induction false} ClearRemovesAllFiles(ins: Install, dir: string, n: Node)
    requires !ins.multisite || ins.networkAdmin
    requires StartsWith(Untrailingslash(dir), ins.cacheDir)
    requires DirNamesKept(n)
    ensures var r := Cleared(ins, dir, n, true);
            r.None? || FilePaths(dir, r.value) == {}
    decreases n, 1
  {
    if n.Dir? && n.entries != [] {
      var d := Untrailingslash(dir);
      var kept := ClearedEntries(ins, d, n, true, |n.entries|);
      ClearedEntriesEmpty(ins, d, n, |n.entries|);
      assert FilePaths(dir, Dir(n.mode, kept)) == EntryFilePaths(d, Dir(n.mode, kept), |kept|);
    }
  }

  lemma {:induction false} ClearedEntriesEmpty(ins: Install, d: string, n: Node, k: nat)
    requires !ins.multisite || ins.networkAdmin
    requires d == Untrailingslash(d) && StartsWith(d, ins.cacheDir)
    requires n.Dir? && k <= |n.entries| && DirNamesKept(n)
    ensures var kept := ClearedEntries(ins, d, n, true, k);
            EntryFilePaths(d, Dir(n.mode, kept), |kept|) == {}
    decreases n, 0, k
  {
    if k > 0 {
      ClearedEntriesEmpty(ins, d, n, k - 1);
      ClearedEntryEmpty(ins, d, n, k);
    }
  }

  /** One more entry of the loop adds no file path. */
  lemma {:induction false} ClearedEntryEmpty(ins: Install, d: string, n: Node, k: nat)
    requires !ins.multisite || ins.networkAdmin
    requires d == Untrailingslash(d) && StartsWith(d, ins.cacheDir)
    requires n.Dir? && 0 < k <= |n.entries| && DirNamesKept(n)
    requires var kept := ClearedEntries(ins, d, n, true, k - 1);
             EntryFilePaths(d, Dir(n.mode, kept), |kept|) == {}
    ensures var kept := ClearedEntries(ins, d, n, true, k);
            EntryFilePaths(d, Dir(n.mode, kept), |kept|) == {}
    decreases n, 0, k - 1
  {
    var kept := ClearedEntries(ins, d, n, true, k - 1);
    var name := n.entries[k - 1].0;
    var child := n.entries[k - 1].1;
    var path := d + "/" + name;
    StartsWithPrefix(d, ins.cacheDir);
    if child.Dir? {
      UntrailingslashKeeps(d, "/" + name);
      assert d + ("/" + name) == path;
      KeptNamePath(d, name);
      StartsWithPrefix(Untrailingslash(path), ins.cacheDir);
      ClearRemovesAllFiles(ins, path, child);
      var c := Cleared(ins, path, child, true);
      if c.Some? {
        assert ClearedEntries(ins, d, n, true, k) == kept + [(name, c.value)];
        EntryFilePathsAppend(d, n.mode, kept, (name, c.value));
      } else {
        assert ClearedEntries(ins, d, n, true, k) == kept;
      }
    } else {
      StartsWithPrefix(path, ins.cacheDir);
      assert ClearedEntries(ins, d, n, true, k) == kept;
    }
  }

  // -------------------------------------------------------------- paths

  /** The part of the request URI that `wp_parse_url` reports as its path:
      everything before the query (`?`) or fragment (`#`). */
  function UrlPath(uri: string): (p: string)
    ensures p <= uri
    ensures forall k :: 0 <= k < |p| ==> p[k] != '?' && p[k] != '#'
    ensures |p| < |uri| ==> uri[|p|] == '?' || uri[|p|] == '#'
  {
    if |uri| == 0 || uri[0] == '?' || uri[0] == '#' then ""
    else [uri[0]] + UrlPath(uri[1..])
  }

  /** The request as `file_path` reads it: `is_ssl()`, `HTTP_HOST` and
      `REQUEST_URI` (an unset server variable reads as ""). */
  datatype Location = Location(ssl: bool, host: string, uri: string)

  /** The cache directory of a request relative to `CACHE_DIR`. */
  function RelativeDir(loc: Location): string {
    SslPrefix(loc.ssl) + ToLower(loc.host) + UrlPath(loc.uri)
  }

  /** `file_path()`: `CACHE_DIR`, a separator, `https-` on SSL, the lower-cased
      host and the URL path, with a trailing slash; a path `validate_file`
      objects to (a positive code) ends the request. */
  function FilePath(cacheDir: string, loc: Location, validateFile: string -> int): (r: Result<string>)
    ensures validateFile(cacheDir + "/" + RelativeDir(loc)) > 0 <==> r == Died("Invalid file path.")
    ensures r.Ok? ==> |r.value| > 0 && r.value[|r.value| - 1] == '/' &&
                      r.value[..|r.value| - 1] <= cacheDir + "/" + RelativeDir(loc)
  {
    var path := cacheDir + "/" + RelativeDir(loc);
    if validateFile(path) > 0 then Died("Invalid file path.") else Ok(Trailingslash(path))
  }

  /** The query string and the case of the host do not change the path. */
  lemma {:induction false} FilePathIgnoresQueryAndCase(cacheDir: string, ssl: bool, host: string, path: string, query: string, validateFile: string -> int)
    requires forall k :: 0 <= k < |path| ==> path[k] != '?' && path[k] != '#'
    ensures FilePath(cacheDir, Location(ssl, host, path + "?" + query), validateFile)
         == FilePath(cacheDir, Location(ssl, ToLower(host), path), validateFile)
  {
    UrlPathStops(path, "?" + query);
    assert path + "?" + query == path + ("?" + query);
    UrlPathStops(path, "");
    assert path + "" == path;
    ToLowerIdempotent(host);
    assert RelativeDir(Location(ssl, host, path + "?" + query)) == RelativeDir(Location(ssl, ToLower(host), path));
  }

  /** A request path that does not end in a slash gives exactly
      `CACHE_DIR/<prefix><host><path>/`. */
  lemma {:induction false} FilePathExact(cacheDir: string, loc: Location, validateFile: string -> int)
    requires validateFile(cacheDir + "/" + RelativeDir(loc)) <= 0
    requires var rel := RelativeDir(loc); rel != "" && !IsSlash(rel[|rel| - 1])
    ensures FilePath(cacheDir, loc, validateFile) == Ok(cacheDir + "/" + RelativeDir(loc) + "/")
  {
    var path := cacheDir + "/" + RelativeDir(loc);
    assert path[|path| - 1] == RelativeDir(loc)[|RelativeDir(loc)| - 1];
  }

  lemma {:induction false} UrlPathStops(path: string, rest: string)
    requires forall k :: 0 <= k < |path| ==> path[k] != '?' && path[k] != '#'
    requires rest == "" || rest[0] == '?' || rest[0] == '#'
    ensures UrlPath(path + rest) == path
    decreases |path|
  {
    if path != "" {
      assert (path + rest)[0] == path[0];
      assert (path + rest)[1..] == path[1..] + rest;
      UrlPathStops(path[1..], rest);
    }
  }

  lemma {:induction false} ToLowerIdempotent(s: string)
    ensures ToLower(ToLower(s)) == ToLower(s)
  {
    assert forall k :: 0 <= k < |s| ==> LowerChar(LowerChar(s[k])) == LowerChar(s[k]);
  }

  /** `file_html( $file_path )` and `file_gzip( $file_path )`: the directory
      given, or `file_path()` when it is empty, followed by the file name. */
  function CacheFile(name: string, dir: string, cacheDir: string, loc: Location, validateFile: string -> int): (r: Result<string>)
    ensures Truthy(Str(dir)) ==> r == Ok(dir + name)
    ensures !Truthy(Str(dir)) ==> r == (if FilePath(cacheDir, loc, validateFile).Ok?
                                        then Ok(FilePath(cacheDir, loc, validateFile).value + name)
                                        else FilePath(cacheDir, loc, validateFile))
  {
    if Truthy(Str(dir)) then Ok(dir + name)
    else
      match FilePath(cacheDir, loc, validateFile)
      case Ok(p) => Ok(p + name)
      case Died(m) => Died(m)
  }

  /** `file_html( $file_path )`. */
  function FileHtml(dir: string, cacheDir: string, loc: Location, validateFile: string -> int): Result<string> {
    CacheFile("index.html", dir, cacheDir, loc, validateFile)
  }

  /** `file_gzip( $file_path )`. */
  function FileGzip(dir: string, cacheDir: string, loc: Location, validateFile: string -> int): Result<string> {
    CacheFile("index.html.gz", dir, cacheDir, loc, validateFile)
  }

  /** The permission bits `create_file` gives a cache file: those of its
      directory, `& 07777 & 0666`. They never include an execute bit
      (0111) nor the set-id and sticky bits (07000). */
  function CacheFileMode(dirMode: bv32): (perms: bv32)
    ensures perms & 0x49 == 0
    ensures perms & 0xE00 == 0
    ensures perms & 0x1B6 == dirMode & 0x1B6
  {
    dirMode & 0xFFF & 0x1B6
  }

  // ---------------------------------------------------------------- tree

  /** The directory names of a relative path, as `mkdir` walks them: empty
      pieces and `.` are skipped. */
  function Components(rel: string): (comps: seq<string>)
    ensures forall i :: 0 <= i < |comps| ==> comps[i] != "" && comps[i] != "." && '/' !in comps[i]
  {
    var pieces := Split(rel, '/');
    ComponentsOf(pieces)
  }

  function ComponentsOf(pieces: seq<string>): (comps: seq<string>)
    requires forall i :: 0 <= i < |pieces| ==> '/' !in pieces[i]
    ensures forall i :: 0 <= i < |comps| ==> comps[i] != "" && comps[i] != "." && '/' !in comps[i]
  {
    if |pieces| == 0 then []
    else
      var rest := ComponentsOf(pieces[..|pieces| - 1]);
      var last := pieces[|pieces| - 1];
      if last == "" || last == "." then rest else rest + [last]
  }

  /** The index of the first entry called `name`. */
  function FindEntry(entries: seq<(string, Node)>, name: string): (r: Option<nat>)
    ensures r.Some? ==> r.value < |entries| && entries[r.value].0 == name
    ensures r.None? ==> forall j :: 0 <= j < |entries| ==> entries[j].0 != name
  {
    if |entries| == 0 then None
    else if entries[0].0 == name then Some(0)
    else
      match FindEntry(entries[1..], name)
      case None => None
      case Some(j) => Some(j + 1)
  }

  /** The node at the directory names `comps` below `n`. */
  function Lookup(n: Node, comps: seq<string>): Option<Node>
    decreases |comps|
  {
    if comps == [] then Some(n)
    else if n.File? then None
    else
      match FindEntry(n.entries, comps[0])
      case None => None
      case Some(i) => Lookup(n.entries[i].1, comps[1..])
  }

  /** New directories along `comps`, with the permission bits `perms`. */
  function NewDirs(comps: seq<string>, perms: bv32): (n: Node)
    ensures n.Dir? && n.mode == DirType | perms
    decreases |comps|
  {
    if comps == [] then Dir(DirType | perms, [])
    else Dir(DirType | perms, [(comps[0], NewDirs(comps[1..], perms))])
  }

  /** `wp_mkdir_p` below a directory: the missing directories of `comps` are
      created with the permission bits of the nearest existing one
      (`perms` when `n` itself is missing); a file in the way makes it fail
      (None). */
  function MakeDirs(n: Option<Node>, comps: seq<string>, perms: bv32): (r: Option<Node>)
    decreases |comps|
  {
    if n.None? then Some(NewDirs(comps, perms))
    else if n.value.File? then None
    else if comps == [] then n
    else
      var d := n.value;
      match FindEntry(d.entries, comps[0])
      case None => Some(Dir(d.mode, d.entries + [(comps[0], NewDirs(comps[1..], d.mode & 0xFFF))]))
      case Some(i) =>
        match MakeDirs(Some(d.entries[i].1), comps[1..], d.mode & 0xFFF)
        case None => None
        case Some(c) => Some(Dir(d.mode, d.entries[i := (comps[0], c)]))
  }

  /** `create_file` of `name` in the directory at `comps`: a directory of
      that name makes `fopen` fail; otherwise the file holds `data` with the
      mode `CacheFileMode` of its directory. */
  function WriteFile(n: Node, comps: seq<string>, name: string, data: string): Node
    decreases |comps|
  {
    if n.File? then n
    else if comps == [] then
      match FindEntry(n.entries, name)
      case None => Dir(n.mode, n.entries + [(name, File(FileType | CacheFileMode(n.mode), data))])
      case Some(i) =>
        if n.entries[i].1.Dir? then n
        else Dir(n.mode, n.entries[i := (name, File(FileType | CacheFileMode(n.mode), data))])
    else
      match FindEntry(n.entries, comps[0])
      case None => n
      case Some(i) => Dir(n.mode, n.entries[i := (comps[0], WriteFile(n.entries[i].1, comps[1..], name, data))])
  }

  /** The directories a successful `wp_mkdir_p` asks for exist afterwards. */
  lemma {:induction false} MakeDirsMakes(n: Option<Node>, comps: seq<string>, perms: bv32)
    requires MakeDirs(n, comps, perms).Some?
    ensures Lookup(MakeDirs(n, comps, perms).value, comps).Some?
    ensures Lookup(MakeDirs(n, comps, perms).value, comps).value.Dir?
    decreases |comps|
  {
    if n.None? {
      NewDirsMakes(comps, perms);
    } else if comps != [] {
      var d := n.value;
      var found := FindEntry(d.entries, comps[0]);
      if found.None? {
        MakeDirsAppends(d, comps, perms);
      } else {
        var i := found.value;
        var sub := MakeDirs(Some(d.entries[i].1), comps[1..], d.mode & 0xFFF);
        MakeDirsMakes(Some(d.entries[i].1), comps[1..], d.mode & 0xFFF);
        MakeDirsUpdates(d, comps, perms, i, sub.value);
      }
    }
  }

  /** A missing first directory is appended, with the rest below it. */
  lemma {:induction false} MakeDirsAppends(d: Node, comps: seq<string>, perms: bv32)
    requires d.Dir? && comps != [] && FindEntry(d.entries, comps[0]).None?
    ensures MakeDirs(Some(d), comps, perms).Some?
    ensures Lookup(MakeDirs(Some(d), comps, perms).value, comps).Some?
    ensures Lookup(MakeDirs(Some(d), comps, perms).value, comps).value.Dir?
  {
    var child := NewDirs(comps[1..], d.mode & 0xFFF);
    MakeDirsAppendValue(d, comps, perms);
    AppendedLookup(d.mode, d.entries, comps, child);
    NewDirsMakes(comps[1..], d.mode & 0xFFF);
  }

  lemma {:induction false} MakeDirsAppendValue(d: Node, comps: seq<string>, perms: bv32)
    requires d.Dir? && comps != [] && FindEntry(d.entries, comps[0]).None?
    ensures MakeDirs(Some(d), comps, perms) == Some(Dir(d.mode, d.entries + [(comps[0], NewDirs(comps[1..], d.mode & 0xFFF))]))
  {
  }

  /** Below a new last entry, lookups continue in that entry. */
  lemma {:induction false} AppendedLookup(mode: bv32, es: seq<(string, Node)>, comps: seq<string>, child: Node)
    requires comps != [] && FindEntry(es, comps[0]).None?
    ensures Lookup(Dir(mode, es + [(comps[0], child)]), comps) == Lookup(child, comps[1..])
  {
    FindEntryAppended(es, comps[0], child);
    LookupStep(mode, es + [(comps[0], child)], comps, |es|);
  }

  /** An existing first directory is replaced by its updated copy. */
  lemma {:induction false} MakeDirsUpdates(d: Node, comps: seq<string>, perms: bv32, i: nat, c: Node)
    requires d.Dir? && comps != [] && FindEntry(d.entries, comps[0]) == Some(i)
    requires MakeDirs(Some(d.entries[i].1), comps[1..], d.mode & 0xFFF) == Some(c)
    requires Lookup(c, comps[1..]).Some? && Lookup(c, comps[1..]).value.Dir?
    ensures MakeDirs(Some(d), comps, perms) == Some(Dir(d.mode, d.entries[i := (comps[0], c)]))
    ensures Lookup(Dir(d.mode, d.entries[i := (comps[0], c)]), comps) == Lookup(c, comps[1..])
  {
    var es := d.entries[i := (comps[0], c)];
    FindEntryUpdated(d.entries, i, comps[0], c);
    LookupStep(d.mode, es, comps, i);
  }

  /** Looking up below a directory goes through the entry of the first name. */
  lemma {:induction false} LookupStep(mode: bv32, es: seq<(string, Node)>, comps: seq<string>, i: nat)
    requires comps != [] && FindEntry(es, comps[0]) == Some(i)
    ensures Lookup(Dir(mode, es), comps) == Lookup(es[i].1, comps[1..])
  {
  }

  lemma {:induction false} NewDirsMakes(comps: seq<string>, perms: bv32)
    ensures Lookup(NewDirs(comps, perms), comps).Some?
    ensures Lookup(NewDirs(comps, perms), comps).value.Dir?
    decreases |comps|
  {
    if comps != [] {
      NewDirsMakes(comps[1..], perms);
    }
  }

  lemma {:induction false} FindEntryAppended(es: seq<(string, Node)>, name: string, c: Node)
    requires FindEntry(es, name).None?
    ensures FindEntry(es + [(name, c)], name) == Some(|es|)
  {
    if |es| > 0 {
      assert (es + [(name, c)])[1..] == es[1..] + [(name, c)];
      FindEntryAppended(es[1..], name, c);
    }
  }

  lemma {:induction false} FindEntryUpdated(es: seq<(string, Node)>, i: nat, name: string, c: Node)
    requires FindEntry(es, name) == Some(i)
    ensures FindEntry(es[i := (name, c)], name) == Some(i)
  {
    if i > 0 {
      assert es[i := (name, c)][1..] == es[1..][i - 1 := (name, c)];
      FindEntryUpdated(es[1..], i - 1, name, c);
    }
  }

  /** After `create_file` the file is there with the data written and the
      masked mode, provided no directory of that name was in the way. */
  lemma {:induction false} WriteFileReads(n: Node, comps: seq<string>, name: string, data: string)
    requires Lookup(n, comps).Some? && Lookup(n, comps).value.Dir?
    requires var e := FindEntry(Lookup(n, comps).value.entries, name);
             e.None? || Lookup(n, comps).value.entries[e.value].1.File?
    ensures Lookup(WriteFile(n, comps, name, data), comps + [name])
         == Some(File(FileType | CacheFileMode(Lookup(n, comps).value.mode), data))
    decreases |comps|
  {
    if comps == [] {
      assert Lookup(n, []) == Some(n);
      match FindEntry(n.entries, name)
      case None =>
        FindEntryAppended(n.entries, name, File(FileType | CacheFileMode(n.mode), data));
      case Some(i) =>
        FindEntryUpdated(n.entries, i, name, File(FileType | CacheFileMode(n.mode), data));
    } else {
      var i := FindEntry(n.entries, comps[0]).value;
      WriteFileReads(n.entries[i].1, comps[1..], name, data);
      FindEntryUpdated(n.entries, i, comps[0], WriteFile(n.entries[i].1, comps[1..], name, data));
      assert (comps + [name])[1..] == comps[1..] + [name];
    }
  }

  /** Writing one file of a directory leaves another name there as it was. */
  lemma {:induction false} WriteFileKeepsOther(n: Node, comps: seq<string>, name: string, data: string, other: string)
    requires other != name
    ensures Lookup(WriteFile(n, comps, name, data), comps + [other]) == Lookup(n, comps + [other])
    decreases |comps|
  {
    if n.Dir? {
      if comps == [] {
        FindEntryOther(n, name, data, other);
      } else {
        match FindEntry(n.entries, comps[0])
        case None =>
        case Some(i) =>
          WriteFileKeepsOther(n.entries[i].1, comps[1..], name, data, other);
          FindEntryUpdated(n.entries, i, comps[0], WriteFile(n.entries[i].1, comps[1..], name, data));
          assert (comps + [other])[1..] == comps[1..] + [other];
      }
    }
  }

  lemma {:induction false} FindEntryOther(n: Node, name: string, data: string, other: string)
    requires n.Dir? && other != name
    ensures Lookup(WriteFile(n, [], name, data), [other]) == Lookup(n, [other])
  {
    var f := File(FileType | CacheFileMode(n.mode), data);
    var w := WriteFile(n, [], name, data);
    match FindEntry(n.entries, name)
    case None =>
      assert w == Dir(n.mode, n.entries + [(name, f)]);
      FindEntryAppendedOther(n.entries, name, f, other);
      LookupOneSame(n.mode, n.entries, n.entries + [(name, f)], other);
    case Some(i) =>
      if n.entries[i].1.File? {
        assert w == Dir(n.mode, n.entries[i := (name, f)]);
        FindEntryUpdatedOther(n.entries, i, name, f, other);
        LookupOneSame(n.mode, n.entries, n.entries[i := (name, f)], other);
      }
  }

  /** Two listings that find the same entry for `other` look it up alike. */
  lemma {:induction false} LookupOneSame(mode: bv32, es: seq<(string, Node)>, es': seq<(string, Node)>, other: string)
    requires FindEntry(es', other) == FindEntry(es, other)
    requires FindEntry(es, other).Some? ==> es'[FindEntry(es, other).value] == es[FindEntry(es, other).value]
    ensures Lookup(Dir(mode, es'), [other]) == Lookup(Dir(mode, es), [other])
  {
    assert [other][1..] == [];
  }

  lemma {:induction false} FindEntryAppendedOther(es: seq<(string, Node)>, name: string, c: Node, other: string)
    requires other != name
    ensures FindEntry(es + [(name, c)], other) == FindEntry(es, other)
  {
    if |es| > 0 {
      assert (es + [(name, c)])[1..] == es[1..] + [(name, c)];
      FindEntryAppendedOther(es[1..], name, c, other);
    }
  }

  lemma {:induction false} FindEntryUpdatedOther(es: seq<(string, Node)>, i: nat, name: string, c: Node, other: string)
    requires i < |es| && es[i].0 == name && other != name
    ensures FindEntry(es[i := (name, c)], other) == FindEntry(es, other)
    ensures FindEntry(es, other).Some? ==> FindEntry(es, other).value != i
  {
    if i > 0 && es[0].0 != other {
      assert es[i := (name, c)][1..] == es[1..][i - 1 := (name, c)];
      FindEntryUpdatedOther(es[1..], i - 1, name, c, other);
    }
  }

  /** Looking up one more name is looking it up in the directory found. */
  lemma {:induction false} LookupAppend(n: Node, comps: seq<string>, name: string)
    ensures Lookup(n, comps + [name]) ==
            (if Lookup(n, comps).Some? then Lookup(Lookup(n, comps).value, [name]) else None)
    decreases |comps|
  {
    if comps != [] {
      assert (comps + [name])[0] == comps[0];
      assert (comps + [name])[1..] == comps[1..] + [name];
      if n.Dir? && FindEntry(n.entries, comps[0]).Some? {
        LookupAppend(n.entries[FindEntry(n.entries, comps[0]).value].1, comps[1..], name);
      }
    } else {
      assert comps + [name] == [name];
    }
  }

  /** Writing a file keeps its directory, with the directory's mode. */
  lemma {:induction false} WriteFileKeepsDir(n: Node, comps: seq<string>, name: string, data: string)
    requires Lookup(n, comps).Some? && Lookup(n, comps).value.Dir?
    ensures Lookup(WriteFile(n, comps, name, data), comps).Some?
    ensures Lookup(WriteFile(n, comps, name, data), comps).value.Dir?
    ensures Lookup(WriteFile(n, comps, name, data), comps).value.mode == Lookup(n, comps).value.mode
    decreases |comps|
  {
    if comps != [] {
      var i := FindEntry(n.entries, comps[0]).value;
      WriteFileKeepsDir(n.entries[i].1, comps[1..], name, data);
      FindEntryUpdated(n.entries, i, comps[0], WriteFile(n.entries[i].1, comps[1..], name, data));
    }
  }

  /** What `create_files` writes into the tree `t` holding its directory
      `comps`: `index.html` with the data, then `index.html.gz` with the
      compressed data. */
  function WriteCacheFiles(t: Node, comps: seq<string>, data: string, gz: string): Node {
    WriteFile(WriteFile(t, comps, "index.html", data), comps, "index.html.gz", gz)
  }

  /** Nothing, or a file, is at `path` below `t`: no directory is in the way. */
  predicate NoDirAt(t: Node, path: seq<string>) {
    Lookup(t, path).None? || Lookup(t, path).value.File?
  }

  /** `WriteFileReads` with its condition stated on paths. */
  lemma {:induction false} WriteFileReadsAt(n: Node, comps: seq<string>, name: string, data: string)
    requires Lookup(n, comps).Some? && Lookup(n, comps).value.Dir?
    requires NoDirAt(n, comps + [name])
    ensures Lookup(WriteFile(n, comps, name, data), comps + [name])
         == Some(File(FileType | CacheFileMode(Lookup(n, comps).value.mode), data))
  {
    var dir := Lookup(n, comps).value;
    LookupAppend(n, comps, name);
    assert Lookup(dir, [name]) == (match FindEntry(dir.entries, name)
                                    case None => None
                                    case Some(i) => Lookup(dir.entries[i].1, []));
    WriteFileReads(n, comps, name, data);
  }

  /** The HTML cache file reads back with the data written. */
  lemma {:induction false} HtmlReadBack(t: Node, comps: seq<string>, data: string, gz: string)
    requires Lookup(t, comps).Some? && Lookup(t, comps).value.Dir?
    requires NoDirAt(t, comps + ["index.html"])
    ensures Lookup(WriteCacheFiles(t, comps, data, gz), comps + ["index.html"])
         == Some(File(FileType | CacheFileMode(Lookup(t, comps).value.mode), data))
  {
    WriteFileReadsAt(t, comps, "index.html", data);
    WriteFileKeepsOther(WriteFile(t, comps, "index.html", data), comps, "index.html.gz", gz, "index.html");
  }

  /** The gzip cache file reads back with the compressed data. */
  lemma {:induction false} GzipReadBack(t: Node, comps: seq<string>, data: string, gz: string)
    requires Lookup(t, comps).Some? && Lookup(t, comps).value.Dir?
    requires NoDirAt(t, comps + ["index.html.gz"])
    ensures Lookup(WriteCacheFiles(t, comps, data, gz), comps + ["index.html.gz"])
         == Some(File(FileType | CacheFileMode(Lookup(t, comps).value.mode), gz))
  {
    var t1 := WriteFile(t, comps, "index.html", data);
    WriteFileKeepsDir(t, comps, "index.html", data);
    WriteFileKeepsOther(t, comps, "index.html", data, "index.html.gz");
    WriteFileReadsAt(t1, comps, "index.html.gz", gz);
  }

  // ---------------------------------------------------------- wp_mkdir_p

  /** `rtrim( $s, '/' )`. */
  function RtrimSlash(s: string): (r: string)
    ensures r <= s
    ensures r == "" || r[|r| - 1] != '/'
    decreases |s|
  {
    if |s| > 0 && s[|s| - 1] == '/' then RtrimSlash(s[..|s| - 1]) else s
  }

  /** The directory names of `file_path()` below `CACHE_DIR`: `trailingslashit`
      has dropped the trailing `/` and `\` of the relative path. */
  function TargetComponents(loc: Location): seq<string> {
    Components(Untrailingslash(RelativeDir(loc)))
  }

  lemma {:induction false} UntrailingslashAppend(d: string, t: string)
    requires Untrailingslash(t) != ""
    ensures Untrailingslash(d + t) == d + Untrailingslash(t)
    decreases |t|
  {
    assert t != "";
    assert (d + t)[|d + t| - 1] == t[|t| - 1];
    if IsSlash(t[|t| - 1]) {
      assert (d + t)[..|d + t| - 1] == d + t[..|t| - 1];
      UntrailingslashAppend(d, t[..|t| - 1]);
    }
  }

  /** `file_path()` is `CACHE_DIR`, a separator, the relative path without
      its trailing slashes and backslashes, and one slash: the path whose
      names `TargetComponents` lists. */
  lemma {:induction false} FilePathNames(cacheDir: string, loc: Location, validateFile: string -> int)
    requires FilePath(cacheDir, loc, validateFile).Ok?
    requires Untrailingslash(RelativeDir(loc)) != ""
    ensures FilePath(cacheDir, loc, validateFile).value == cacheDir + "/" + Untrailingslash(RelativeDir(loc)) + "/"
  {
    UntrailingslashAppend(cacheDir + "/", RelativeDir(loc));
  }

  /** The path the names `comps` lead to when each `..` drops the name
      before it, as PHP expands a path for a recursive `mkdir`; None when a
      `..` climbs above `CACHE_DIR`. */
  function Lexical(comps: seq<string>): (r: Option<seq<string>>)
    ensures r.Some? ==> ".." !in r.value
    ensures ".." !in comps ==> r == Some(comps)
    decreases |comps|
  {
    if comps == [] then Some([])
    else
      var init := comps[..|comps| - 1];
      var last := comps[|comps| - 1];
      assert ".." !in comps ==> ".." !in init;
      assert comps == init + [last];
      match Lexical(init)
      case None => None
      case Some(p) =>
        if last != ".." then Some(p + [last])
        else if p == [] then None
        else Some(p[..|p| - 1])
  }

  /** The path, free of `..`, that the file system reaches for the names
      `comps` below the tree `t`: each name must be there, and `..` steps
      out of a directory; None when a name is missing, a `..` follows a
      file, or a `..` climbs above `t`. */
  function Resolve(t: Node, comps: seq<string>): Option<seq<string>>
    decreases |comps|
  {
    if comps == [] then Some([])
    else
      match Resolve(t, comps[..|comps| - 1])
      case None => None
      case Some(p) =>
        var last := comps[|comps| - 1];
        if last != ".." then (if Lookup(t, p + [last]).Some? then Some(p + [last]) else None)
        else if p != [] && Lookup(t, p).Some? && Lookup(t, p).value.Dir? then Some(p[..|p| - 1])
        else None
  }

  /** The node the names `comps` reach below `CACHE_DIR`. */
  function Reach(root: Option<Node>, comps: seq<string>): Option<Node> {
    if root.None? then None
    else
      match Resolve(root.value, comps)
      case None => None
      case Some(p) => Lookup(root.value, p)
  }

  /** A path that resolves exists, and it is where expanding its `..`
      leads. */
  lemma {:induction false} ResolveLands(t: Node, comps: seq<string>)
    requires Resolve(t, comps).Some?
    ensures Lookup(t, Resolve(t, comps).value).Some?
    ensures Resolve(t, comps) == Lexical(comps)
    decreases |comps|
  {
    if comps != [] {
      var init := comps[..|comps| - 1];
      var p := Resolve(t, init).value;
      ResolveLands(t, init);
      if comps[|comps| - 1] == ".." {
        LookupAppend(t, p[..|p| - 1], p[|p| - 1]);
        assert p[..|p| - 1] + [p[|p| - 1]] == p;
      }
    }
  }

  /** Without `..` the names lead to themselves, when they exist. */
  lemma {:induction false} ResolvePlain(t: Node, comps: seq<string>)
    requires ".." !in comps
    ensures Resolve(t, comps) == (if Lookup(t, comps).Some? then Some(comps) else None)
    decreases |comps|
  {
    if comps != [] {
      var init := comps[..|comps| - 1];
      var last := comps[|comps| - 1];
      assert comps == init + [last];
      assert ".." !in init;
      ResolvePlain(t, init);
      LookupAppend(t, init, last);
    }
  }

  /** One more name behind a path that resolves. */
  lemma {:induction false} ResolveStep(t: Node, comps: seq<string>, name: string)
    requires name != ".." && Resolve(t, comps).Some?
    requires Lookup(t, Resolve(t, comps).value + [name]).Some?
    ensures Resolve(t, comps + [name]) == Some(Resolve(t, comps).value + [name])
  {
    assert (comps + [name])[..|comps|] == comps;
  }

  /** Writing a file keeps every path that was there, with its kind. */
  lemma {:induction false} WriteFileKeepsPath(n: Node, comps: seq<string>, name: string, data: string, q: seq<string>)
    requires Lookup(n, q).Some?
    ensures Lookup(WriteFile(n, comps, name, data), q).Some?
    ensures Lookup(WriteFile(n, comps, name, data), q).value.Dir? == Lookup(n, q).value.Dir?
    decreases |q|
  {
    if q != [] && n.Dir? {
      if comps == [] {
        WriteHereKeepsPath(n, name, data, q);
      } else {
        match FindEntry(n.entries, comps[0])
        case None =>
        case Some(i) =>
          var sub := WriteFile(n.entries[i].1, comps[1..], name, data);
          var es := n.entries[i := (comps[0], sub)];
          assert WriteFile(n, comps, name, data) == Dir(n.mode, es);
          LookupStep(n.mode, n.entries, q, FindEntry(n.entries, q[0]).value);
          if q[0] == comps[0] {
            FindEntryUpdated(n.entries, i, comps[0], sub);
            LookupStep(n.mode, es, q, i);
            WriteFileKeepsPath(n.entries[i].1, comps[1..], name, data, q[1..]);
          } else {
            FindEntryUpdatedOther(n.entries, i, comps[0], sub, q[0]);
            LookupStep(n.mode, es, q, FindEntry(n.entries, q[0]).value);
          }
      }
    }
  }

  /** `WriteFileKeepsPath` for a file written in the directory `n` itself. */
  lemma {:induction false} WriteHereKeepsPath(n: Node, name: string, data: string, q: seq<string>)
    requires n.Dir? && q != [] && Lookup(n, q).Some?
    ensures Lookup(WriteFile(n, [], name, data), q).Some?
    ensures Lookup(WriteFile(n, [], name, data), q).value.Dir? == Lookup(n, q).value.Dir?
  {
    var f := File(FileType | CacheFileMode(n.mode), data);
    var w := WriteFile(n, [], name, data);
    assert n == Dir(n.mode, n.entries);
    match FindEntry(n.entries, name)
    case None =>
      assert w == Dir(n.mode, n.entries + [(name, f)]);
      AppendedKeepsPath(n.mode, n.entries, name, f, q);
    case Some(i) =>
      if n.entries[i].1.File? {
        assert w == Dir(n.mode, n.entries[i := (name, f)]);
        ReplacedKeepsPath(n.mode, n.entries, i, name, f, q);
      } else {
        assert w == n;
      }
  }

  /** A new entry keeps every path that was there. */
  lemma {:induction false} AppendedKeepsPath(mode: bv32, es: seq<(string, Node)>, name: string, f: Node, q: seq<string>)
    requires FindEntry(es, name).None? && q != [] && Lookup(Dir(mode, es), q).Some?
    ensures Lookup(Dir(mode, es + [(name, f)]), q) == Lookup(Dir(mode, es), q)
  {
    var j := FindEntry(es, q[0]).value;
    LookupStep(mode, es, q, j);
    FindEntryAppendedOther(es, name, f, q[0]);
    LookupStep(mode, es + [(name, f)], q, j);
  }

  /** A file replacing a file keeps every path that was there, with its kind. */
  lemma {:induction false} ReplacedKeepsPath(mode: bv32, es: seq<(string, Node)>, i: nat, name: string, f: Node, q: seq<string>)
    requires FindEntry(es, name) == Some(i) && es[i].1.File? && f.File?
    requires q != [] && Lookup(Dir(mode, es), q).Some?
    ensures Lookup(Dir(mode, es[i := (name, f)]), q).Some?
    ensures Lookup(Dir(mode, es[i := (name, f)]), q).value.Dir? == Lookup(Dir(mode, es), q).value.Dir?
  {
    var j := FindEntry(es, q[0]).value;
    LookupStep(mode, es, q, j);
    if q[0] == name {
      FindEntryUpdated(es, i, name, f);
      LookupStep(mode, es[i := (name, f)], q, i);
    } else {
      FindEntryUpdatedOther(es, i, name, f, q[0]);
      LookupStep(mode, es[i := (name, f)], q, j);
    }
  }

  /** Writing a file keeps every path that resolved where it resolved. */
  lemma {:induction false} WriteFileKeepsResolve(n: Node, comps: seq<string>, name: string, data: string, path: seq<string>)
    requires Resolve(n, path).Some?
    ensures Resolve(WriteFile(n, comps, name, data), path) == Resolve(n, path)
    decreases |path|
  {
    if path != [] {
      var init := path[..|path| - 1];
      var last := path[|path| - 1];
      WriteFileKeepsResolve(n, comps, name, data, init);
      var p := Resolve(n, init).value;
      if last == ".." {
        WriteFileKeepsPath(n, comps, name, data, p);
      } else {
        WriteFileKeepsPath(n, comps, name, data, p + [last]);
      }
    }
  }

  /** What `wp_mkdir_p` leaves: `Ready(made, dir)` when the directory at
      `dir` in the tree `made` is there to write into; `Unready(left)` when
      it is not, with the tree as it is left (a recursive `mkdir` may have
      made directories on the way). */
  datatype Mkdir = Ready(made: Node, dir: seq<string>) | Unready(left: Option<Node>)

  /** `wp_mkdir_p( $target )` for the directory names `comps` of `target`
      below `CACHE_DIR`. An existing target succeeds exactly when it is a
      directory. A missing one is refused when it holds `../` once its
      trailing slashes are trimmed; otherwise PHP's recursive `mkdir`
      expands its `..` and makes the missing directories. A missing target
      with a `..` lacked the directory before that `..`, so nothing can be
      opened below it afterwards. */
  function MakeTarget(root: Option<Node>, perms: bv32, target: string, comps: seq<string>): Mkdir {
    var found := if root.None? then None else Resolve(root.value, comps);
    if found.Some? then
      if Lookup(root.value, found.value).Some? && Lookup(root.value, found.value).value.Dir?
      then Ready(root.value, found.value)
      else Unready(root)
    else if Contains(RtrimSlash(target), "../") then Unready(root)
    else
      match Lexical(comps)
      case None => Unready(root)
      case Some(lex) =>
        match MakeDirs(root, lex, perms)
        case None => Unready(root)
        case Some(t) => if ".." in comps then Unready(Some(t)) else Ready(t, comps)
  }

  /** After a successful `wp_mkdir_p` the directory is there, and the
      target's names resolve to it. */
  lemma {:induction false} MakeTargetReady(root: Option<Node>, perms: bv32, target: string, comps: seq<string>)
    requires MakeTarget(root, perms, target, comps).Ready?
    ensures var m := MakeTarget(root, perms, target, comps);
            Lookup(m.made, m.dir).Some? && Lookup(m.made, m.dir).value.Dir? &&
            Resolve(m.made, comps) == Some(m.dir)
  {
    var found := if root.None? then None else Resolve(root.value, comps);
    if found.None? {
      assert ".." !in comps;
      assert Lexical(comps) == Some(comps);
      var t := MakeDirs(root, comps, perms).value;
      MakeDirsMakes(root, comps, perms);
      ResolvePlain(t, comps);
    }
  }

  /** A target ending in `/..` below an existing directory is that
      directory's parent, and `wp_mkdir_p` succeeds on it. */
  lemma {:induction false} TrailingDotDotIsParent(t: Node, perms: bv32, target: string, dir: seq<string>, name: string)
    requires ".." !in dir && name != ".."
    requires Lookup(t, dir + [name]).Some? && Lookup(t, dir + [name]).value.Dir?
    ensures MakeTarget(Some(t), perms, target, dir + [name, ".."]) == Ready(t, dir)
  {
    var comps := dir + [name, ".."];
    assert comps[..|comps| - 1] == dir + [name];
    assert ".." !in dir + [name];
    ResolvePlain(t, dir + [name]);
    assert (dir + [name])[..|dir + [name]| - 1] == dir;
    LookupAppend(t, dir, name);
  }

  /** A backslash at the end of the URL path names no directory: the files
      go where they go without it. */
  lemma {:induction false} TrailingBackslashIgnored(ssl: bool, host: string, path: string)
    requires forall k :: 0 <= k < |path| ==> path[k] != '?' && path[k] != '#'
    ensures TargetComponents(Location(ssl, host, path + "\\")) == TargetComponents(Location(ssl, host, path))
  {
    var p := path + "\\";
    assert forall k :: 0 <= k < |p| ==> p[k] != '?' && p[k] != '#';
    UrlPathStops(p, "");
    assert p + "" == p;
    UrlPathStops(path, "");
    assert path + "" == path;
    var rel := SslPrefix(ssl) + ToLower(host) + path;
    assert RelativeDir(Location(ssl, host, p)) == rel + "\\";
    assert (rel + "\\")[..|rel + "\\"| - 1] == rel;
  }

  /** The tree at `CACHE_DIR` after `create_files` wrote `data` (and its
      compressed form `gz`) for the directory `target` with the names
      `comps`: when `wp_mkdir_p` fails nothing is written. */
  function CreatedTree(root: Option<Node>, perms: bv32, target: string, comps: seq<string>, data: string, gz: string): Option<Node> {
    match MakeTarget(root, perms, target, comps)
    case Unready(t) => t
    case Ready(t, dir) => Some(WriteCacheFiles(t, dir, data, gz))
  }

  /** The page cache directory `CACHE_DIR` on disk. */
  class CacheStore {
    /** CACHE_DIR and the site it serves. */
    const ins: Install
    /** The mode of the nearest existing directory above CACHE_DIR. */
    const baseMode: bv32
    /** The tree at CACHE_DIR; None while the directory does not exist. */
    var root: Option<Node>

    constructor(ins: Install, baseMode: bv32, root: Option<Node>)
      ensures this.ins == ins && this.baseMode == baseMode && this.root == root
    {
      this.ins := ins;
      this.baseMode := baseMode;
      this.root := root;
    }

    /** `create_files( $data )`. */
    method CreateFiles(loc: Location, data: string, gzip: string -> string, validateFile: string -> int) returns (r: Result<()>)
      modifies this
      ensures var path := FilePath(ins.cacheDir, loc, validateFile);
              (path.Died? ==> r == Died("Invalid file path.") && root == old(root)) &&
              (path.Ok? ==>
                 r == Ok(()) && root == CreatedTree(old(root), baseMode & 0xFFF, path.value, TargetComponents(loc), data, gzip(data)))
    {
      var path := FilePath(ins.cacheDir, loc, validateFile);
      if path.Died? {
        return Died(path.message);
      }
      var made := MakeTarget(root, baseMode & 0xFFF, path.value, TargetComponents(loc));
      if made.Unready? {
        root := made.left;
        return Ok(());
      }
      root := Some(WriteCacheFiles(made.made, made.dir, data, gzip(data)));
      return Ok(());
    }
  }

  /** A file at `name` in the directory the names `comps` resolve to is
      reached through `comps + [name]`. */
  lemma {:induction false} ReachedThrough(t: Node, comps: seq<string>, dir: seq<string>, name: string)
    requires name != ".." && Resolve(t, comps) == Some(dir)
    requires Lookup(t, dir + [name]).Some?
    ensures Reach(Some(t), comps + [name]) == Lookup(t, dir + [name])
  {
    ResolveStep(t, comps, name);
  }

  /** After a successful `wp_mkdir_p` the HTML file, reached through the
      target's names, holds the data and the gzip file its compressed form,
      unless a directory of that name was already in the way. */
  lemma {:induction false} CreatedFilesReadBack(root: Option<Node>, perms: bv32, target: string, comps: seq<string>,
                                                data: string, gz: string, t: Node, dir: seq<string>)
    requires MakeTarget(root, perms, target, comps) == Ready(t, dir)
    ensures Lookup(t, dir).Some? && Lookup(t, dir).value.Dir?
    ensures NoDirAt(t, dir + ["index.html"]) ==>
              Reach(CreatedTree(root, perms, target, comps, data, gz), comps + ["index.html"])
              == Some(File(FileType | CacheFileMode(Lookup(t, dir).value.mode), data))
    ensures NoDirAt(t, dir + ["index.html.gz"]) ==>
              Reach(CreatedTree(root, perms, target, comps, data, gz), comps + ["index.html.gz"])
              == Some(File(FileType | CacheFileMode(Lookup(t, dir).value.mode), gz))
  {
    MakeTargetReady(root, perms, target, comps);
    var t1 := WriteFile(t, dir, "index.html", data);
    var after := WriteFile(t1, dir, "index.html.gz", gz);
    assert CreatedTree(root, perms, target, comps, data, gz) == Some(after);
    WriteFileKeepsResolve(t, dir, "index.html", data, comps);
    WriteFileKeepsResolve(t1, dir, "index.html.gz", gz, comps);
    if NoDirAt(t, dir + ["index.html"]) {
      HtmlReadBack(t, dir, data, gz);
      ReachedThrough(after, comps, dir, "index.html");
    }
    if NoDirAt(t, dir + ["index.html.gz"]) {
      GzipReadBack(t, dir, data, gz);
      ReachedThrough(after, comps, dir, "index.html.gz");
    }
  }
}

=== FILE: caching.dfy ===
/** Page caching (`Caching`): whether a request may be served from or stored
    into the cache, storing a rendered page, serving a stored one, and
    flushing and measuring the cache directory. */
module Caching {
  import opened PhpValues
  import opened PhpStrings
  import opened WordPress
  import BasicSettings
  import opened CachingHelper
  import opened CacheFileSystem

  /** The transient caching the size of the cache directory. */
  const SizeTransient: string := "ionos_performance_cache_size"

  /** The HTTP request as the server variables, `$_GET` and `$_COOKIE` give it
      (an unset server variable reads as None, or "" for the script name). */
  datatype Request = Request(
    loc: Location,
    requestMethod: Option<string>,
    accept: Option<string>,
    query: map<string, Value>,
    scriptName: string,
    cookies: seq<(string, string)>)

  /** What WordPress says about the page being rendered: the conditional tags,
      the answer of the `ionos_performance_skip_cache` filter, the
      `DONOTCACHEPAGE` constant (None when undefined), the queried object's ID
      and the three sitemap query variables. */
  datatype Page = Page(
    loggedIn: bool,
    skipFilter: Value,
    search: bool,
    notFound: bool,
    feed: bool,
    trackback: bool,
    robots: bool,
    preview: bool,
    passwordRequired: bool,
    doNotCachePage: Option<Value>,
    singular: bool,
    queriedId: int,
    sitemap: Value,
    sitemapSubtype: Value,
    sitemapStylesheet: Value)

  /** The configured conflicting caching plugins and the plugin detector. */
  datatype Plugins = Plugins(conflicting: seq<string>, hasActive: seq<string> -> bool)

  /** The text after the last `/`. */
  function AfterLastSlash(s: string): (r: string)
    ensures |r| <= |s| && s[|s| - |r|..] == r && '/' !in r
    ensures |r| < |s| ==> s[|s| - |r| - 1] == '/'
  {
    if s == "" || s[|s| - 1] == '/' then ""
    else AfterLastSlash(s[..|s| - 1]) + [s[|s| - 1]]
  }

  function StripSlashes(s: string): (r: string)
    ensures r <= s
  {
    if s != "" && s[|s| - 1] == '/' then StripSlashes(s[..|s| - 1]) else s
  }

  /** `basename( $path )`: the last path component, trailing slashes ignored. */
  function Basename(path: string): (r: string)
    ensures '/' !in r
  {
    AfterLastSlash(StripSlashes(path))
  }

  /** A script in any directory has its file name as base name. */
  lemma {:induction false} BasenameOfScript(dir: string, file: string)
    requires file != "" && '/' !in file
    ensures Basename(dir + "/" + file) == file
  {
    var p := dir + "/" + file;
    assert StripSlashes(p) == p;
    AfterLastSlashOf(dir + "/", file);
    assert p == (dir + "/") + file;
  }

  lemma {:induction false} AfterLastSlashOf(prefix: string, file: string)
    requires prefix != "" && prefix[|prefix| - 1] == '/' && '/' !in file
    ensures AfterLastSlash(prefix + file) == file
    decreases |file|
  {
    if file == "" {
      assert prefix + file == prefix;
    } else {
      var f, c := file[..|file| - 1], file[|file| - 1];
      AfterLastSlashOf(prefix, f);
      AfterLastSlashSnoc(prefix + f, c);
      assert (prefix + f) + [c] == prefix + file;
      assert f + [c] == file;
    }
  }

  lemma {:induction false} AfterLastSlashSnoc(s: string, c: char)
    requires c != '/'
    ensures AfterLastSlash(s + [c]) == AfterLastSlash(s) + [c]
  {
    assert (s + [c])[..|s|] == s;
  }

  /** `array_map( 'intval', Helper::preg_split( $without_ids ) )`. */
  function ExcludedIds(withoutIds: Value): (ids: seq<int>)
    ensures |ids| == |PregSplit(ToPhpString(withoutIds))|
    ensures forall i :: 0 <= i < |ids| ==> ids[i] == StringToInt(PregSplit(ToPhpString(withoutIds))[i])
  {
    var parts := PregSplit(ToPhpString(withoutIds));
    seq(|parts|, i requires 0 <= i < |parts| => StringToInt(parts[i]))
  }

  /** A post whose ID is written first in the excluded-ID list is excluded,
      whatever follows the comma. */
  lemma {:induction false} ListedIdExcluded(n: nat, rest: string)
    ensures n in ExcludedIds(Str(NatToDecimal(n) + "," + rest))
  {
    var d := NatToDecimal(n);
    var text := d + "," + rest;
    assert ',' !in d by {
      assert forall k :: 0 <= k < |d| ==> IsDigit(d[k]);
    }
    SplitAfter(d, rest, ',');
    assert Split(text, ',')[0] == d;
    var parts := PregSplit(text);
    assert d in parts;
    var i :| 0 <= i < |parts| && parts[i] == d;
    NatDecimalRoundTrip(n);
    assert ExcludedIds(Str(text))[i] == n;
  }

  /** `skip_cache`: a chain of checks, each returning true as soon as it
      applies. */
  function SkipCache(site: Site, req: Request, page: Page, plugins: Plugins): (skip: bool)
    reads site
    ensures skip <==>
      page.loggedIn
      || HasConflictingCachingPlugins(plugins.conflicting, plugins.hasActive)
      || (IsSetIn(BasicSettings.GetOptions(site), "caching_enabled") &&
          LooseEqualsInt(EntryOf(BasicSettings.GetOptions(site), "caching_enabled"), 0))
      || (req.requestMethod.Some? && req.requestMethod.value != "GET")
      || (req.accept.Some? && !Contains(req.accept.value, "text/html"))
      || req.query != map[]
      || !Truthy(site.GetOption("permalink_structure", Bool(false)))
      || Basename(req.scriptName) != "index.php"
      || HasCookieBypass(req.cookies)
      || Truthy(page.skipFilter)
      || page.search || page.notFound || page.feed || page.trackback || page.robots || page.preview || page.passwordRequired
      || (page.doNotCachePage.Some? && Truthy(page.doNotCachePage.value))
      || (IsSetIn(BasicSettings.GetOptions(site), "without_ids") && page.singular &&
          page.queriedId in ExcludedIds(EntryOf(BasicSettings.GetOptions(site), "without_ids")))
      || Truthy(page.sitemap) || Truthy(page.sitemapSubtype) || Truthy(page.sitemapStylesheet)
  {
    var options := BasicSettings.GetOptions(site);
    if page.loggedIn then true
    else if HasConflictingCachingPlugins(plugins.conflicting, plugins.hasActive) then true
    else if IsSetIn(options, "caching_enabled") && LooseEqualsInt(options.entries["caching_enabled"], 0) then true
    else if req.requestMethod.Some? && req.requestMethod.value != "GET" then true
    else if req.accept.Some? && !Contains(req.accept.value, "text/html") then true
    else if req.query != map[] then true
    else if !Truthy(site.GetOption("permalink_structure", Bool(false))) then true
    else if Basename(req.scriptName) != "index.php" then true
    else if HasCookieBypass(req.cookies) then true
    else if Truthy(page.skipFilter) then true
    else if page.search || page.notFound || page.feed || page.trackback || page.robots || page.preview || page.passwordRequired then true
    else if page.doNotCachePage.Some? && Truthy(page.doNotCachePage.value) then true
    else if IsSetIn(options, "without_ids") && page.singular && page.queriedId in ExcludedIds(options.entries["without_ids"]) then true
    else if Truthy(page.sitemap) || Truthy(page.sitemapSubtype) || Truthy(page.sitemapStylesheet) then true
    else false
  }

  lemma {:induction false} AcceptsHtml()
    ensures Contains("text/html", "text/html")
  {
    assert OccursAt("text/html", "text/html", 0);
  }

  /** An absent `REQUEST_METHOD` or `HTTP_ACCEPT` header never causes a skip
      by itself: the request is treated like a GET accepting HTML. */
  lemma {:induction false} AbsentHeadersDoNotSkip(site: Site, req: Request, page: Page, plugins: Plugins)
    requires req.requestMethod.None? && req.accept.None?
    ensures SkipCache(site, req, page, plugins)
         == SkipCache(site, req.(requestMethod := Some("GET"), accept := Some("text/html")), page, plugins)
  {
    AcceptsHtml();
  }

  /** A singular page whose ID is listed first in `without_ids` is never
      cached. */
  lemma {:induction false} ExcludedPageSkipped(site: Site, req: Request, page: Page, plugins: Plugins, rest: string)
    requires page.singular && page.queriedId >= 0
    requires EntryOf(BasicSettings.GetOptions(site), "without_ids") == Str(NatToDecimal(page.queriedId) + "," + rest)
    ensures SkipCache(site, req, page, plugins)
  {
    ListedIdExcluded(page.queriedId, rest);
  }

  /** `cache_signature()`: an HTML comment naming the plugin, with the word "Generated"
      and the time stamp of generation. */
  function CacheSignature(generated: string, stamp: string): (r: string)
    ensures |r| > 10 && r[..6] == "\n\n<!--" && r[|r| - 4..] == " -->"
  {
    var open := "\n\n<!--";
    var head := open + " IONOS Performance | https://www.ionos.com\n" + generated + " @ " + stamp;
    assert head[..6] == open;
    var r := head + " -->";
    assert r[..6] == head[..6];
    r
  }

  /** The tree `create_files` leaves for this request. */
  function StoredTree(store: CacheStore, loc: Location, validateFile: string -> int, data: string, gzip: string -> string): Option<Node>
    reads store
    requires FilePath(store.ins.cacheDir, loc, validateFile).Ok?
  {
    CreatedTree(store.root, store.baseMode & 0xFFF, FilePath(store.ins.cacheDir, loc, validateFile).value,
                TargetComponents(loc), data, gzip(data))
  }

  /** `store_item( $data )`: nothing for empty data, otherwise the data
      followed by the signature is written to the cache files. */
  method StoreItem(store: CacheStore, loc: Location, data: string, signature: string, gzip: string -> string, validateFile: string -> int)
    returns (r: Result<()>)
    modifies store
    ensures !Truthy(Str(data)) ==> r == Ok(()) && store.root == old(store.root)
    ensures Truthy(Str(data)) && FilePath(store.ins.cacheDir, loc, validateFile).Died? ==>
              r == Died("Invalid file path.") && store.root == old(store.root)
    ensures Truthy(Str(data)) && FilePath(store.ins.cacheDir, loc, validateFile).Ok? ==>
              r == Ok(()) && store.root == old(StoredTree(store, loc, validateFile, data + signature, gzip))
  {
    if !Truthy(Str(data)) {
      return Ok(());
    }
    r := store.CreateFiles(loc, data + signature, gzip, validateFile);
  }

  /** `set_cache( $data )`, the output-buffer callback: empty output gives
      ''; otherwise, when the `ionos_performance_store_item` filter agrees,
      the output as modified by `ionos_performance_modify_output` is stored
      and returned; the output is returned as it is otherwise. */
  method SetCache(store: CacheStore, loc: Location, data: string, storeFilter: Value, modified: string,
                  signature: string, gzip: string -> string, validateFile: string -> int)
    returns (r: Result<string>)
    modifies store
    ensures !Truthy(Str(data)) ==> r == Ok("") && store.root == old(store.root)
    ensures Truthy(Str(data)) && !Truthy(storeFilter) ==> r == Ok(data) && store.root == old(store.root)
    ensures Truthy(Str(data)) && Truthy(storeFilter) && !Truthy(Str(modified)) ==>
              r == Ok(modified) && store.root == old(store.root)
    ensures Truthy(Str(data)) && Truthy(storeFilter) && Truthy(Str(modified)) ==>
              if FilePath(store.ins.cacheDir, loc, validateFile).Ok?
              then r == Ok(modified) && store.root == old(StoredTree(store, loc, validateFile, modified + signature, gzip))
              else r == Died("Invalid file path.") && store.root == old(store.root)
  {
    if !Truthy(Str(data)) {
      return Ok("");
    }
    var out := data;
    if Truthy(storeFilter) {
      out := modified;
      var stored := StoreItem(store, loc, out, signature, gzip, validateFile);
      if stored.Died? {
        return Died(stored.message);
      }
    }
    return Ok(out);
  }

  /** What CACHE_DIR holds after `clear_cache()`. */
  function ClearedRoot(ins: Install, root: Option<Node>): Option<Node> {
    if root.None? then None else Cleared(ins, ins.cacheDir, root.value, true)
  }

  /** `clear_cache()`: clears CACHE_DIR recursively. */
  method ClearCache(store: CacheStore)
    modifies store
    ensures store.root == ClearedRoot(store.ins, old(store.root))
  {
    if store.root.Some? {
      store.root := ClearDir(store.ins, store.ins.cacheDir, store.root.value, true);
    }
  }

  /** On a single site a flush leaves no file in the cache, unless a
      directory in it has a name ending in `\` (see `CutNameKept`). */
  lemma {:induction false} ClearCacheEmpties(ins: Install, root: Option<Node>)
    requires !ins.multisite || ins.networkAdmin
    requires ins.cacheDir == "" || !IsSlash(ins.cacheDir[|ins.cacheDir| - 1])
    requires root.Some? ==> DirNamesKept(root.value)
    ensures var r := ClearedRoot(ins, root); r.None? || FilePaths(ins.cacheDir, r.value) == {}
  {
    if root.Some? {
      assert Untrailingslash(ins.cacheDir) == ins.cacheDir;
      StartsWithPrefix(ins.cacheDir, ins.cacheDir);
      ClearRemovesAllFiles(ins, ins.cacheDir, root.value);
    }
  }

  /** The cache tree after `flush_total_cache()`: untouched once a post
      revision has been saved in this request, cleared otherwise. */
  function FlushedRoot(ins: Install, root: Option<Node>, revisionsSaved: nat): Option<Node> {
    if revisionsSaved > 0 then root else ClearedRoot(ins, root)
  }

  /** The transients after `flush_total_cache()`. */
  function FlushedTransients(transients: map<string, Value>, revisionsSaved: nat): map<string, Value> {
    if revisionsSaved > 0 then transients else transients - {SizeTransient}
  }

  /** `flush_total_cache()`: nothing once a post revision has been saved in
      this request (`did_action( 'save_post_revision' )`, passed as
      `revisionsSaved`); otherwise the cache is cleared and the cached size
      forgotten. */
  method FlushTotalCache(store: CacheStore, site: Site, revisionsSaved: nat)
    modifies store, site
    ensures store.root == FlushedRoot(store.ins, old(store.root), revisionsSaved)
    ensures site.transients == FlushedTransients(old(site.transients), revisionsSaved)
    ensures site.options == old(site.options)
  {
    if revisionsSaved > 0 {
      return;
    }
    ClearCache(store);
    site.DeleteTransient(SizeTransient);
  }

  /** The bytes in the cache: those of the files below CACHE_DIR, none when
      it is missing or not a directory. */
  function CacheBytes(root: Option<Node>): nat {
    if root.Some? && root.value.Dir? then TotalSize(root.value) else 0
  }

  /** `get_cache_size()`: the cached size when it is truthy; otherwise the
      size is measured, remembered in the transient and returned. */
  method GetCacheSize(store: CacheStore, site: Site) returns (r: Value)
    modifies site
    ensures Truthy(old(site.GetTransient(SizeTransient))) ==>
              r == old(site.GetTransient(SizeTransient)) && site.transients == old(site.transients)
    ensures !Truthy(old(site.GetTransient(SizeTransient))) ==>
              r == Int(CacheBytes(store.root)) && site.transients == old(site.transients)[SizeTransient := r]
    ensures site.options == old(site.options)
  {
    r := site.GetTransient(SizeTransient);
    if !Truthy(r) {
      var bytes: Option<nat> := None;
      if store.root.Some? {
        bytes := DirSize(store.root.value);
        if store.root.value.Dir? {
          DirSizeIsTotal(store.root.value);
        }
      }
      r := Int(OrZero(bytes));
      site.SetTransient(SizeTransient, r);
    }
  }

  /** How `manage_cache()` answers a request. */
  datatype Response =
    | Skipped                              // the cache is not used
    | Buffering                            // output is buffered for `set_cache`
    | Served(body: string, exits: bool)    // the cached file is printed
    | Ended(message: string)               // `wp_die`

  /** `manage_cache()` on the cache tree `root`: skipped requests are left
      alone; a cached page is printed (ending the request when it is not
      empty); otherwise output buffering starts. */
  function ResponseFor(root: Option<Node>, cacheDir: string, site: Site, req: Request, page: Page, plugins: Plugins,
                       validateFile: string -> int): (r: Response)
    reads site
    ensures SkipCache(site, req, page, plugins) <==> r == Skipped
    ensures r.Served? ==> Reach(root, TargetComponents(req.loc) + ["index.html"]).Some?
  {
    if SkipCache(site, req, page, plugins) then Skipped
    else
      match FileHtml("", cacheDir, req.loc, validateFile)
      case Died(m) => Ended(m)
      case Ok(_) =>
        var cached := Reach(root, TargetComponents(req.loc) + ["index.html"]);
        if cached.None? then Buffering
        else if cached.value.Dir? then Served("", false)
        else Served(cached.value.data, cached.value.data != "")
  }

  /** `manage_cache()`. */
  function ManageCache(store: CacheStore, site: Site, req: Request, page: Page, plugins: Plugins, validateFile: string -> int): Response
    reads store, site
  {
    ResponseFor(store.root, store.ins.cacheDir, site, req, page, plugins, validateFile)
  }

  /** A page stored by `store_item` is what the next request for the same
      URL is served, and serving it ends the request. */
  lemma {:induction false} StoredPageIsServed(root: Option<Node>, perms: bv32, cacheDir: string, site: Site, req: Request,
                                               page: Page, plugins: Plugins, validateFile: string -> int,
                                               data: string, signature: string, gz: string)
    requires !SkipCache(site, req, page, plugins)
    requires FilePath(cacheDir, req.loc, validateFile).Ok?
    requires MakeTarget(root, perms, FilePath(cacheDir, req.loc, validateFile).value, TargetComponents(req.loc)).Ready?
    requires var m := MakeTarget(root, perms, FilePath(cacheDir, req.loc, validateFile).value, TargetComponents(req.loc));
             NoDirAt(m.made, m.dir + ["index.html"])
    requires Truthy(Str(data))
    ensures var after := CreatedTree(root, perms, FilePath(cacheDir, req.loc, validateFile).value,
                                     TargetComponents(req.loc), data + signature, gz);
            ResponseFor(after, cacheDir, site, req, page, plugins, validateFile) == Served(data + signature, true)
  {
    var target := FilePath(cacheDir, req.loc, validateFile).value;
    var comps := TargetComponents(req.loc);
    var m := MakeTarget(root, perms, target, comps);
    var after := CreatedTree(root, perms, target, comps, data + signature, gz);
    CreatedFilesReadBack(root, perms, target, comps, data + signature, gz, m.made, m.dir);
    assert Reach(after, comps + ["index.html"]).value.data == data + signature;
    ServedWhenStored(after, cacheDir, site, req, page, plugins, validateFile, data + signature);
  }

  /** A request that is not skipped and finds its page file is served it. */
  lemma {:induction false} ServedWhenStored(root: Option<Node>, cacheDir: string, site: Site, req: Request, page: Page,
                                            plugins: Plugins, validateFile: string -> int, data: string)
    requires !SkipCache(site, req, page, plugins)
    requires FilePath(cacheDir, req.loc, validateFile).Ok?
    requires Reach(root, TargetComponents(req.loc) + ["index.html"]).Some?
    requires Reach(root, TargetComponents(req.loc) + ["index.html"]).value.File?
    requires Reach(root, TargetComponents(req.loc) + ["index.html"]).value.data == data
    requires data != ""
    ensures ResponseFor(root, cacheDir, site, req, page, plugins, validateFile) == Served(data, true)
  {
    var cached := Reach(root, TargetComponents(req.loc) + ["index.html"]);
    assert FileHtml("", cacheDir, req.loc, validateFile).Ok?;
    assert cached.Some? && cached.value.File? && cached.value.data != "";
  }

  /** `cache_expires()`: `HOUR_IN_SECONDS` times the `cache_expires` option. */
  function CacheExpires(site: Site): (seconds: int)
    reads site
    ensures BasicSettings.GetOption(site, "cache_expires") == Null ==> seconds == 0
    ensures forall n :: BasicSettings.GetOption(site, "cache_expires") == Int(n) ==> seconds == 3600 * n
  {
    3600 * IntCast(BasicSettings.GetOption(site, "cache_expires"))
  }

  /** `cache_hash()`: `HTTP_HOST` and `REQUEST_URI` joined have no scheme, so
      `wp_parse_url` returns them as a path (without query or fragment) and no
      host; the key is that path behind the SSL prefix, digested by `md5`. */
  function CacheHash(loc: Location, md5: string -> string): (r: string)
    ensures |r| >= 18 && r[|r| - 18..] == ".ionos-performance"
  {
    md5(SslPrefix(loc.ssl) + UrlPath(loc.host + loc.uri)) + ".ionos-performance"
  }

  /** The cache key is prefix + host + path: the query string is left out. */
  lemma {:induction false} CacheHashKey(ssl: bool, host: string, path: string, query: string, md5: string -> string)
    requires forall k :: 0 <= k < |host| ==> host[k] != '?' && host[k] != '#'
    requires forall k :: 0 <= k < |path| ==> path[k] != '?' && path[k] != '#'
    ensures CacheHash(Location(ssl, host, path + "?" + query), md5) == md5(SslPrefix(ssl) + host + path) + ".ionos-performance"
    ensures CacheHash(Location(ssl, host, path), md5) == md5(SslPrefix(ssl) + host + path) + ".ionos-performance"
  {
    var hp := host + path;
    assert forall k :: 0 <= k < |hp| ==> hp[k] != '?' && hp[k] != '#' by {
      forall k | 0 <= k < |hp| ensures hp[k] != '?' && hp[k] != '#' {
        if k < |host| { assert hp[k] == host[k]; } else { assert hp[k] == path[k - |host|]; }
      }
    }
    UrlPathStops(hp, "?" + query);
    assert host + (path + "?" + query) == hp + ("?" + query);
    UrlPathStops(hp, "");
    assert hp + "" == host + path;
    assert SslPrefix(ssl) + hp == SslPrefix(ssl) + host + path;
  }
}

=== FILE: caching_htaccess.dfy ===
/** The caching feature's `.htaccess` policy (`Htaccess`): one snippet,
    which serves cached pages straight from the cache directory, switched by
    the feature predicates. The checks compare `has_snippet`'s count with
    `true ===` and `false ===` and are modelled as written. */
module CachingHtaccess {
  import opened PhpValues
  import opened PhpStrings
  import opened HtaccessBlocks
  import opened HtaccessHandler
  import opened WordPress
  import opened CachingHelper
  import opened CacheFileSystem
  import opened Caching
  import CachingGui

  /** `HTACCESS_MARKER_KEY`. */
  const MarkerKey: string := "caching"

  const CacheDirPlaceholder: string := "{{IONOS_PERFORMANCE_CACHE_DIR}}"

  /** The legacy names migrated on every read: the old wrapper and version markers. */
  const Migrations: seq<(string, seq<string>)> := [("wrapperMarker", ["IONOS_Performance"]), ("versionMarker", ["IONOS_Performance Version:"])]

  /** `HTACCESS_MARKER` for the feature directory `dir` and `CACHE_DIR` `cacheDir`. */
  function MarkerConfig(dir: string, cacheDir: string): seq<(string, RawMarker)> {
    [(MarkerKey, RawMarker(Some("IONOS Performance Caching"), Some("IONOS Caching Snippet"), Some("v2"),
                           Some(dir + "/templates/template-htaccess-caching-snippet.tpl"),
                           [(CacheDirPlaceholder, cacheDir)], Migrations))]
  }

  /** The handler keeps the caching marker, at version v2, and loads its
      template with the cache directory filled in. */
  lemma {:induction false} MarkerConfigLoaded(dir: string, cacheDir: string, files: map<string, string>)
    ensures var ms := ValidMarkers(MarkerConfig(dir, cacheDir));
            |ms| == 1 && ms[0].0 == MarkerKey && ms[0].1.version == "v2" &&
            ms[0].1.wrapperMarker == "IONOS Performance Caching" && ms[0].1.versionMarker == "IONOS Caching Snippet" &&
            ms[0].1.migrations == Migrations &&
            var path := dir + "/templates/template-htaccess-caching-snippet.tpl";
            (path in files ==>
               TemplatesOf(ms, files) == map[MarkerKey := ReplaceAll(Trim(files[path]), CacheDirPlaceholder, cacheDir)]) &&
            (path !in files ==> TemplatesOf(ms, files) == map[])
  {
    var raw := MarkerConfig(dir, cacheDir);
    assert Complete(raw[0].1);
    assert raw[..0] == [];
    var ms := ValidMarkers(raw);
    assert ms == [(MarkerKey, Validated(raw[0].1))];
    assert ms[..0] == [];
    var reps := ms[0].1.replacements;
    assert reps[..0] == [];
    var path := dir + "/templates/template-htaccess-caching-snippet.tpl";
    if path in files {
      assert ApplyReplacements(Trim(files[path]), reps) == ReplaceAll(Trim(files[path]), CacheDirPlaceholder, cacheDir);
    }
  }

  /** The feature's policy over the site, the cache directory and a handler
      built from `HTACCESS_MARKER`. */
  class CachingPolicy {
    const site: Site
    const store: CacheStore
    const config: seq<(string, RawMarker)>
    const htaccess: Handler

    /** `__construct`; `files` maps the readable template paths to their contents. */
    constructor (site: Site, store: CacheStore, dir: string, files: map<string, string>, disk: HtaccessFile)
      ensures this.site == site && this.store == store && htaccess.disk == disk
      ensures config == MarkerConfig(dir, store.ins.cacheDir)
      ensures htaccess.markers == ValidMarkers(config)
      ensures htaccess.templates == (if htaccess.markers == [] then map[] else TemplatesOf(htaccess.markers, files))
    {
      this.site := site;
      this.store := store;
      config := MarkerConfig(dir, store.ins.cacheDir);
      htaccess := new Handler(MarkerConfig(dir, store.ins.cacheDir), files, disk);
    }

    /** `is_feature_enabled()`: the `features.caching.enabled` configuration
        value (`configEnabled`) is not `false`, permalinks are set, no
        conflicting caching plugin is active, and caching is enabled. */
    predicate IsFeatureEnabled(configEnabled: Value, plugins: Plugins)
      reads site
    {
      configEnabled != Bool(false)
      && Truthy(site.GetOption("permalink_structure", Bool(false)))
      && !HasConflictingCachingPlugins(plugins.conflicting, plugins.hasActive)
      && CachingGui.IsCachingEnabled(site)
    }

    /** `should_remove_snippet()`. Since `has_snippet` answers a count, the
        `false ===` test only stops it for an unreadable file: whether a
        snippet is present plays no part. */
    function ShouldRemoveSnippet(configEnabled: Value, plugins: Plugins, deactivations: nat): (r: bool)
      reads site, htaccess.disk
      ensures r <==> htaccess.disk.text.Some? && (!IsFeatureEnabled(configEnabled, plugins) || deactivations > 0)
    {
      if htaccess.HasSnippet(MarkerKey, None) == Bool(false) then false
      else if !IsFeatureEnabled(configEnabled, plugins) then true
      else if deactivations > 0 then true
      else false
    }

    /** `should_insert_snippet()`. The `true ===` test never holds against a
        count, so the answer is the feature's state. */
    function ShouldInsertSnippet(configEnabled: Value, plugins: Plugins): (r: bool)
      reads site, htaccess.disk
      ensures r == IsFeatureEnabled(configEnabled, plugins)
    {
      htaccess.HasSnippet(MarkerKey, None) != Bool(true) && IsFeatureEnabled(configEnabled, plugins)
    }

    /** `maybe_update()`: when removal is due the snippet is removed and the
        cache cleared; otherwise, unless deactivating or disabled, the snippet
        is inserted (a no-op when present). The branch re-versioning the
        snippets is never reached. */
    method MaybeUpdate(configEnabled: Value, plugins: Plugins, deactivations: nat)
      modifies htaccess.disk, store
      ensures old(ShouldRemoveSnippet(configEnabled, plugins, deactivations)) ==>
                htaccess.disk.text == htaccess.AfterRemove(old(htaccess.disk.text), MarkerKey) &&
                store.root == ClearedRoot(store.ins, old(store.root))
      ensures !old(ShouldRemoveSnippet(configEnabled, plugins, deactivations)) &&
              (deactivations > 0 || !IsFeatureEnabled(configEnabled, plugins)) ==>
                htaccess.disk.text == old(htaccess.disk.text) && store.root == old(store.root)
      ensures !old(ShouldRemoveSnippet(configEnabled, plugins, deactivations)) &&
              deactivations == 0 && IsFeatureEnabled(configEnabled, plugins) ==>
                htaccess.disk.text == htaccess.AfterInsert(old(htaccess.disk.text), MarkerKey) && store.root == old(store.root)
    {
      if ShouldRemoveSnippet(configEnabled, plugins, deactivations) {
        htaccess.RemoveSnippet(MarkerKey);
        ClearCache(store);
        return;
      }
      if deactivations > 0 {
        return;
      }
      if !IsFeatureEnabled(configEnabled, plugins) {
        return;
      }
      if ShouldInsertSnippet(configEnabled, plugins) {
        htaccess.InsertSnippet(MarkerKey);
        return;
      }
      // The source re-versions the snippets here; the test above always holds.
      assert false;
    }

    /** `handle_deactivation()`: removes the snippet when removal is due,
        without clearing the cache. */
    method HandleDeactivation(configEnabled: Value, plugins: Plugins, deactivations: nat)
      modifies htaccess.disk
      ensures old(ShouldRemoveSnippet(configEnabled, plugins, deactivations)) ==>
                htaccess.disk.text == htaccess.AfterRemove(old(htaccess.disk.text), MarkerKey)
      ensures !old(ShouldRemoveSnippet(configEnabled, plugins, deactivations)) ==> htaccess.disk.text == old(htaccess.disk.text)
    {
      if ShouldRemoveSnippet(configEnabled, plugins, deactivations) {
        htaccess.RemoveSnippet(MarkerKey);
      }
    }
  }
}

=== FILE: caching_manager.dfy ===
/** The caching feature's `Manager`: its options with their defaults, and
    the WordPress events that flush the whole page cache. */
module CachingManager {
  import opened PhpValues
  import opened WordPress
  import BasicSettings
  import opened CacheFileSystem
  import opened Caching

  /** The feature's options with their defaults. */
  const Defaults: map<string, Value> := map["caching_enabled" := Int(1), "cache_expires" := Int(12), "without_ids" := Str("")]

  /** `get_feature_options()`: each default, replaced by the stored value
      when that is set and not null. */
  function FeatureOptions(site: Site): (m: map<string, Value>)
    reads site
    ensures m.Keys == Defaults.Keys
    ensures forall k :: k in m && IsSetIn(BasicSettings.GetOptions(site), k) ==> m[k] == BasicSettings.GetOption(site, k)
    ensures forall k :: k in m && !IsSetIn(BasicSettings.GetOptions(site), k) ==> m[k] == Defaults[k]
  {
    var stored := BasicSettings.GetOptions(site);
    map k | k in Defaults :: if IsSetIn(stored, k) then stored.entries[k] else Defaults[k]
  }

  /** No stored options (or only unrelated ones) give the defaults; stored
      options never add keys. */
  lemma {:induction false} FeatureOptionsDefaults(site: Site)
    requires forall k :: k in Defaults ==> !IsSetIn(BasicSettings.GetOptions(site), k)
    ensures FeatureOptions(site) == map["caching_enabled" := Int(1), "cache_expires" := Int(12), "without_ids" := Str("")]
  {
    var m := FeatureOptions(site);
    assert m.Keys == Defaults.Keys;
    forall k | k in m ensures m[k] == Defaults[k] {
    }
  }

  /** The stored cache lifetime in hours, when set, is what the feature
      options report. */
  lemma {:induction false} FeatureOptionsStored(site: Site, hours: int)
    requires BasicSettings.GetOption(site, "cache_expires") == Int(hours)
    ensures FeatureOptions(site)["cache_expires"] == Int(hours)
  {
    assert "cache_expires" in Defaults;
  }

  /** `pre_comment( $approved )`: flushes only for an approved comment (the
      integer 1, compared strictly) and hands the status on unchanged. */
  method PreComment(store: CacheStore, site: Site, approved: Value, revisionsSaved: nat) returns (r: Value)
    modifies store, site
    ensures r == approved
    ensures approved == Int(1) ==>
              store.root == FlushedRoot(store.ins, old(store.root), revisionsSaved) &&
              site.transients == FlushedTransients(old(site.transients), revisionsSaved)
    ensures approved != Int(1) ==> store.root == old(store.root) && site.transients == old(site.transients)
    ensures site.options == old(site.options)
  {
    if approved == Int(1) {
      FlushTotalCache(store, site, revisionsSaved);
    }
    return approved;
  }

  /** `touch_comment( $new_status, $old_status )`: flushes when the status
      changed. */
  method TouchComment(store: CacheStore, site: Site, newStatus: Value, oldStatus: Value, revisionsSaved: nat)
    modifies store, site
    ensures newStatus != oldStatus ==>
              store.root == FlushedRoot(store.ins, old(store.root), revisionsSaved) &&
              site.transients == FlushedTransients(old(site.transients), revisionsSaved)
    ensures newStatus == oldStatus ==> store.root == old(store.root) && site.transients == old(site.transients)
    ensures site.options == old(site.options)
  {
    if newStatus != oldStatus {
      FlushTotalCache(store, site, revisionsSaved);
    }
  }

  /** The `rewrite_rules` option as `===` sees it: a value that is not an
      array (WordPress stores an empty value while there are no rules), or the
      rules, pattern to query, in the order the array holds them. PHP arrays
      keep their insertion order, and `===` on arrays demands the same pairs
      in the same order. */
  datatype RewriteRules = NoRules(v: Value) | Rules(pairs: seq<(string, string)>)

  /** The rules as a lookup table, which forgets their order. */
  function RulesTable(pairs: seq<(string, string)>): (m: map<string, string>)
    ensures forall k :: k in m <==> exists i :: 0 <= i < |pairs| && pairs[i].0 == k
  {
    if pairs == [] then map[]
    else
      var m := RulesTable(pairs[..|pairs| - 1]);
      assert forall i :: 0 <= i < |pairs| - 1 ==> pairs[..|pairs| - 1][i] == pairs[i];
      m[pairs[|pairs| - 1].0 := pairs[|pairs| - 1].1]
  }

  /** The `update_option_rewrite_rules` handler: flushes when the rewrite
      rules are not identical (`===`) to the old ones. */
  method RewriteRulesUpdated(store: CacheStore, site: Site, oldValue: RewriteRules, value: RewriteRules, revisionsSaved: nat)
    modifies store, site
    ensures oldValue != value ==>
              store.root == FlushedRoot(store.ins, old(store.root), revisionsSaved) &&
              site.transients == FlushedTransients(old(site.transients), revisionsSaved)
    ensures oldValue == value ==> store.root == old(store.root) && site.transients == old(site.transients)
    ensures site.options == old(site.options)
  {
    if oldValue == value {
      return;
    }
    FlushTotalCache(store, site, revisionsSaved);
  }

  /** The same two rules in the other order are not identical, although they
      map the same patterns to the same queries: saving reordered rules
      flushes the cache. */
  lemma {:induction false} ReorderedRulesDiffer(p: string, x: string, q: string, y: string)
    requires p != q
    ensures Rules([(p, x), (q, y)]) != Rules([(q, y), (p, x)])
    ensures RulesTable([(p, x), (q, y)]) == RulesTable([(q, y), (p, x)])
  {
    assert [(p, x), (q, y)][..1] == [(p, x)];
    assert [(q, y), (p, x)][..1] == [(q, y)];
  }

  /** Whether `publish_post_types( $post_id, $post )` flushes: a non-empty ID,
      a post (None when empty) whose status is `publish` or `future`, and a
      user who may publish posts. */
  predicate PublishFlushes(postId: Value, postStatus: Option<Value>, canPublish: bool) {
    Truthy(postId) && postStatus.Some? && postStatus.value in [Str("publish"), Str("future")] && canPublish
  }

  /** `publish_post_types( $post_id, $post )`. */
  method PublishPostTypes(store: CacheStore, site: Site, postId: Value, postStatus: Option<Value>, canPublish: bool, revisionsSaved: nat)
    modifies store, site
    ensures PublishFlushes(postId, postStatus, canPublish) ==>
              store.root == FlushedRoot(store.ins, old(store.root), revisionsSaved) &&
              site.transients == FlushedTransients(old(site.transients), revisionsSaved)
    ensures !PublishFlushes(postId, postStatus, canPublish) ==>
              store.root == old(store.root) && site.transients == old(site.transients)
    ensures site.options == old(site.options)
  {
    if !Truthy(postId) || postStatus.None? {
      return;
    }
    if postStatus.value !in [Str("publish"), Str("future")] {
      return;
    }
    if !canPublish {
      return;
    }
    FlushTotalCache(store, site, revisionsSaved);
  }

  /** The callback every flush hook runs. */
  const FlushCallback: string := "flush_total_cache"

  /** The hooks that flush the whole cache, with their priorities, before the
      `ionos_performance_flush_cache_hooks` filter. */
  const DefaultFlushHooks: seq<(string, int)> := [
    ("ionos_performance_flush_cache", 10),
    ("_core_updated_successfully", 10),
    ("switch_theme", 10),
    ("before_delete_post", 10),
    ("wp_trash_post", 10),
    ("create_term", 10),
    ("delete_term", 10),
    ("edit_terms", 10),
    ("user_register", 10),
    ("edit_user_profile_update", 10),
    ("delete_user", 10)
  ]

  /** The actions that registering the hooks `table` adds. */
  function FlushActions(table: seq<(string, int)>): (r: seq<Action>)
    ensures |r| == |table|
    ensures forall i :: 0 <= i < |r| ==> r[i] == Action(table[i].0, FlushCallback, table[i].1, 0)
  {
    seq(|table|, i requires 0 <= i < |table| => Action(table[i].0, FlushCallback, table[i].1, 0))
  }

  /** `register_flush_cache_hooks()`, given the table as the filter returns
      it: each hook runs `flush_total_cache` with its priority and no
      arguments. */
  method RegisterFlushCacheHooks(hooks: Hooks, table: seq<(string, int)>)
    modifies hooks
    ensures hooks.actions == old(hooks.actions) + FlushActions(table)
  {
    var i := 0;
    while i < |table|
      invariant 0 <= i <= |table|
      invariant hooks.actions == old(hooks.actions) + FlushActions(table[..i])
    {
      assert FlushActions(table[..i + 1]) == FlushActions(table[..i]) + [Action(table[i].0, FlushCallback, table[i].1, 0)];
      hooks.AddAction(table[i].0, FlushCallback, table[i].1, 0);
      i := i + 1;
    }
    assert table[..i] == table;
  }

  /** Unfiltered, eleven distinct hooks flush the cache, each at priority 10. */
  lemma {:induction false} DefaultFlushHooksRegistered()
    ensures |FlushActions(DefaultFlushHooks)| == 11
    ensures forall a :: a in FlushActions(DefaultFlushHooks) ==> a.callback == FlushCallback && a.priority == 10 && a.acceptedArgs == 0
    ensures forall i, j :: 0 <= i < j < 11 ==> FlushActions(DefaultFlushHooks)[i].hook != FlushActions(DefaultFlushHooks)[j].hook
  {
    var t := DefaultFlushHooks;
    assert forall i :: 0 <= i < |t| ==> t[i].1 == 10;
  }
}

=== FILE: cron.dfy ===
/** The caching feature's WP-Cron job (`Cron`): a schedule as long as the
    cache lifetime, and an event on it that clears the cache. */
module CacheCron {
  import opened PhpValues
  import opened WordPress
  import BasicSettings
  import opened CacheFileSystem
  import opened Caching

  /** The hook of the clearing event. */
  const ClearCacheCronName: string := "ionos_performance_clear_cache"

  /** The recurrence the event runs on. */
  const ExpireSchedule: string := "ionos_performance_cache_expire"

  /** The cache lifetime in hours: the stored `cache_expires`, 12 when it is
      not set. */
  function ExpiresHours(site: Site): Value
    reads site
  {
    if IsSetIn(BasicSettings.GetOptions(site), "cache_expires")
    then BasicSettings.GetOptions(site).entries["cache_expires"]
    else Int(12)
  }

  /** `add_cron_cache_expiration( $schedules )`: adds (or replaces) the
      `ionos_performance_cache_expire` schedule, whose interval is the cache
      lifetime in seconds; `display` is its translated label. */
  function AddCronCacheExpiration(site: Site, schedules: map<string, Value>, display: string): (r: map<string, Value>)
    reads site
    ensures r.Keys == schedules.Keys + {ExpireSchedule}
    ensures forall k :: k in schedules && k != ExpireSchedule ==> r[k] == schedules[k]
    ensures r[ExpireSchedule] == Arr(map["interval" := Int(IntCast(ExpiresHours(site)) * 3600), "display" := Str(display)])
  {
    var expires := ExpiresHours(site);
    schedules[ExpireSchedule := Arr(map["interval" := Int(IntCast(expires) * 3600), "display" := Str(display)])]
  }

  /** With no stored lifetime the event recurs every 12 hours. */
  lemma {:induction false} DefaultInterval(site: Site, schedules: map<string, Value>, display: string)
    requires !IsSetIn(BasicSettings.GetOptions(site), "cache_expires")
    ensures AddCronCacheExpiration(site, schedules, display)[ExpireSchedule].entries["interval"] == Int(43200)
  {
  }

  /** With a stored lifetime the event recurs exactly as often as the cached
      pages expire (`cache_expires()`). */
  lemma {:induction false} IntervalIsCacheLifetime(site: Site, schedules: map<string, Value>, display: string)
    requires IsSetIn(BasicSettings.GetOptions(site), "cache_expires")
    ensures AddCronCacheExpiration(site, schedules, display)[ExpireSchedule].entries["interval"] == Int(CacheExpires(site))
  {
    assert BasicSettings.GetOption(site, "cache_expires") == ExpiresHours(site);
  }

  /** `schedule()`: schedules the clearing event at `now` unless one is
      already scheduled. */
  method Schedule(cron: Scheduler, now: int)
    modifies cron
    ensures old(cron.NextScheduled(ClearCacheCronName)).None? ==>
              cron.events == old(cron.events) + [CronEvent(now, ExpireSchedule, ClearCacheCronName)]
    ensures old(cron.NextScheduled(ClearCacheCronName)).Some? ==> cron.events == old(cron.events)
    ensures cron.NextScheduled(ClearCacheCronName).Some?
  {
    var timestamp := cron.NextScheduled(ClearCacheCronName);
    if timestamp.None? {
      cron.ScheduleEvent(now, ExpireSchedule, ClearCacheCronName);
      assert cron.events[|cron.events| - 1].hook == ClearCacheCronName;
    }
  }

  /** `un_schedule()`: removes the next clearing event, if one is scheduled. */
  method UnSchedule(cron: Scheduler)
    modifies cron
    ensures old(cron.NextScheduled(ClearCacheCronName)).None? ==> cron.events == old(cron.events)
    ensures old(cron.NextScheduled(ClearCacheCronName)).Some? ==>
              cron.events == Without(old(cron.events), old(cron.NextScheduled(ClearCacheCronName)).value, ClearCacheCronName)
  {
    var timestamp := cron.NextScheduled(ClearCacheCronName);
    if timestamp.Some? {
      cron.UnscheduleEvent(timestamp.value, ClearCacheCronName);
    }
  }

  /** Scheduling on a scheduler without the event and then unscheduling
      leaves no clearing event and every other event in place. */
  lemma {:induction false} ScheduleThenUnschedule(events: seq<CronEvent>, now: int)
    requires forall i :: 0 <= i < |events| ==> events[i].hook != ClearCacheCronName
    ensures var scheduled := events + [CronEvent(now, ExpireSchedule, ClearCacheCronName)];
            FirstOf(scheduled, ClearCacheCronName) == Some(now) &&
            Without(scheduled, now, ClearCacheCronName) == events
  {
    var scheduled := events + [CronEvent(now, ExpireSchedule, ClearCacheCronName)];
    FirstOfAppended(events, CronEvent(now, ExpireSchedule, ClearCacheCronName));
    WithoutAppended(events, now);
  }

  lemma {:induction false} FirstOfAppended(events: seq<CronEvent>, e: CronEvent)
    requires forall i :: 0 <= i < |events| ==> events[i].hook != e.hook
    ensures FirstOf(events + [e], e.hook) == Some(e.timestamp)
    decreases |events|
  {
    if events != [] {
      assert (events + [e])[1..] == events[1..] + [e];
      FirstOfAppended(events[1..], e);
    }
  }

  lemma {:induction false} WithoutAppended(events: seq<CronEvent>, now: int)
    requires forall i :: 0 <= i < |events| ==> events[i].hook != ClearCacheCronName
    ensures Without(events + [CronEvent(now, ExpireSchedule, ClearCacheCronName)], now, ClearCacheCronName) == events
    decreases |events|
  {
    var e := CronEvent(now, ExpireSchedule, ClearCacheCronName);
    if events == [] {
      assert [e][1..] == [];
    } else {
      assert (events + [e])[1..] == events[1..] + [e];
      WithoutAppended(events[1..], now);
      assert [events[0]] + events[1..] == events;
    }
  }

  /** `run_cache_cron()`: clears the cache directory. */
  method RunCacheCron(store: CacheStore)
    modifies store
    ensures store.root == ClearedRoot(store.ins, old(store.root))
  {
    ClearCache(store);
  }
}

=== FILE: gui.dfy ===
/** The caching feature's settings screen (`Gui`): validation of the
    submitted options, the "is caching enabled" test and the clean-up of the
    notices shown to existing customers. */
module CachingGui {
  import opened PhpValues
  import opened PhpStrings
  import opened WordPress
  import BasicSettings
  import BasicHtaccess
  import CachingManager

  /** The settings tab of the feature. */
  const TabName: string := "caching"

  const GuidedActivationOption: string := "ionos_performance_show_guided_component_activation"
  const ActivationNoticeOption: string := "ionos_performance_show_activation_admin_notice"

  /** Whether a piece of the excluded-ID list is kept: numeric and naming a
      post with a permalink (`hasPermalink` stands for `get_permalink`). */
  predicate KeepsId(id: string, hasPermalink: string -> bool) {
    IsNumeric(id) && hasPermalink(id)
  }

  /** The pieces `keep` accepts, in their order. */
  function Kept(ids: seq<string>, keep: string -> bool): (r: seq<string>)
    ensures |r| <= |ids|
    ensures forall i :: 0 <= i < |r| ==> keep(r[i])
    ensures forall id :: id in r <==> id in ids && keep(id)
  {
    if ids == [] then []
    else
      var rest := Kept(ids[..|ids| - 1], keep);
      var last := ids[|ids| - 1];
      assert forall id :: id in ids <==> id in ids[..|ids| - 1] || id == last by {
        assert ids == ids[..|ids| - 1] + [last];
      }
      if keep(last) then rest + [last] else rest
  }

  /** Filtering one more piece appends it when it is accepted. */
  lemma {:induction false} KeptSnoc(ids: seq<string>, i: nat, keep: string -> bool)
    requires i < |ids|
    ensures Kept(ids[..i + 1], keep) == if keep(ids[i]) then Kept(ids[..i], keep) + [ids[i]] else Kept(ids[..i], keep)
  {
    assert ids[..i + 1][..i] == ids[..i];
  }

  /** Filtering pieces that are all accepted keeps them all. */
  lemma {:induction false} KeptAll(ids: seq<string>, keep: string -> bool)
    requires forall i :: 0 <= i < |ids| ==> keep(ids[i])
    ensures Kept(ids, keep) == ids
  {
    if ids != [] {
      var n := |ids| - 1;
      KeptAll(ids[..n], keep);
      KeptSnoc(ids, n, keep);
      assert ids[..n + 1] == ids;
    }
  }

  /** The pieces `sanitize_post_ids` keeps, in their order. */
  function KeptIds(ids: seq<string>, hasPermalink: string -> bool): (r: seq<string>)
    ensures |r| <= |ids|
    ensures forall i :: 0 <= i < |r| ==> KeepsId(r[i], hasPermalink)
    ensures forall id :: id in r <==> id in ids && KeepsId(id, hasPermalink)
  {
    Kept(ids, id => KeepsId(id, hasPermalink))
  }

  /** Filtering twice keeps what filtering once kept. */
  lemma {:induction false} KeptIdsAll(ids: seq<string>, hasPermalink: string -> bool)
    requires forall i :: 0 <= i < |ids| ==> KeepsId(ids[i], hasPermalink)
    ensures KeptIds(ids, hasPermalink) == ids
  {
    KeptAll(ids, id => KeepsId(id, hasPermalink));
  }

  /** The TypeError PHP raises when `explode` is given an array; like
      `wp_die`, it ends the request. */
  const ExplodeArrayError: string := "explode(): Argument #2 ($string) must be of type string, array given"

  /** What `sanitize_post_ids( $post_ids )` gives: '' for an empty value; a
      TypeError from `explode` for a non-empty array; otherwise the
      comma-separated pieces that are kept, joined with commas. */
  function SanitizedPostIds(postIds: Value, hasPermalink: string -> bool): (r: Result<string>)
    ensures r.Died? <==> postIds.Arr? && Truthy(postIds)
  {
    if !Truthy(postIds) then Ok("")
    else if postIds.Arr? then Died(ExplodeArrayError)
    else Ok(Join(KeptIds(Split(ToPhpString(postIds), ','), hasPermalink), ','))
  }

  /** `sanitize_post_ids( $post_ids )`: explodes the list and drops, one by
      one, the pieces that are not numeric or have no permalink. */
  method SanitizePostIds(postIds: Value, hasPermalink: string -> bool) returns (r: Result<string>)
    ensures r == SanitizedPostIds(postIds, hasPermalink)
  {
    if !Truthy(postIds) {
      return Ok("");
    }
    if postIds.Arr? {
      return Died(ExplodeArrayError);
    }
    var ids := Split(ToPhpString(postIds), ',');
    var kept: seq<string> := [];
    var i := 0;
    while i < |ids|
      invariant 0 <= i <= |ids|
      invariant kept == KeptIds(ids[..i], hasPermalink)
    {
      KeptSnoc(ids, i, id => KeepsId(id, hasPermalink));
      if KeepsId(ids[i], hasPermalink) {
        kept := kept + [ids[i]];
      }
      i := i + 1;
    }
    assert ids[..i] == ids;
    r := Ok(Join(kept, ','));
  }

  /** Pieces that are kept and hold no comma survive being joined, split
      and filtered again. */
  lemma {:induction false} KeptIdsRoundTrip(kept: seq<string>, hasPermalink: string -> bool)
    requires kept != []
    requires forall i :: 0 <= i < |kept| ==> ',' !in kept[i] && KeepsId(kept[i], hasPermalink)
    ensures KeptIds(Split(Join(kept, ','), ','), hasPermalink) == kept
  {
    SplitJoin(kept, ',');
    KeptIdsAll(kept, hasPermalink);
  }

  /** The pieces a sanitized list is made of. */
  lemma {:induction false} SanitizedPieces(postIds: Value, hasPermalink: string -> bool)
    requires Truthy(postIds)
    ensures var kept := KeptIds(Split(ToPhpString(postIds), ','), hasPermalink);
            forall i :: 0 <= i < |kept| ==> ',' !in kept[i] && KeepsId(kept[i], hasPermalink)
  {
    var kept := KeptIds(Split(ToPhpString(postIds), ','), hasPermalink);
    forall i | 0 <= i < |kept| ensures ',' !in kept[i] {
      assert kept[i] in Split(ToPhpString(postIds), ',');
    }
  }

  /** Sanitizing a sanitized list changes nothing (unless the list is the
      single ID "0", which `empty` takes for no list at all). */
  lemma {:induction false} SanitizeIdempotent(postIds: Value, hasPermalink: string -> bool)
    requires SanitizedPostIds(postIds, hasPermalink) != Ok("0")
    ensures SanitizedPostIds(postIds, hasPermalink).Ok? ==>
            SanitizedPostIds(Str(SanitizedPostIds(postIds, hasPermalink).value), hasPermalink) == SanitizedPostIds(postIds, hasPermalink)
  {
    var r := SanitizedPostIds(postIds, hasPermalink);
    if r.Ok? && r.value != "" {
      var s := r.value;
      var kept := KeptIds(Split(ToPhpString(postIds), ','), hasPermalink);
      assert s == Join(kept, ',');
      assert kept != [];
      SanitizedPieces(postIds, hasPermalink);
      KeptIdsRoundTrip(kept, hasPermalink);
      assert Truthy(Str(s)) && ToPhpString(Str(s)) == s;
    }
  }

  /** Every ID left in a sanitized list is numeric and has a permalink, and
      every such ID of the input is left in it. */
  lemma {:induction false} SanitizedIdsKept(postIds: Value, hasPermalink: string -> bool, id: string)
    requires Truthy(postIds)
    requires SanitizedPostIds(postIds, hasPermalink) != Ok("")
    ensures SanitizedPostIds(postIds, hasPermalink).Ok? ==>
            (id in Split(SanitizedPostIds(postIds, hasPermalink).value, ',') <==>
             id in Split(ToPhpString(postIds), ',') && KeepsId(id, hasPermalink))
  {
    if !postIds.Arr? {
      var kept := KeptIds(Split(ToPhpString(postIds), ','), hasPermalink);
      assert kept != [];
      SanitizedPieces(postIds, hasPermalink);
      SplitJoin(kept, ',');
    }
  }

  /** The caching tab's submission after `without_ids` is sanitized. */
  function WithSanitizedIds(data: map<string, Value>, hasPermalink: string -> bool): (r: Result<map<string, Value>>)
    ensures r.Died? <==> IsSetIn(Arr(data), "without_ids") && SanitizedPostIds(data["without_ids"], hasPermalink).Died?
    ensures r.Died? ==> r.message == ExplodeArrayError
    ensures r.Ok? ==> r.value.Keys == data.Keys
    ensures r.Ok? && IsSetIn(Arr(data), "without_ids") ==>
              r.value["without_ids"] == Str(SanitizedPostIds(data["without_ids"], hasPermalink).value)
    ensures r.Ok? ==> forall k :: k in data && (k == "without_ids" ==> !IsSetIn(Arr(data), "without_ids")) ==> r.value[k] == data[k]
  {
    if IsSetIn(Arr(data), "without_ids") then
      match SanitizedPostIds(data["without_ids"], hasPermalink)
      case Ok(ids) => Ok(data["without_ids" := Str(ids)])
      case Died(m) => Died(m)
    else Ok(data)
  }

  /** `validate_options( $data, $tab )`: for another tab, the feature options
      overlaid by the submitted array; for the caching tab, nothing for an
      empty submission, a TypeError from `array_merge` for any other
      non-array, and otherwise the submission with `without_ids` sanitized
      (a TypeError for an array there), `caching_enabled` as 0 or 1 and
      `cache_expires` as an integer (0 when empty). */
  function ValidateOptions(site: Site, data: Value, tab: string, hasPermalink: string -> bool): (r: Result<map<string, Value>>)
    reads site
    ensures tab != TabName ==>
              r.Ok? &&
              r.value.Keys == CachingManager.Defaults.Keys + EntriesOf(data).Keys &&
              (forall k :: k in EntriesOf(data) ==> r.value[k] == EntriesOf(data)[k]) &&
              (forall k :: k in CachingManager.Defaults && k !in EntriesOf(data) ==> r.value[k] == CachingManager.FeatureOptions(site)[k])
    ensures tab == TabName && !Truthy(data) ==> r == Ok(map[])
    ensures tab == TabName && Truthy(data) && !data.Arr? ==> r == Died(MergeFirstNotArray)
    ensures tab == TabName && Truthy(data) && data.Arr? ==>
              (r.Died? <==> IsSetIn(data, "without_ids") && EntryOf(data, "without_ids").Arr? && Truthy(EntryOf(data, "without_ids"))) &&
              (r.Died? ==> r.message == ExplodeArrayError) &&
              (r.Ok? ==>
                r.value.Keys == data.entries.Keys + {"caching_enabled", "cache_expires"} &&
                r.value["caching_enabled"] == (if Truthy(EntryOf(data, "caching_enabled")) then Int(1) else Int(0)) &&
                r.value["cache_expires"] == (if Truthy(EntryOf(data, "cache_expires")) then Int(IntCast(EntryOf(data, "cache_expires"))) else Int(0)) &&
                (IsSetIn(data, "without_ids") ==> r.value["without_ids"] == Str(SanitizedPostIds(EntryOf(data, "without_ids"), hasPermalink).value)) &&
                (forall k :: (k in data.entries && k != "caching_enabled" && k != "cache_expires" &&
                              (k == "without_ids" ==> !IsSetIn(data, "without_ids"))) ==> r.value[k] == data.entries[k]))
  {
    if tab != TabName then Ok(ArrayMerge(CachingManager.FeatureOptions(site), EntriesOf(data)))
    else if !Truthy(data) then Ok(map[])
    else if !data.Arr? then Died(MergeFirstNotArray)
    else ValidateSubmission(data, hasPermalink)
  }

  /** The caching tab's non-empty submission, validated. */
  function ValidateSubmission(data: Value, hasPermalink: string -> bool): (r: Result<map<string, Value>>)
    requires data.Arr?
    ensures r.Died? <==> IsSetIn(data, "without_ids") && EntryOf(data, "without_ids").Arr? && Truthy(EntryOf(data, "without_ids"))
    ensures r.Died? ==> r.message == ExplodeArrayError
    ensures r.Ok? ==> r.value.Keys == data.entries.Keys + {"caching_enabled", "cache_expires"}
    ensures r.Ok? ==> r.value["caching_enabled"] == (if Truthy(EntryOf(data, "caching_enabled")) then Int(1) else Int(0))
    ensures r.Ok? ==> r.value["cache_expires"] == (if Truthy(EntryOf(data, "cache_expires")) then Int(IntCast(EntryOf(data, "cache_expires"))) else Int(0))
    ensures r.Ok? && IsSetIn(data, "without_ids") ==>
              r.value["without_ids"] == Str(SanitizedPostIds(EntryOf(data, "without_ids"), hasPermalink).value)
    ensures r.Ok? ==> forall k :: (k in data.entries && k != "caching_enabled" && k != "cache_expires" &&
                                   (k == "without_ids" ==> !IsSetIn(data, "without_ids"))) ==> r.value[k] == data.entries[k]
  {
    match WithSanitizedIds(data.entries, hasPermalink)
    case Died(m) => Died(m)
    case Ok(cleaned) =>
      var enabled := EntryOf(data, "caching_enabled");
      var expires := EntryOf(data, "cache_expires");
      var switches := map["caching_enabled" := Int(if Truthy(enabled) then 1 else 0),
                          "cache_expires" := if !Truthy(expires) then Int(0) else Int(IntCast(expires))];
      assert switches.Keys == {"caching_enabled", "cache_expires"};
      Ok(ArrayMerge(cleaned, switches))
  }

  /** Validating the caching tab twice gives what validating it once gave:
      the stored options are a fixed point of the validation (unless the
      excluded-ID list is the single ID "0"). */
  lemma {:induction false} ValidateCachingIdempotent(site: Site, data: Value, hasPermalink: string -> bool)
    requires data.Arr? && Truthy(data)
    requires IsSetIn(data, "without_ids") ==> SanitizedPostIds(EntryOf(data, "without_ids"), hasPermalink) != Ok("0")
    ensures var once := ValidateOptions(site, data, TabName, hasPermalink);
            once.Ok? ==> ValidateOptions(site, Arr(once.value), TabName, hasPermalink) == once
  {
    var r := ValidateSubmission(data, hasPermalink);
    if r.Ok? {
      var once := r.value;
      assert "caching_enabled" in once;
      assert Truthy(Arr(once));
      if IsSetIn(data, "without_ids") {
        assert once["without_ids"].Str?;
      }
      var r2 := ValidateSubmission(Arr(once), hasPermalink);
      assert r2.Ok?;
      var twice := r2.value;
      assert twice.Keys == once.Keys;
      forall k | k in once ensures twice[k] == once[k] {
        if k == "caching_enabled" {
          assert once[k] == Int(0) || once[k] == Int(1);
        } else if k == "cache_expires" {
          assert once[k] == Int(IntCast(once[k]));
        } else if k == "without_ids" && IsSetIn(data, "without_ids") {
          SanitizeIdempotent(EntryOf(data, "without_ids"), hasPermalink);
        }
      }
      assert twice == once;
    }
  }

  /** `is_caching_enabled()`: when the plugin's options were never stored;
      when the `.htaccess` is known to be healthy (loosely equal to 1) and
      `caching_enabled` is not set; or when `caching_enabled` is not empty. */
  predicate IsCachingEnabled(site: Site)
    reads site
  {
    site.GetOption(BasicSettings.OptionName, Bool(false)) == Bool(false)
    || (LooseEqualsInt(site.GetOption(BasicHtaccess.HealthyOption, Bool(false)), 1) &&
        BasicSettings.GetOption(site, "caching_enabled") == Null)
    || Truthy(BasicSettings.GetOption(site, "caching_enabled"))
  }

  /** A fresh installation has caching enabled. */
  lemma {:induction false} FreshSiteCaches(site: Site)
    requires BasicSettings.OptionName !in site.options
    ensures IsCachingEnabled(site)
  {
  }

  /** Caching switched off by the settings screen (stored as 0) is off: the
      feature reports it disabled, whatever the `.htaccess` health. */
  lemma {:induction false} SwitchedOffIsDisabled(site: Site)
    requires BasicSettings.GetOption(site, "caching_enabled") == Int(0)
    ensures !IsCachingEnabled(site)
  {
    assert IsSetIn(BasicSettings.GetOptions(site), "caching_enabled");
  }

  /** `maybe_remove_existing_customer_options( $old_value, $value )`: when a
      notice flag is set and the new options enable caching, both flags are
      deleted. */
  method MaybeRemoveExistingCustomerOptions(site: Site, value: Value)
    modifies site
    ensures (Truthy(old(site.GetOption(GuidedActivationOption, Bool(false)))) ||
             Truthy(old(site.GetOption(ActivationNoticeOption, Bool(false))))) &&
            Truthy(EntryOf(value, "caching_enabled")) ==>
              site.options == old(site.options) - {GuidedActivationOption, ActivationNoticeOption}
    ensures !((Truthy(old(site.GetOption(GuidedActivationOption, Bool(false)))) ||
               Truthy(old(site.GetOption(ActivationNoticeOption, Bool(false))))) &&
              Truthy(EntryOf(value, "caching_enabled"))) ==>
              site.options == old(site.options)
    ensures site.transients == old(site.transients)
  {
    if !Truthy(site.GetOption(GuidedActivationOption, Bool(false))) && !Truthy(site.GetOption(ActivationNoticeOption, Bool(false))) {
      return;
    }
    if Truthy(EntryOf(value, "caching_enabled")) {
      site.DeleteOption(GuidedActivationOption);
      site.DeleteOption(ActivationNoticeOption);
      assert site.options == old(site.options) - {GuidedActivationOption} - {ActivationNoticeOption};
    }
  }
}

=== FILE: helper.dfy ===
/** The caching feature's helpers: comma splitting of the excluded-ID list,
    the bypass-cookie scan and the conflicting-plugin check. */
module CachingHelper {
  import opened PhpValues
  import opened PhpStrings

  /** The parts of `parts` that are not empty, in their order. */
  function NonEmptyParts(parts: seq<string>): (r: seq<string>)
    ensures |r| <= |parts|
    ensures forall i :: 0 <= i < |r| ==> r[i] != ""
    ensures forall p :: p in r <==> p in parts && p != ""
  {
    if |parts| == 0 then []
    else if parts[|parts| - 1] == "" then NonEmptyParts(parts[..|parts| - 1])
    else NonEmptyParts(parts[..|parts| - 1]) + [parts[|parts| - 1]]
  }

  /** `preg_split( '/,/', $input, -1, PREG_SPLIT_NO_EMPTY )`: the text between
      commas, without the empty pieces and without any trimming. */
  function PregSplit(input: string): (r: seq<string>)
    ensures forall i :: 0 <= i < |r| ==> r[i] != "" && ',' !in r[i]
    ensures forall p :: p in r <==> p in Split(input, ',') && p != ""
  {
    var parts := Split(input, ',');
    var r := NonEmptyParts(parts);
    assert forall i :: 0 <= i < |r| ==> r[i] in parts;
    r
  }

  /** A list whose parts are all non-empty keeps all of them. */
  lemma {:induction false} NonEmptyPartsAll(parts: seq<string>)
    requires forall i :: 0 <= i < |parts| ==> parts[i] != ""
    ensures NonEmptyParts(parts) == parts
  {
    if |parts| > 0 {
      NonEmptyPartsAll(parts[..|parts| - 1]);
      assert parts[..|parts| - 1] + [parts[|parts| - 1]] == parts;
    }
  }

  /** Splitting keeps the pieces verbatim and in order: when no piece is empty
      (no leading, trailing or doubled comma), joining them with commas gives
      the input back. */
  lemma {:induction false} PregSplitJoin(input: string)
    requires forall i :: 0 <= i < |Split(input, ',')| ==> Split(input, ',')[i] != ""
    ensures Join(PregSplit(input), ',') == input
  {
    NonEmptyPartsAll(Split(input, ','));
    JoinSplit(input, ',');
  }

  /** Dropping the empty parts keeps the order: the parts of a concatenation
      are the parts of each side, one after the other. */
  lemma {:induction false} NonEmptyPartsAppend(p: seq<string>, q: seq<string>)
    ensures NonEmptyParts(p + q) == NonEmptyParts(p) + NonEmptyParts(q)
    decreases |q|
  {
    if |q| > 0 {
      var q' := q[..|q| - 1];
      assert (p + q)[..|p + q| - 1] == p + q';
      assert (p + q)[|p + q| - 1] == q[|q| - 1];
      NonEmptyPartsAppend(p, q');
    } else {
      assert p + q == p;
    }
  }

  /** Text without a comma is one part, or none when it is empty. */
  lemma {:induction false} PregSplitNoComma(a: string)
    requires ',' !in a
    ensures PregSplit(a) == if a == "" then [] else [a]
  {
    SplitWhole(a, ',');
    assert [a][..0] == [];
  }

  /** The parts of `a,b` are the parts of `a` followed by the parts of `b`;
      with `PregSplitNoComma` this fixes the order of the parts for every
      input. */
  lemma {:induction false} PregSplitConcat(a: string, b: string)
    ensures PregSplit(a + [','] + b) == PregSplit(a) + PregSplit(b)
  {
    SplitConcat(a, b, ',');
    NonEmptyPartsAppend(Split(a, ','), Split(b, ','));
  }

  /** The cookie names `/^(wp-postpass|wordpress_logged_in|comment_author)_/` matches. */
  predicate IsBypassCookie(name: string) {
    StartsWith(name, "wp-postpass_") || StartsWith(name, "wordpress_logged_in_") || StartsWith(name, "comment_author_")
  }

  /** `has_cookie_bypass`: scans the cookies (name, value) in order and stops
      at the first bypass name. */
  function HasCookieBypass(cookies: seq<(string, string)>): (r: bool)
    ensures cookies == [] ==> !r
    ensures r <==> exists i :: 0 <= i < |cookies| && IsBypassCookie(cookies[i].0)
  {
    if |cookies| == 0 then false
    else if IsBypassCookie(cookies[0].0) then true
    else
      assert forall i :: 1 <= i < |cookies| ==> cookies[i] == cookies[1..][i - 1];
      HasCookieBypass(cookies[1..])
  }

  /** Only the cookie names matter: two cookie lists with the same names in
      the same order give the same answer, whatever their values. */
  lemma {:induction false} CookieValuesIgnored(a: seq<(string, string)>, b: seq<(string, string)>)
    requires |a| == |b|
    requires forall i :: 0 <= i < |a| ==> a[i].0 == b[i].0
    ensures HasCookieBypass(a) == HasCookieBypass(b)
  {
    if |a| > 0 {
      CookieValuesIgnored(a[1..], b[1..]);
    }
  }

  /** `has_conflicting_caching_plugins`: the configured plugin list is checked
      by the plugin detector (`hasActive`) only when it is not empty. */
  function HasConflictingCachingPlugins(conflicting: seq<string>, hasActive: seq<string> -> bool): (r: bool)
    ensures conflicting == [] ==> !r
    ensures conflicting != [] ==> r == hasActive(conflicting)
  {
    if conflicting != [] then hasActive(conflicting) else false
  }
}

=== FILE: htaccess_blocks.dfy ===
/** The text of the `.htaccess` file as the handler edits it. A block for the
    wrapper marker W runs from a `# START W` tag to the nearest `# END W` tag
    after it; blocks are found from left to right without overlapping, the way
    the lazy pattern `# START W(.|\n)*?# END W` matches them. The block
    functions are written for any start tag `s` and end tag `e`; the wrapper
    forms below fix the tags. */
module HtaccessBlocks {
  import opened PhpValues
  import opened PhpStrings

  /** The line WordPress opens its own rewrite rules with. */
  const WordPressMarker: string := "# BEGIN WordPress"

  function StartTag(wrapper: string): (t: string)
    ensures |t| > 0 && t[0] == '#'
  {
    "# START " + wrapper
  }

  function EndTag(wrapper: string): (t: string)
    ensures |t| > 0
  {
    "# END " + wrapper
  }

  /** The text in front of the version on the version line. */
  function VersionTag(versionMarker: string): string {
    "# " + versionMarker + " "
  }

  /** What follows the start tag in a snippet: the version line
      `# <versionMarker> <version>`, the template and the end tag, one per line. */
  function SnippetBody(wrapper: string, versionMarker: string, version: string, template: string): (r: string)
    ensures |r| >= |EndTag(wrapper)|
    ensures OccursAt(r, EndTag(wrapper), |r| - |EndTag(wrapper)|)
  {
    var front := "\n" + VersionTag(versionMarker) + version + "\n" + template + "\n";
    var r := front + EndTag(wrapper);
    assert r[|front|..|front| + |EndTag(wrapper)|] == EndTag(wrapper);
    OccursSlice(r, EndTag(wrapper), |front|);
    r
  }

  /** The snippet written for a marker (`insert_snippet`, `maybe_update_snippets`). */
  function Snippet(wrapper: string, versionMarker: string, version: string, template: string): string {
    StartTag(wrapper) + SnippetBody(wrapper, versionMarker, version, template)
  }

  // ---------------------------------------------------------------------
  // Blocks between a start tag `s` and an end tag `e`

  /** The first block at or after `from`: the index of its start tag and the
      index just past the nearest end tag that follows the start tag. */
  function NextBlock(c: string, s: string, e: string, from: nat): (r: Option<(nat, nat)>)
    ensures r.Some? ==> from <= r.value.0 && r.value.0 + |s| + |e| <= r.value.1 <= |c|
    ensures r.Some? ==> OccursAt(c, s, r.value.0) && OccursAt(c, e, r.value.1 - |e|)
  {
    match IndexFrom(c, s, from)
    case None => None
    case Some(i) =>
      match IndexFrom(c, e, i + |s|)
      case None => None
      case Some(k) => Some((i, k + |e|))
  }

  /** Some start tag at or after `from` is followed, after its own end, by an end tag. */
  ghost predicate HasBlockFrom(c: string, s: string, e: string, from: nat) {
    exists i: nat, k: nat :: from <= i && i + |s| <= k && OccursAt(c, s, i) && OccursAt(c, e, k)
  }

  /** Number of blocks from `from` on (`preg_match_all`). */
  function CountFrom(c: string, s: string, e: string, from: nat): nat
    requires |s| > 0
    decreases |c| - from
  {
    match NextBlock(c, s, e, from)
    case None => 0
    case Some(b) => 1 + CountFrom(c, s, e, b.1)
  }

  /** The first position at or after `p` that is not a newline. */
  function SkipNewlines(c: string, p: nat): (q: nat)
    requires p <= |c|
    ensures p <= q <= |c|
    ensures forall k :: p <= k < q ==> c[k] == '\n'
    ensures q == |c| || c[q] != '\n'
    decreases |c| - p
  {
    if p < |c| && c[p] == '\n' then SkipNewlines(c, p + 1) else p
  }

  /** Every block from `from` on deleted together with the newlines right
      after it (`preg_replace` of the pattern followed by `(\n*)`). */
  function RemoveFrom(c: string, s: string, e: string, from: nat): string
    requires |s| > 0 && from <= |c|
    decreases |c| - from
  {
    match NextBlock(c, s, e, from)
    case None => c[from..]
    case Some(b) => c[from..b.0] + RemoveFrom(c, s, e, SkipNewlines(c, b.1))
  }

  /** The groups of the block match `c[b.0..b.1]`: group 0 is the whole block;
      group 1, `(.|\n)`, holds its last repetition, the character just in front
      of the end tag, and is unset when the end tag follows the start tag
      directly. */
  function BlockGroups(c: string, s: string, e: string, b: (nat, nat)): (g: seq<string>)
    requires b.0 + |s| + |e| <= b.1 <= |c|
    ensures 1 <= |g| <= 2 && g[0] == c[b.0..b.1]
    ensures |g| == 2 <==> b.0 + |s| + |e| < b.1
    ensures |g| == 2 ==> g[1] == [c[b.1 - |e| - 1]]
  {
    if b.0 + |s| + |e| < b.1 then [c[b.0..b.1], [c[b.1 - |e| - 1]]] else [c[b.0..b.1]]
  }

  /** Every block from `from` on replaced by `snippet`, which is the
      replacement string of `preg_replace` and so is expanded for each block. */
  function SubstituteFrom(c: string, s: string, e: string, snippet: string, from: nat): string
    requires |s| > 0 && from <= |c|
    decreases |c| - from
  {
    match NextBlock(c, s, e, from)
    case None => c[from..]
    case Some(b) =>
      c[from..b.0] + PregReplacement(snippet, BlockGroups(c, s, e, b)) + SubstituteFrom(c, s, e, snippet, b.1)
  }

  // ---------------------------------------------------------------------
  // Blocks of a wrapper marker

  /** `has_snippet` on given content: the number of blocks for the wrapper. */
  function CountBlocks(c: string, wrapper: string): nat {
    CountFrom(c, StartTag(wrapper), EndTag(wrapper), 0)
  }

  ghost predicate HasBlock(c: string, wrapper: string) {
    HasBlockFrom(c, StartTag(wrapper), EndTag(wrapper), 0)
  }

  /** `remove_snippet`'s edit: every block deleted with the newlines after it. */
  function RemoveBlocks(c: string, wrapper: string): string {
    RemoveFrom(c, StartTag(wrapper), EndTag(wrapper), 0)
  }

  /** `maybe_update_snippets`' edit: every block replaced by the snippet. */
  function ReplaceBlocks(c: string, wrapper: string, snippet: string): string {
    SubstituteFrom(c, StartTag(wrapper), EndTag(wrapper), snippet, 0)
  }

  /** The first position at or after `p` holding a line break, or the end. */
  function LineEnd(c: string, p: nat): (q: nat)
    requires p <= |c|
    ensures p <= q <= |c|
    ensures forall k :: p <= k < q ==> c[k] != '\r' && c[k] != '\n'
    ensures q == |c| || c[q] == '\r' || c[q] == '\n'
    decreases |c| - p
  {
    if p < |c| && c[p] != '\r' && c[p] != '\n' then LineEnd(c, p + 1) else p
  }

  /** The rest of the line after the first `# <versionMarker> `, if any. */
  function VersionOf(c: string, versionMarker: string): (r: Option<string>)
    ensures r.Some? ==> '\n' !in r.value && '\r' !in r.value
  {
    var tag := VersionTag(versionMarker);
    match IndexFrom(c, tag, 0)
    case None => None
    case Some(i) =>
      var v := c[i + |tag|..LineEnd(c, i + |tag|)];
      assert forall k :: 0 <= k < |v| ==> v[k] != '\n' && v[k] != '\r';
      Some(v)
  }

  /** `insert_snippet`'s edit: the snippet and a blank line go in front of every
      `# BEGIN WordPress`; without one, a blank line and the snippet are appended. */
  function InsertText(c: string, snippet: string): string {
    if Contains(c, WordPressMarker) then ReplaceAll(c, WordPressMarker, snippet + "\n\n" + WordPressMarker)
    else c + "\n\n" + snippet
  }

  /** The text that ends up in front of the snippet when it is inserted into `c`. */
  function TextBeforeSnippet(c: string): string {
    match IndexFrom(c, WordPressMarker, 0)
    case Some(p) => c[..p]
    case None => c + "\n\n"
  }

  /** `pat` is found at most once by successive searches. */
  predicate AtMostOnce(c: string, pat: string) {
    match IndexFrom(c, pat, 0)
    case None => true
    case Some(p) => IndexFrom(c, pat, p + |pat|).None?
  }

  // ---------------------------------------------------------------------
  // Properties

  /** A block is found from `from` on exactly when a start tag at or after
      `from` has an end tag after it. */
  lemma {:induction false} NextBlockExists(c: string, s: string, e: string, from: nat)
    ensures NextBlock(c, s, e, from).Some? <==> HasBlockFrom(c, s, e, from)
  {
    if HasBlockFrom(c, s, e, from) {
      var i: nat, k: nat :| from <= i && i + |s| <= k && OccursAt(c, s, i) && OccursAt(c, e, k);
      IndexFromAt(c, s, from, i);
      IndexFromAt(c, e, IndexFrom(c, s, from).value + |s|, k);
    }
  }

  /** `has_snippet` is positive exactly when some start tag has an end tag after it. */
  lemma {:induction false} CountBlocksPositive(c: string, wrapper: string)
    ensures CountBlocks(c, wrapper) > 0 <==> HasBlock(c, wrapper)
  {
    NextBlockExists(c, StartTag(wrapper), EndTag(wrapper), 0);
  }

  /** A block found from `p` on is also found from any earlier `from`. */
  lemma {:induction false} NextBlockEarlier(c: string, s: string, e: string, from: nat, p: nat)
    requires from <= p && NextBlock(c, s, e, p).Some?
    ensures NextBlock(c, s, e, from).Some?
  {
    var b := NextBlock(c, s, e, p).value;
    IndexFromAt(c, s, from, b.0);
    IndexFromAt(c, e, IndexFrom(c, s, from).value + |s|, b.1 - |e|);
  }

  /** Searching for blocks from `p`, behind a prefix `x`, is searching the
      text behind it. */
  lemma {:induction false} NextBlockSuffix(x: string, y: string, s: string, e: string, j: nat, p: nat)
    requires p == |x| + j
    ensures NextBlock(x + y, s, e, p).None? <==> NextBlock(y, s, e, j).None?
  {
    IndexFromSuffix(x, y, s, j, p);
    var r := IndexFrom(y, s, j);
    if r.Some? {
      IndexFromSuffix(x, y, e, r.value + |s|, |x| + r.value + |s|);
    }
  }

  /** Without blocks, removing and replacing blocks change nothing. */
  lemma {:induction false} NoBlocksUnchanged(c: string, wrapper: string, snippet: string)
    requires CountBlocks(c, wrapper) == 0
    ensures RemoveBlocks(c, wrapper) == c && ReplaceBlocks(c, wrapper, snippet) == c
  {
  }

  /** Each removed block takes at least its start and end tag with it. */
  lemma {:induction false} RemoveShrinks(c: string, s: string, e: string, from: nat)
    requires |s| > 0 && from <= |c|
    ensures |RemoveFrom(c, s, e, from)| <= |c| - from
    ensures NextBlock(c, s, e, from).Some? ==> |RemoveFrom(c, s, e, from)| + |s| + |e| <= |c| - from
    decreases |c| - from
  {
    match NextBlock(c, s, e, from)
    case None =>
    case Some(b) =>
      RemoveShrinks(c, s, e, SkipNewlines(c, b.1));
  }

  /** When the file holds a block, `remove_snippet` makes it shorter by at
      least the two tags. */
  lemma {:induction false} RemoveBlocksShrinks(c: string, wrapper: string)
    ensures CountBlocks(c, wrapper) > 0 ==> |RemoveBlocks(c, wrapper)| + |StartTag(wrapper)| + |EndTag(wrapper)| <= |c|
    ensures |RemoveBlocks(c, wrapper)| <= |c|
  {
    RemoveShrinks(c, StartTag(wrapper), EndTag(wrapper), 0);
  }

  /** A snippet placed anywhere in a text is a block of that text. */
  lemma {:induction false} BlockInside(a: string, s: string, body: string, t: string, e: string)
    requires |body| >= |e| && OccursAt(body, e, |body| - |e|)
    ensures HasBlockFrom(a + ((s + body) + t), s, e, 0)
  {
    var c := a + ((s + body) + t);
    OccursBehind(a, (s + body) + t, s, |a|);
    OccursInFront(s + body, t, s, 0);
    OccursInFront(s, body, s, 0);
    var k := |a| + |s| + |body| - |e|;
    OccursBehind(a, (s + body) + t, e, k);
    OccursInFront(s + body, t, e, k - |a|);
    OccursBehind(s, body, e, k - |a|);
    OccursSlice(s, s, 0);
    assert s[0..|s|] == s;
    assert |a| + |s| <= k && OccursAt(c, s, |a|) && OccursAt(c, e, k);
  }

  /** The text after the inserted snippet: a blank line and the rest of the
      file from the first `# BEGIN WordPress` on (with the later ones also
      prefixed by the snippet), or nothing when the snippet was appended. */
  function TextAfterSnippet(c: string, snippet: string): string {
    match IndexFrom(c, WordPressMarker, 0)
    case Some(p) => "\n\n" + WordPressMarker + ReplaceFrom(c, WordPressMarker, snippet + "\n\n" + WordPressMarker, p + |WordPressMarker|)
    case None => ""
  }

  /** `insert_snippet` places the snippet between the text before it and the
      text after it. */
  lemma {:induction false} InsertShape(c: string, snippet: string)
    ensures InsertText(c, snippet) == TextBeforeSnippet(c) + (snippet + TextAfterSnippet(c, snippet))
  {
    var m := WordPressMarker;
    match IndexFrom(c, m, 0)
    case None =>
      if Contains(c, m) {
        var k: nat :| k <= |c| && OccursAt(c, m, k);
        IndexFromAt(c, m, 0, k);
      }
    case Some(p) =>
      InsertShapeAt(c, snippet, p);
  }

  lemma {:induction false} InsertShapeAt(c: string, snippet: string, p: nat)
    requires IndexFrom(c, WordPressMarker, 0) == Some(p)
    ensures InsertText(c, snippet) == TextBeforeSnippet(c) + (snippet + TextAfterSnippet(c, snippet))
  {
    var m := WordPressMarker;
    var rep := snippet + "\n\n" + m;
    var tail := ReplaceFrom(c, m, rep, p + |m|);
    assert Contains(c, m);
    assert InsertText(c, snippet) == ReplaceFrom(c, m, rep, 0);
    assert ReplaceFrom(c, m, rep, 0) == c[0..p] + rep + tail;
    assert TextAfterSnippet(c, snippet) == "\n\n" + m + tail;
    ConcatShape(c[0..p], snippet, "\n\n", m, tail);
  }

  lemma {:induction false} ConcatShape(a: string, b: string, c: string, d: string, e: string)
    ensures a + (b + c + d) + e == a + (b + (c + d + e))
  {
  }

  /** After `insert_snippet`'s edit, `has_snippet` finds at least one block. */
  lemma {:induction false} InsertMakesBlock(c: string, wrapper: string, versionMarker: string, version: string, template: string)
    ensures CountBlocks(InsertText(c, Snippet(wrapper, versionMarker, version, template)), wrapper) > 0
  {
    var s, body := StartTag(wrapper), SnippetBody(wrapper, versionMarker, version, template);
    InsertShape(c, s + body);
    BlockInside(TextBeforeSnippet(c), s, body, TextAfterSnippet(c, s + body), EndTag(wrapper));
    NextBlockExists(InsertText(c, s + body), s, EndTag(wrapper), 0);
  }

  /** With a single `# BEGIN WordPress` at `p`, the text after the inserted
      snippet is a blank line and the file from `p` on. */
  lemma {:induction false} AfterSnippetOnce(c: string, snippet: string, p: nat)
    requires IndexFrom(c, WordPressMarker, 0) == Some(p) && AtMostOnce(c, WordPressMarker)
    ensures TextAfterSnippet(c, snippet) == "\n\n" + c[p..]
    ensures c[p] == '#'
  {
    var m := WordPressMarker;
    assert ReplaceFrom(c, m, snippet + "\n\n" + m, p + |m|) == c[p + |m|..];
    OccursSlice(c, m, p);
    assert c[p..] == m + c[p + |m|..];
  }

  /** Skipping newlines from the start of a run of newlines ends behind it. */
  lemma {:induction false} SkipGap(x: string, y: string, gap: string, t: string)
    requires forall k :: 0 <= k < |gap| ==> gap[k] == '\n'
    requires t == [] || t[0] != '\n'
    ensures SkipNewlines(x + (y + (gap + t)), |x| + |y|) == |x| + |y| + |gap|
  {
    var c := x + (y + (gap + t));
    forall k | |x| + |y| <= k < |x| + |y| + |gap|
      ensures c[k] == '\n'
    {
      assert c[k] == gap[k - |x| - |y|];
    }
    if |t| > 0 {
      assert c[|x| + |y| + |gap|] == t[0];
    }
    SkipNewlinesOver(c, |x| + |y|, |x| + |y| + |gap|);
  }

  /** The block found from the start is given by the first start tag and the
      first end tag behind it. */
  lemma {:induction false} FirstBlockFound(c: string, s: string, e: string, i: nat, k: nat)
    requires IndexFrom(c, s, 0) == Some(i)
    requires IndexFrom(c, e, i + |s|) == Some(k)
    ensures var b := NextBlock(c, s, e, 0); b.Some? && b.value.0 == i && b.value.1 == k + |e|
  {
  }

  /** The first `e` at or after `|x|` in `x + (body + r)` is the one that
      ends `body`. */
  lemma {:induction false} EndTagFound(x: string, body: string, r: string, e: string, p: nat)
    requires p == |x|
    requires IndexFrom(body, e, 0) == Some(|body| - |e|)
    ensures IndexFrom(x + (body + r), e, p) == Some(p + |body| - |e|)
  {
    IndexFromPrefix(body, r, e, 0, |body| - |e|);
    IndexFromSuffix(x, body + r, e, 0, p);
  }

  /** The first block of `(a + s) + (body + r)` is the snippet `s + body`
      when `a + s` shows `s` first at `|a|` and `body` ends with its first `e`. */
  lemma {:induction false} SnippetIsFirstBlock(a: string, s: string, body: string, r: string, e: string)
    requires IndexFrom(a + s, s, 0) == Some(|a|)
    requires IndexFrom(body, e, 0) == Some(|body| - |e|)
    ensures var b := NextBlock((a + s) + (body + r), s, e, 0);
            b.Some? && b.value.0 == |a| && b.value.1 == |a| + |s| + |body|
  {
    var c := (a + s) + (body + r);
    IndexFromPrefix(a + s, body + r, s, 0, |a|);
    EndTagFound(a + s, body, r, e, |a| + |s|);
    FirstBlockFound(c, s, e, |a|, |a| + |s| + |body| - |e|);
  }

  /** No block follows the newlines behind the snippet when none is in `t`. */
  lemma {:induction false} NoBlockBehind(x: string, body: string, gap: string, t: string, s: string, e: string)
    requires NextBlock(t, s, e, 0).None?
    ensures NextBlock(x + (body + (gap + t)), s, e, |x| + |body| + |gap|).None?
  {
    var y := x + body + gap;
    assert x + (body + (gap + t)) == y + t;
    NextBlockSuffix(y, t, s, e, 0, |x| + |body| + |gap|);
  }

  /** One removal step followed by no further block. */
  lemma {:induction false} RemoveLast(c: string, s: string, e: string, i: nat, j: nat, q: nat)
    requires |s| > 0
    requires var b := NextBlock(c, s, e, 0); b.Some? && b.value.0 == i && b.value.1 == j
    requires j <= |c| && SkipNewlines(c, j) == q
    requires NextBlock(c, s, e, q).None?
    ensures RemoveFrom(c, s, e, 0) == c[..i] + c[q..]
  {
  }

  /** Removing blocks from a text holding one snippet, followed by newlines and
      a block-free rest, deletes exactly the snippet and the newlines. */
  lemma {:induction false} RemoveInserted(a: string, s: string, body: string, gap: string, t: string, e: string)
    requires |s| > 0
    requires IndexFrom(a + s, s, 0) == Some(|a|)
    requires IndexFrom(body, e, 0) == Some(|body| - |e|)
    requires forall k :: 0 <= k < |gap| ==> gap[k] == '\n'
    requires t == [] || t[0] != '\n'
    requires NextBlock(t, s, e, 0).None?
    ensures RemoveFrom((a + s) + (body + (gap + t)), s, e, 0) == a + t
  {
    var x := a + s;
    var c := x + (body + (gap + t));
    SnippetIsFirstBlock(a, s, body, gap + t, e);
    SkipGap(x, body, gap, t);
    NoBlockBehind(x, body, gap, t, s, e);
    RemoveLast(c, s, e, |a|, |x| + |body|, |x| + |body| + |gap|);
    assert c[..|a|] == a;
    assert c[|x| + |body| + |gap|..] == t;
  }

  /** A text without blocks has none in any of its suffixes. */
  lemma {:induction false} NoBlockInRest(c: string, s: string, e: string, p: nat)
    requires |s| > 0 && p <= |c|
    requires CountFrom(c, s, e, 0) == 0
    ensures NextBlock(c[p..], s, e, 0).None?
  {
    if NextBlock(c, s, e, p).Some? {
      NextBlockEarlier(c, s, e, 0, p);
    }
    assert c == c[..p] + c[p..];
    NextBlockSuffix(c[..p], c[p..], s, e, 0, p);
  }

  lemma {:induction false} SubstituteLast(c: string, s: string, e: string, snippet: string, i: nat, j: nat)
    requires |s| > 0
    requires var b := NextBlock(c, s, e, 0); b.Some? && b.value.0 == i && b.value.1 == j
    requires NextBlock(c, s, e, j).None?
    ensures i + |s| + |e| <= j <= |c|
    ensures SubstituteFrom(c, s, e, snippet, 0) == c[..i] + PregReplacement(snippet, BlockGroups(c, s, e, (i, j))) + c[j..]
  {
  }

  /** A single outdated block, with no block behind it, is replaced by the new
      snippet and the text around it is kept (`maybe_update_snippets`' edit). */
  lemma {:induction false} ReplaceOnly(a: string, s: string, body: string, t: string, e: string, snippet: string)
    requires |s| > 0
    requires IndexFrom(a + s, s, 0) == Some(|a|)
    requires IndexFrom(body, e, 0) == Some(|body| - |e|)
    requires NextBlock(t, s, e, 0).None?
    ensures |e| <= |body|
    ensures SubstituteFrom((a + s) + (body + t), s, e, snippet, 0)
            == a + PregReplacement(snippet, [s + body] + (if |e| < |body| then [[body[|body| - |e| - 1]]] else [])) + t
  {
    var c := (a + s) + (body + t);
    SnippetIsFirstBlock(a, s, body, t, e);
    var y := a + s + body;
    assert c == y + t;
    NextBlockSuffix(y, t, s, e, 0, |a| + |s| + |body|);
    SubstituteLast(c, s, e, snippet, |a|, |a| + |s| + |body|);
    assert c[|a|..|a| + |s| + |body|] == s + body;
    if |e| < |body| {
      assert c[|a| + |s| + |body| - |e| - 1] == body[|body| - |e| - 1];
    }
    assert BlockGroups(c, s, e, (|a|, |a| + |s| + |body|))
           == [s + body] + (if |e| < |body| then [[body[|body| - |e| - 1]]] else []);
    assert c[..|a|] == a;
    assert c[|a| + |s| + |body|..] == t;
  }

  /** A text free of backslashes and dollar signs. */
  predicate NoReplacementEscapes(x: string) {
    forall k :: 0 <= k < |x| ==> x[k] != '\\' && x[k] != '$'
  }

  /** When neither the wrapper, the version marker, the version nor the
      template holds a backslash or a dollar sign, the updated snippet goes
      in exactly as written, whatever the replaced block held. */
  lemma {:induction false} PlainSnippetLiteral(wrapper: string, versionMarker: string, version: string, template: string, groups: seq<string>)
    requires NoReplacementEscapes(wrapper) && NoReplacementEscapes(versionMarker)
    requires NoReplacementEscapes(version) && NoReplacementEscapes(template)
    ensures PregReplacement(Snippet(wrapper, versionMarker, version, template), groups)
            == Snippet(wrapper, versionMarker, version, template)
  {
    var r := Snippet(wrapper, versionMarker, version, template);
    assert r == "# START " + wrapper + "\n# " + versionMarker + " " + version + "\n" + template + "\n# END " + wrapper;
    forall k | 0 <= k < |r|
      ensures r[k] != '\\' && r[k] != '$'
    {
      var a := "# START " + wrapper + "\n# " + versionMarker + " " + version + "\n";
      if k < |"# START "| + |wrapper| {
      } else if k < |a| {
      } else if k < |a| + |template| {
        assert r[k] == template[k - |a|];
      } else if k < |a| + |template| + |"\n# END "| {
      } else {
        assert r[k] == wrapper[k - |a| - |template| - |"\n# END "|];
      }
    }
    PlainReplacementLiteral(r, groups, 0);
  }

  lemma {:induction false} Reassociate(a: string, s: string, body: string, after: string)
    ensures a + ((s + body) + after) == (a + s) + (body + after)
  {
  }

  /** Removal after the snippet was put in front of the only `# BEGIN WordPress`. */
  lemma {:induction false} RemoveAfterInsertFront(c: string, s: string, body: string, e: string, p: nat)
    requires |s| > 0
    requires IndexFrom(c, WordPressMarker, 0) == Some(p) && AtMostOnce(c, WordPressMarker)
    requires CountFrom(c, s, e, 0) == 0
    requires IndexFrom(c[..p] + s, s, 0) == Some(p)
    requires IndexFrom(body, e, 0) == Some(|body| - |e|)
    ensures RemoveFrom((c[..p] + s) + (body + TextAfterSnippet(c, s + body)), s, e, 0) == c
  {
    AfterSnippetOnce(c, s + body, p);
    NoBlockInRest(c, s, e, p);
    RemoveInserted(c[..p], s, body, "\n\n", c[p..], e);
    assert c[..p] + c[p..] == c;
  }

  /** Removal after the snippet was appended behind a blank line. */
  lemma {:induction false} RemoveAfterAppend(c: string, s: string, body: string, e: string)
    requires |s| > 0
    requires IndexFrom(c + "\n\n" + s, s, 0) == Some(|c| + 2)
    requires IndexFrom(body, e, 0) == Some(|body| - |e|)
    ensures RemoveFrom((c + "\n\n" + s) + (body + ""), s, e, 0) == c + "\n\n"
  {
    assert body + "" == body + ("" + "");
    RemoveInserted(c + "\n\n", s, body, "", "", e);
  }

  /** Taking out what `insert_snippet` put in: when the file has no block of
      the wrapper, no start tag in front of the insertion point, at most one
      `# BEGIN WordPress`, and the snippet's first end tag is its last line,
      `remove_snippet`'s edit restores the file (plus the blank line that was
      added when the snippet was appended). */
  lemma {:induction false} RemoveAfterInsert(c: string, wrapper: string, versionMarker: string, version: string, template: string)
    requires CountBlocks(c, wrapper) == 0
    requires AtMostOnce(c, WordPressMarker)
    requires IndexFrom(TextBeforeSnippet(c) + StartTag(wrapper), StartTag(wrapper), 0) == Some(|TextBeforeSnippet(c)|)
    requires var body := SnippetBody(wrapper, versionMarker, version, template);
             IndexFrom(body, EndTag(wrapper), 0) == Some(|body| - |EndTag(wrapper)|)
    ensures RemoveBlocks(InsertText(c, Snippet(wrapper, versionMarker, version, template)), wrapper)
            == if Contains(c, WordPressMarker) then c else c + "\n\n"
  {
    var s, e := StartTag(wrapper), EndTag(wrapper);
    var body := SnippetBody(wrapper, versionMarker, version, template);
    var a, after := TextBeforeSnippet(c), TextAfterSnippet(c, s + body);
    InsertShape(c, s + body);
    Reassociate(a, s, body, after);
    match IndexFrom(c, WordPressMarker, 0)
    case None =>
      RemoveAfterAppend(c, s, body, e);
    case Some(p) =>
      assert Contains(c, WordPressMarker);
      RemoveAfterInsertFront(c, s, body, e, p);
  }


  lemma {:induction false} LineEndOver(c: string, p: nat, q: nat)
    requires p <= q < |c|
    requires forall k :: p <= k < q ==> c[k] != '\r' && c[k] != '\n'
    requires c[q] == '\n'
    ensures LineEnd(c, p) == q
    decreases q - p
  {
    if p < q {
      LineEndOver(c, p + 1, q);
    }
  }

  /** The version line is read back: behind the first `tag`, up to the line
      break, stands the version. */
  lemma {:induction false} VersionFound(a: string, tag: string, version: string, rest: string)
    requires IndexFrom(a + tag, tag, 0) == Some(|a|)
    requires '\n' !in version && '\r' !in version
    ensures var c := (a + tag) + (version + ("\n" + rest));
            IndexFrom(c, tag, 0) == Some(|a|)
            && LineEnd(c, |a| + |tag|) == |a| + |tag| + |version|
            && c[|a| + |tag|..|a| + |tag| + |version|] == version
  {
    var c := (a + tag) + (version + ("\n" + rest));
    IndexFromPrefix(a + tag, version + ("\n" + rest), tag, 0, |a|);
    var p := |a| + |tag|;
    forall k | p <= k < p + |version|
      ensures c[k] != '\r' && c[k] != '\n'
    {
      assert c[k] == version[k - p];
    }
    assert c[p + |version|] == '\n';
    LineEndOver(c, p, p + |version|);
    assert c[p..p + |version|] == version;
  }

  lemma {:induction false} Regroup(before: string, s: string, tag: string, version: string, template: string, e: string, after: string)
    ensures before + ((s + ("\n" + tag + version + "\n" + template + "\n" + e)) + after)
            == ((before + s + "\n") + tag) + (version + ("\n" + (template + "\n" + e + after)))
  {
  }

  /** `get_versions_from_htaccess` on a text shaped like a version line. */
  lemma {:induction false} VersionOfLine(c: string, versionMarker: string, a: string, version: string, rest: string)
    requires c == (a + VersionTag(versionMarker)) + (version + ("\n" + rest))
    requires IndexFrom(a + VersionTag(versionMarker), VersionTag(versionMarker), 0) == Some(|a|)
    requires '\n' !in version && '\r' !in version
    ensures VersionOf(c, versionMarker) == Some(version)
  {
    VersionFound(a, VersionTag(versionMarker), version, rest);
  }

  /** After `insert_snippet`'s edit, reading the versions finds the version
      just written, provided no version line of the marker stands in front of
      the snippet and the version holds no line break. */
  lemma {:induction false} InsertedVersion(c: string, wrapper: string, versionMarker: string, version: string, template: string)
    requires var a := TextBeforeSnippet(c) + StartTag(wrapper) + "\n";
             IndexFrom(a + VersionTag(versionMarker), VersionTag(versionMarker), 0) == Some(|a|)
    requires '\n' !in version && '\r' !in version
    ensures VersionOf(InsertText(c, Snippet(wrapper, versionMarker, version, template)), versionMarker) == Some(version)
  {
    var s, tag := StartTag(wrapper), VersionTag(versionMarker);
    var body := SnippetBody(wrapper, versionMarker, version, template);
    var before, after := TextBeforeSnippet(c), TextAfterSnippet(c, s + body);
    var rest := template + "\n" + EndTag(wrapper) + after;
    InsertShape(c, s + body);
    Regroup(before, s, tag, version, template, EndTag(wrapper), after);
    VersionOfLine(InsertText(c, s + body), versionMarker, before + s + "\n", version, rest);
  }

  lemma {:induction false} SkipNewlinesOver(c: string, p: nat, q: nat)
    requires p <= q <= |c|
    requires forall k :: p <= k < q ==> c[k] == '\n'
    requires q == |c| || c[q] != '\n'
    ensures SkipNewlines(c, p) == q
    decreases q - p
  {
    if p < q {
      SkipNewlinesOver(c, p + 1, q);
    }
  }
}

=== FILE: htaccess_handler.dfy ===
/** The `.htaccess` handler: a list of configured markers, the snippet
    templates loaded for them, and the text of the `.htaccess` file, which
    every operation reads (migrating legacy marker names on the way), edits
    and writes back. */
module HtaccessHandler {
  import opened PhpValues
  import opened PhpStrings
  import opened HtaccessBlocks

  /** A marker as configured. The four required entries may be missing;
      absent `replacements` or `migrations` are empty lists. */
  datatype RawMarker = RawMarker(
    wrapperMarker: Option<string>,
    versionMarker: Option<string>,
    version: Option<string>,
    templatePath: Option<string>,
    replacements: seq<(string, string)>,
    migrations: seq<(string, seq<string>)>)

  /** A marker that defines all four required entries. */
  datatype Marker = Marker(
    wrapperMarker: string,
    versionMarker: string,
    version: string,
    templatePath: string,
    replacements: seq<(string, string)>,
    migrations: seq<(string, seq<string>)>)

  /** What `$this->markers[ $key ]` yields for a key that is not configured:
      every entry reads as null, which interpolates as the empty string. */
  const NoMarker: Marker := Marker("", "", "", "", [], [])

  predicate Complete(r: RawMarker) {
    r.wrapperMarker.Some? && r.versionMarker.Some? && r.version.Some? && r.templatePath.Some?
  }

  function Validated(r: RawMarker): (m: Marker)
    requires Complete(r)
    ensures m.wrapperMarker == r.wrapperMarker.value && m.version == r.version.value
  {
    Marker(r.wrapperMarker.value, r.versionMarker.value, r.version.value, r.templatePath.value,
           r.replacements, r.migrations)
  }

  /** `validate_markers`: the complete markers, in their order, under their keys. */
  function ValidMarkers(raw: seq<(string, RawMarker)>): (ms: seq<(string, Marker)>)
    ensures |ms| <= |raw|
    decreases |raw|
  {
    if raw == [] then []
    else
      var n := |raw| - 1;
      var rest := ValidMarkers(raw[..n]);
      if Complete(raw[n].1) then rest + [(raw[n].0, Validated(raw[n].1))] else rest
  }

  /** The marker configured under `key`, or `NoMarker`. */
  function Lookup(ms: seq<(string, Marker)>, key: string): (m: Marker)
    ensures m != NoMarker ==> exists i :: 0 <= i < |ms| && ms[i] == (key, m)
  {
    if ms == [] then NoMarker
    else if ms[0].0 == key then ms[0].1
    else
      var m := Lookup(ms[1..], key);
      assert m != NoMarker ==> exists i :: 0 <= i < |ms| && ms[i] == (key, m) by {
        if m != NoMarker {
          var i :| 0 <= i < |ms[1..]| && ms[1..][i] == (key, m);
          assert ms[i + 1] == (key, m);
        }
      }
      m
  }

  // ---------------------------------------------------------------------
  // Templates

  /** The configured replacements applied in order with `str_replace`. */
  function ApplyReplacements(t: string, reps: seq<(string, string)>): string
    decreases |reps|
  {
    if reps == [] then t
    else
      var n := |reps| - 1;
      ReplaceAll(ApplyReplacements(t, reps[..n]), reps[n].0, reps[n].1)
  }

  /** `get_templates`: for every marker whose template file can be read, the
      trimmed file text with the replacements applied. `files` maps the
      readable paths to their contents. */
  function TemplatesOf(ms: seq<(string, Marker)>, files: map<string, string>): map<string, string>
    decreases |ms|
  {
    if ms == [] then map[]
    else
      var n := |ms| - 1;
      var t := TemplatesOf(ms[..n], files);
      if ms[n].1.templatePath in files
      then t[ms[n].0 := ApplyReplacements(Trim(files[ms[n].1.templatePath]), ms[n].1.replacements)]
      else t
  }

  // ---------------------------------------------------------------------
  // Migration of legacy marker names

  /** `$marker[ $key ]` for the string entries a migration may name. */
  function MarkerField(m: Marker, key: string): (r: Option<string>)
    ensures r.Some? <==> key in {"wrapperMarker", "versionMarker", "version", "templatePath"}
  {
    if key == "wrapperMarker" then Some(m.wrapperMarker)
    else if key == "versionMarker" then Some(m.versionMarker)
    else if key == "version" then Some(m.version)
    else if key == "templatePath" then Some(m.templatePath)
    else None
  }

  /** Each legacy string replaced in turn by `current`. */
  function ReplaceEach(c: string, legacy: seq<string>, current: string): string
    decreases |legacy|
  {
    if legacy == [] then c
    else
      var n := |legacy| - 1;
      ReplaceAll(ReplaceEach(c, legacy[..n], current), legacy[n], current)
  }

  /** The migrations of one marker, in order; keys the marker does not define are skipped. */
  function MigrateMarker(m: Marker, migrations: seq<(string, seq<string>)>, c: string): string
    decreases |migrations|
  {
    if migrations == [] then c
    else
      var n := |migrations| - 1;
      var before := MigrateMarker(m, migrations[..n], c);
      match MarkerField(m, migrations[n].0)
      case None => before
      case Some(current) => ReplaceEach(before, migrations[n].1, current)
  }

  /** `maybe_migrate_markers`: the migrations of every marker, marker by marker. */
  function MigrateContent(ms: seq<(string, Marker)>, c: string): string
    decreases |ms|
  {
    if ms == [] then c
    else
      var n := |ms| - 1;
      MigrateMarker(ms[n].1, ms[n].1.migrations, MigrateContent(ms[..n], c))
  }

  /** No legacy string of a migration that applies occurs in `c`. */
  predicate NoLegacyText(ms: seq<(string, Marker)>, c: string) {
    forall i, j, k :: 0 <= i < |ms| && 0 <= j < |ms[i].1.migrations| && 0 <= k < |ms[i].1.migrations[j].1| ==>
      !Contains(c, ms[i].1.migrations[j].1[k])
  }

  // ---------------------------------------------------------------------
  // Versions and updates

  /** `get_versions_from_htaccess`: for every marker whose version line occurs,
      the rest of that line. */
  function VersionsOf(ms: seq<(string, Marker)>, c: string): map<string, string>
    decreases |ms|
  {
    if ms == [] then map[]
    else
      var n := |ms| - 1;
      var v := VersionsOf(ms[..n], c);
      match VersionOf(c, ms[n].1.versionMarker)
      case None => v
      case Some(version) => v[ms[n].0 := version]
  }

  /** One round of `maybe_update_snippets`' loop: the blocks of `key` are
      replaced by a fresh snippet when they exist, the template is loaded, a
      version was read and it differs from the configured one. */
  function UpdateStep(all: seq<(string, Marker)>, templates: map<string, string>, versions: map<string, string>,
                      key: string, m: Marker, c: string): string
  {
    if CountBlocks(c, Lookup(all, key).wrapperMarker) == 0 || key !in templates then c
    else if key !in versions then c
    else if m.version == versions[key] then c
    else ReplaceBlocks(c, m.wrapperMarker, Snippet(m.wrapperMarker, m.versionMarker, m.version, templates[key]))
  }

  /** The content after the loop has run over `ms`. */
  function UpdateAll(all: seq<(string, Marker)>, templates: map<string, string>, versions: map<string, string>,
                     ms: seq<(string, Marker)>, c: string): string
    decreases |ms|
  {
    if ms == [] then c
    else
      var n := |ms| - 1;
      UpdateStep(all, templates, versions, ms[n].0, ms[n].1, UpdateAll(all, templates, versions, ms[..n], c))
  }

  // ---------------------------------------------------------------------
  // Loops computing the functions above

  method ValidateMarkers(raw: seq<(string, RawMarker)>) returns (ms: seq<(string, Marker)>)
    ensures ms == ValidMarkers(raw)
  {
    ms := [];
    for i := 0 to |raw|
      invariant ms == ValidMarkers(raw[..i])
    {
      assert raw[..i + 1][..i] == raw[..i];
      if Complete(raw[i].1) {
        ms := ms + [(raw[i].0, Validated(raw[i].1))];
      }
    }
    assert raw[..|raw|] == raw;
  }

  method LoadTemplates(ms: seq<(string, Marker)>, files: map<string, string>) returns (templates: map<string, string>)
    ensures templates == TemplatesOf(ms, files)
  {
    templates := map[];
    for i := 0 to |ms|
      invariant templates == TemplatesOf(ms[..i], files)
    {
      assert ms[..i + 1][..i] == ms[..i];
      var m := ms[i].1;
      if m.templatePath in files {
        var template := Trim(files[m.templatePath]);
        for j := 0 to |m.replacements|
          invariant template == ApplyReplacements(Trim(files[m.templatePath]), m.replacements[..j])
        {
          assert m.replacements[..j + 1][..j] == m.replacements[..j];
          template := ReplaceAll(template, m.replacements[j].0, m.replacements[j].1);
        }
        assert m.replacements[..|m.replacements|] == m.replacements;
        templates := templates[ms[i].0 := template];
      }
    }
    assert ms[..|ms|] == ms;
  }

  method Migrate(ms: seq<(string, Marker)>, c: string) returns (content: string)
    ensures content == MigrateContent(ms, c)
  {
    content := c;
    for i := 0 to |ms|
      invariant content == MigrateContent(ms[..i], c)
    {
      assert ms[..i + 1][..i] == ms[..i];
      var m := ms[i].1;
      ghost var start := content;
      for j := 0 to |m.migrations|
        invariant content == MigrateMarker(m, m.migrations[..j], start)
      {
        assert m.migrations[..j + 1][..j] == m.migrations[..j];
        var field := MarkerField(m, m.migrations[j].0);
        if field.Some? {
          var legacy := m.migrations[j].1;
          ghost var before := content;
          for k := 0 to |legacy|
            invariant content == ReplaceEach(before, legacy[..k], field.value)
          {
            assert legacy[..k + 1][..k] == legacy[..k];
            content := ReplaceAll(content, legacy[k], field.value);
          }
          assert legacy[..|legacy|] == legacy;
        }
      }
      assert m.migrations[..|m.migrations|] == m.migrations;
    }
    assert ms[..|ms|] == ms;
  }

  method GetVersions(ms: seq<(string, Marker)>, c: string) returns (versions: map<string, string>)
    ensures versions == VersionsOf(ms, c)
  {
    versions := map[];
    for i := 0 to |ms|
      invariant versions == VersionsOf(ms[..i], c)
    {
      assert ms[..i + 1][..i] == ms[..i];
      var found := VersionOf(c, ms[i].1.versionMarker);
      if found.Some? {
        versions := versions[ms[i].0 := found.value];
      }
    }
    assert ms[..|ms|] == ms;
  }

  // ---------------------------------------------------------------------
  // The handler object

  /** The `.htaccess` file on disk: its text, or None while it cannot be read.
      Every handler built for the same path shares it. */
  class HtaccessFile {
    var text: Option<string>

    constructor (text: Option<string>)
      ensures this.text == text
    {
      this.text := text;
    }
  }

  class Handler {
    const disk: HtaccessFile
    const markers: seq<(string, Marker)>
    const templates: map<string, string>

    /** `__construct`: the markers are validated; templates are loaded only
        when some marker is valid. `templateFiles` maps the readable template
        paths to their contents. */
    constructor (raw: seq<(string, RawMarker)>, templateFiles: map<string, string>, disk: HtaccessFile)
      ensures this.disk == disk
      ensures markers == ValidMarkers(raw)
      ensures templates == if markers == [] then map[] else TemplatesOf(markers, templateFiles)
    {
      var ms := ValidateMarkers(raw);
      var ts: map<string, string> := map[];
      if ms != [] {
        ts := LoadTemplates(ms, templateFiles);
      }
      this.disk := disk;
      markers := ms;
      templates := ts;
    }

    /** The wrapper marker of `key` (empty for an unknown key). */
    function Wrapper(key: string): string {
      Lookup(markers, key).wrapperMarker
    }

    /** `$this->templates[ $key ]` (empty when it was not loaded). */
    function TemplateOf(key: string): string {
      if key in templates then templates[key] else ""
    }

    /** The snippet `insert_snippet` writes for `key`. */
    function SnippetFor(key: string): string {
      var m := Lookup(markers, key);
      Snippet(m.wrapperMarker, m.versionMarker, m.version, TemplateOf(key))
    }

    /** What `get_htaccess_content` returns for the file state `f`: the
        migrated text, or None where it throws because the file cannot be read. */
    function Read(f: Option<string>): (r: Option<string>)
      ensures r.Some? <==> f.Some?
      ensures f.Some? && NoLegacyText(markers, f.value) ==> r == f
    {
      match f
      case None => None
      case Some(c) =>
        assert NoLegacyText(markers, c) ==> MigrateContent(markers, c) == c by {
          if NoLegacyText(markers, c) {
            MigrateAbsent(markers, c);
          }
        }
        Some(MigrateContent(markers, c))
    }

    function Current(): Option<string>
      reads disk
    {
      Read(disk.text)
    }

    /** The file state `insert_snippet( key )` leaves behind. */
    function AfterInsert(f: Option<string>, key: string): (r: Option<string>)
      ensures Read(f).None? ==> r == f
      ensures Read(f).Some? && HasBlock(Read(f).value, Wrapper(key)) ==> r == f
      ensures Read(f).Some? && !HasBlock(Read(f).value, Wrapper(key)) ==>
                r == Some(InsertText(Read(f).value, SnippetFor(key))) && HasBlock(r.value, Wrapper(key))
    {
      match Read(f)
      case None => f
      case Some(c) =>
        CountBlocksPositive(c, Wrapper(key));
        if CountBlocks(c, Wrapper(key)) > 0 then f
        else
          var m := Lookup(markers, key);
          InsertMakesBlock(c, m.wrapperMarker, m.versionMarker, m.version, TemplateOf(key));
          CountBlocksPositive(InsertText(c, SnippetFor(key)), Wrapper(key));
          Some(InsertText(c, SnippetFor(key)))
    }

    /** The file state `remove_snippet( key )` leaves behind. */
    function AfterRemove(f: Option<string>, key: string): (r: Option<string>)
      ensures Read(f).None? ==> r == f
      ensures Read(f).Some? && !HasBlock(Read(f).value, Wrapper(key)) ==> r == f
      ensures Read(f).Some? && HasBlock(Read(f).value, Wrapper(key)) ==>
                r == Some(RemoveBlocks(Read(f).value, Wrapper(key)))
                && |r.value| + |StartTag(Wrapper(key))| + |EndTag(Wrapper(key))| <= |Read(f).value|
    {
      match Read(f)
      case None => f
      case Some(c) =>
        CountBlocksPositive(c, Wrapper(key));
        if CountBlocks(c, Wrapper(key)) == 0 then f
        else
          RemoveBlocksShrinks(c, Wrapper(key));
          Some(RemoveBlocks(c, Wrapper(key)))
    }

    /** The file state `maybe_update_snippets` leaves behind: untouched when
        it cannot be read, else the updated text, written even when unchanged. */
    function AfterUpdate(f: Option<string>): (r: Option<string>)
      ensures Read(f).None? ==> r == f
      ensures Read(f).Some? && (forall i :: 0 <= i < |markers| ==> CountBlocks(Read(f).value, Wrapper(markers[i].0)) == 0)
              ==> r == Read(f)
    {
      match Read(f)
      case None => f
      case Some(c) =>
        var versions := VersionsOf(markers, c);
        assert (forall i :: 0 <= i < |markers| ==> CountBlocks(c, Wrapper(markers[i].0)) == 0)
               ==> UpdateAll(markers, templates, versions, markers, c) == c by {
          if forall i :: 0 <= i < |markers| ==> CountBlocks(c, Wrapper(markers[i].0)) == 0 {
            UpdateAllNoBlocks(markers, templates, versions, markers, c);
          }
        }
        Some(UpdateAll(markers, templates, versions, markers, c))
    }

    /** `get_htaccess_content`. */
    method ReadContent() returns (r: Option<string>)
      ensures r == Current()
    {
      match disk.text
      case None => r := None;
      case Some(c) =>
        var migrated := Migrate(markers, c);
        r := Some(migrated);
    }

    /** `get_content`: the migrated text, or the empty string when the file
        cannot be read. */
    method GetContent() returns (r: string)
      ensures disk.text.Some? ==> r == MigrateContent(markers, disk.text.value)
      ensures disk.text.None? ==> r == ""
    {
      var c := ReadContent();
      r := if c.Some? then c.value else "";
    }

    /** `write`: the file now holds `content`. */
    method Write(content: string)
      modifies disk
      ensures disk.text == Some(content)
    {
      disk.text := Some(content);
    }

    /** `has_snippet`: the number of blocks for `key` in `content`, or in the
        file when no content is given; false when the file has to be read
        and cannot be. */
    function HasSnippet(key: string, content: Option<string>): (r: Value)
      reads disk
      ensures r == Bool(false) <==> content.None? && disk.text.None?
      ensures r != Bool(false) ==> r.Int? && r.i >= 0
      ensures content.Some? ==> (r.Int? && (r.i > 0 <==> HasBlock(content.value, Wrapper(key))))
      ensures content.None? && disk.text.Some? ==> r.Int? && (r.i > 0 <==> HasBlock(Current().value, Wrapper(key)))
    {
      var c := if content.Some? then content else Current();
      match c
      case None => Bool(false)
      case Some(text) =>
        CountBlocksPositive(text, Wrapper(key));
        Int(CountBlocks(text, Wrapper(key)))
    }

    /** `insert_snippet`: nothing happens when the file cannot be read or
        already holds a block for `key`; otherwise the snippet goes in front
        of `# BEGIN WordPress` (or at the end) and the text is written back. */
    method InsertSnippet(key: string)
      modifies disk
      ensures disk.text == AfterInsert(old(disk.text), key)
    {
      var c := ReadContent();
      if c.None? {
        return;
      }
      var content := c.value;
      CountBlocksPositive(content, Wrapper(key));
      if Truthy(HasSnippet(key, Some(content))) {
        return;
      }
      var m := Lookup(markers, key);
      var snippet := Snippet(m.wrapperMarker, m.versionMarker, m.version, TemplateOf(key));
      if Contains(content, WordPressMarker) {
        content := ReplaceAll(content, WordPressMarker, snippet + "\n\n" + WordPressMarker);
      } else {
        content := content + "\n\n" + snippet;
      }
      Write(content);
    }

    /** `remove_snippet`: nothing happens when the file cannot be read or
        holds no block for `key`; otherwise every block goes, with the
        newlines right after it, and the text is written back. */
    method RemoveSnippet(key: string)
      modifies disk
      ensures disk.text == AfterRemove(old(disk.text), key)
    {
      var c := ReadContent();
      if c.None? {
        return;
      }
      var content := c.value;
      CountBlocksPositive(content, Wrapper(key));
      if !Truthy(HasSnippet(key, Some(content))) {
        return;
      }
      content := RemoveBlocks(content, Wrapper(key));
      Write(content);
    }

    /** `maybe_update_snippets`: nothing happens when the file cannot be read;
        otherwise every marker's blocks are re-versioned where `UpdateStep`
        says so, and the text is written back. */
    method MaybeUpdateSnippets()
      modifies disk
      ensures disk.text == AfterUpdate(old(disk.text))
    {
      var c := ReadContent();
      if c.None? {
        return;
      }
      var content := c.value;
      var versions := GetVersions(markers, content);
      for i := 0 to |markers|
        invariant content == UpdateAll(markers, templates, versions, markers[..i], c.value)
      {
        assert markers[..i + 1][..i] == markers[..i];
        var (key, m) := markers[i];
        if !Truthy(HasSnippet(key, Some(content))) || key !in templates {
          continue;
        }
        if key !in versions {
          continue;
        }
        if m.version == versions[key] {
          continue;
        }
        var snippet := Snippet(m.wrapperMarker, m.versionMarker, m.version, templates[key]);
        content := ReplaceBlocks(content, m.wrapperMarker, snippet);
      }
      assert markers[..|markers|] == markers;
      Write(content);
    }
  }

  // ---------------------------------------------------------------------
  // Properties

  /** A marker is kept exactly when it defines the four required entries,
      and it keeps its key. */
  lemma {:induction false} ValidMarkersMembers(raw: seq<(string, RawMarker)>, p: (string, Marker))
    ensures p in ValidMarkers(raw) <==>
            exists i :: 0 <= i < |raw| && Complete(raw[i].1) && p == (raw[i].0, Validated(raw[i].1))
    decreases |raw|
  {
    if raw != [] {
      var n := |raw| - 1;
      ValidMarkersMembers(raw[..n], p);
      if exists i :: 0 <= i < |raw| && Complete(raw[i].1) && p == (raw[i].0, Validated(raw[i].1)) {
        var i :| 0 <= i < |raw| && Complete(raw[i].1) && p == (raw[i].0, Validated(raw[i].1));
        if i < n {
          assert raw[..n][i] == raw[i];
        }
      }
      if p in ValidMarkers(raw[..n]) {
        var i :| 0 <= i < n && Complete(raw[..n][i].1) && p == (raw[..n][i].0, Validated(raw[..n][i].1));
        assert raw[i] == raw[..n][i];
      }
    }
  }

  /** A template is loaded for a key exactly when some marker with that key
      names a readable template file. */
  lemma {:induction false} TemplateKeys(ms: seq<(string, Marker)>, files: map<string, string>, key: string)
    ensures key in TemplatesOf(ms, files) <==>
            exists i :: 0 <= i < |ms| && ms[i].0 == key && ms[i].1.templatePath in files
    decreases |ms|
  {
    if ms != [] {
      var n := |ms| - 1;
      TemplateKeys(ms[..n], files, key);
      if exists i :: 0 <= i < |ms| && ms[i].0 == key && ms[i].1.templatePath in files {
        var i :| 0 <= i < |ms| && ms[i].0 == key && ms[i].1.templatePath in files;
        if i < n {
          assert ms[..n][i] == ms[i];
        }
      }
      if key in TemplatesOf(ms[..n], files) {
        var i :| 0 <= i < n && ms[..n][i].0 == key && ms[..n][i].1.templatePath in files;
        assert ms[i] == ms[..n][i];
      }
    }
  }

  /** A version is recorded for a key exactly when some marker with that key
      has its version line in the text. */
  lemma {:induction false} VersionKeys(ms: seq<(string, Marker)>, c: string, key: string)
    ensures key in VersionsOf(ms, c) <==>
            exists i :: 0 <= i < |ms| && ms[i].0 == key && VersionOf(c, ms[i].1.versionMarker).Some?
  {
    if key in VersionsOf(ms, c) {
      VersionKeyRecorded(ms, c, key);
    }
    if exists i :: 0 <= i < |ms| && ms[i].0 == key && VersionOf(c, ms[i].1.versionMarker).Some? {
      var i :| 0 <= i < |ms| && ms[i].0 == key && VersionOf(c, ms[i].1.versionMarker).Some?;
      VersionKeyFound(ms, c, i);
    }
  }

  lemma {:induction false} VersionKeyRecorded(ms: seq<(string, Marker)>, c: string, key: string)
    requires key in VersionsOf(ms, c)
    ensures exists i :: 0 <= i < |ms| && ms[i].0 == key && VersionOf(c, ms[i].1.versionMarker).Some?
    decreases |ms|
  {
    var n := |ms| - 1;
    if !(ms[n].0 == key && VersionOf(c, ms[n].1.versionMarker).Some?) {
      VersionKeyRecorded(ms[..n], c, key);
      var i :| 0 <= i < n && ms[..n][i].0 == key && VersionOf(c, ms[..n][i].1.versionMarker).Some?;
      assert ms[i] == ms[..n][i];
    }
  }

  lemma {:induction false} VersionKeyFound(ms: seq<(string, Marker)>, c: string, i: nat)
    requires i < |ms| && VersionOf(c, ms[i].1.versionMarker).Some?
    ensures ms[i].0 in VersionsOf(ms, c)
    decreases |ms|
  {
    var n := |ms| - 1;
    if i < n {
      assert ms[..n][i] == ms[i];
      VersionKeyFound(ms[..n], c, i);
    }
  }

  /** Text without any legacy string is not changed by the migration. */
  lemma {:induction false} MigrateAbsent(ms: seq<(string, Marker)>, c: string)
    requires NoLegacyText(ms, c)
    ensures MigrateContent(ms, c) == c
    decreases |ms|
  {
    if ms != [] {
      var n := |ms| - 1;
      assert NoLegacyText(ms[..n], c) by {
        forall i, j, k | 0 <= i < n && 0 <= j < |ms[..n][i].1.migrations| && 0 <= k < |ms[..n][i].1.migrations[j].1|
          ensures !Contains(c, ms[..n][i].1.migrations[j].1[k])
        {
          assert ms[..n][i] == ms[i];
        }
      }
      MigrateAbsent(ms[..n], c);
      MigrateMarkerAbsent(ms[n].1, ms[n].1.migrations, c);
    }
  }

  lemma {:induction false} MigrateMarkerAbsent(m: Marker, migrations: seq<(string, seq<string>)>, c: string)
    requires forall j, k :: 0 <= j < |migrations| && 0 <= k < |migrations[j].1| ==> !Contains(c, migrations[j].1[k])
    ensures MigrateMarker(m, migrations, c) == c
    decreases |migrations|
  {
    if migrations != [] {
      var n := |migrations| - 1;
      MigrateMarkerAbsent(m, migrations[..n], c);
      var field := MarkerField(m, migrations[n].0);
      if field.Some? {
        ReplaceEachAbsent(c, migrations[n].1, field.value);
      }
    }
  }

  lemma {:induction false} ReplaceEachAbsent(c: string, legacy: seq<string>, current: string)
    requires forall k :: 0 <= k < |legacy| ==> !Contains(c, legacy[k])
    ensures ReplaceEach(c, legacy, current) == c
    decreases |legacy|
  {
    if legacy != [] {
      var n := |legacy| - 1;
      ReplaceEachAbsent(c, legacy[..n], current);
      ReplaceAllAbsent(c, legacy[n], current);
    }
  }

  /** A round of the update loop changes the text only when the blocks
      exist, the template is loaded, a version was read and it is stale. */
  lemma {:induction false} UpdateStepOnlyWhenStale(all: seq<(string, Marker)>, templates: map<string, string>,
                                                   versions: map<string, string>, key: string, m: Marker, c: string)
    requires UpdateStep(all, templates, versions, key, m, c) != c
    ensures HasBlock(c, Lookup(all, key).wrapperMarker) && key in templates
    ensures key in versions && versions[key] != m.version
  {
    CountBlocksPositive(c, Lookup(all, key).wrapperMarker);
  }

  /** When every version read from the file equals the configured one, the
      update loop leaves the text as it is. */
  lemma {:induction false} UpdateAllCurrent(all: seq<(string, Marker)>, templates: map<string, string>,
                                            versions: map<string, string>, ms: seq<(string, Marker)>, c: string)
    requires forall i :: 0 <= i < |ms| && ms[i].0 in versions ==> versions[ms[i].0] == ms[i].1.version
    ensures UpdateAll(all, templates, versions, ms, c) == c
    decreases |ms|
  {
    if ms != [] {
      var n := |ms| - 1;
      assert forall i :: 0 <= i < n ==> ms[..n][i] == ms[i];
      UpdateAllCurrent(all, templates, versions, ms[..n], c);
    }
  }

  /** Where no marker has a block in the text, the update loop leaves it as it is. */
  lemma {:induction false} UpdateAllNoBlocks(all: seq<(string, Marker)>, templates: map<string, string>,
                                             versions: map<string, string>, ms: seq<(string, Marker)>, c: string)
    requires forall i :: 0 <= i < |ms| ==> CountBlocks(c, Lookup(all, ms[i].0).wrapperMarker) == 0
    ensures UpdateAll(all, templates, versions, ms, c) == c
    decreases |ms|
  {
    if ms != [] {
      var n := |ms| - 1;
      assert forall i :: 0 <= i < n ==> ms[..n][i] == ms[i];
      UpdateAllNoBlocks(all, templates, versions, ms[..n], c);
    }
  }
}

=== FILE: php_strings.dfy ===
/** The PHP string functions the plugin uses: `strpos`, `str_replace`,
    `explode`/`implode` on one character, `trim`, `strtolower` (ASCII) and
    prefix tests. */
module PhpStrings {
  import opened PhpValues

  /** `pat` occurs in `s` starting at index `k`. */
  predicate OccursAt(s: string, pat: string, k: nat) {
    k + |pat| <= |s| && MatchesFrom(s, pat, k, 0)
  }

  /** The characters of `pat` from index `i` on sit in `s` from `k + i` on. */
  predicate MatchesFrom(s: string, pat: string, k: nat, i: nat)
    decreases |pat| - i
  {
    i >= |pat| || (k + i < |s| && s[k + i] == pat[i] && MatchesFrom(s, pat, k, i + 1))
  }

  lemma {:induction false} MatchesSlice(s: string, pat: string, k: nat, i: nat)
    requires k + |pat| <= |s| && i <= |pat|
    ensures MatchesFrom(s, pat, k, i) <==> s[k + i..k + |pat|] == pat[i..]
    decreases |pat| - i
  {
    if i < |pat| {
      MatchesSlice(s, pat, k, i + 1);
      assert s[k + i..k + |pat|] == [s[k + i]] + s[k + i + 1..k + |pat|];
      assert pat[i..] == [pat[i]] + pat[i + 1..];
    }
  }

  /** An occurrence is a slice equal to the pattern. */
  lemma {:induction false} OccursSlice(s: string, pat: string, k: nat)
    ensures OccursAt(s, pat, k) <==> k + |pat| <= |s| && s[k..k + |pat|] == pat
  {
    if k + |pat| <= |s| {
      MatchesSlice(s, pat, k, 0);
    }
  }

  predicate Contains(s: string, pat: string) {
    exists k: nat :: k <= |s| && OccursAt(s, pat, k)
  }

  predicate StartsWith(s: string, prefix: string) {
    OccursAt(s, prefix, 0)
  }

  /** A prefix test is a sequence prefix. */
  lemma {:induction false} StartsWithPrefix(s: string, prefix: string)
    ensures StartsWith(s, prefix) <==> prefix <= s
  {
    OccursSlice(s, prefix, 0);
  }

  /** `strpos( $s, $pat, $from )`: the first occurrence at or after `from`. */
  function IndexFrom(s: string, pat: string, from: nat): (r: Option<nat>)
    ensures r.Some? ==> from <= r.value && OccursAt(s, pat, r.value)
    decreases |s| - from
  {
    if from + |pat| > |s| then None
    else if OccursAt(s, pat, from) then Some(from)
    else IndexFrom(s, pat, from + 1)
  }

  /** `IndexFrom` finds the first occurrence at or after `from`, and none
      exactly when there is none. */
  lemma {:induction false} IndexFromFirst(s: string, pat: string, from: nat)
    ensures var r := IndexFrom(s, pat, from);
            (r.Some? ==> forall k: nat :: from <= k < r.value ==> !OccursAt(s, pat, k))
            && (r.None? <==> forall k: nat :: from <= k ==> !OccursAt(s, pat, k))
    decreases |s| - from
  {
    if from + |pat| <= |s| && !OccursAt(s, pat, from) {
      IndexFromFirst(s, pat, from + 1);
    }
  }

  lemma {:induction false} MatchesInFront(x: string, y: string, pat: string, k: nat, i: nat)
    requires k + |pat| <= |x|
    ensures MatchesFrom(x + y, pat, k, i) <==> MatchesFrom(x, pat, k, i)
    decreases |pat| - i
  {
    if i < |pat| {
      MatchesInFront(x, y, pat, k, i + 1);
    }
  }

  lemma {:induction false} MatchesBehind(x: string, y: string, pat: string, k: nat, i: nat)
    requires |x| <= k
    ensures MatchesFrom(x + y, pat, k, i) <==> MatchesFrom(y, pat, k - |x|, i)
    decreases |pat| - i
  {
    if i < |pat| {
      MatchesBehind(x, y, pat, k, i + 1);
    }
  }

  /** An occurrence lying wholly inside the first part of a concatenation. */
  lemma {:induction false} OccursInFront(x: string, y: string, pat: string, k: nat)
    requires k + |pat| <= |x|
    ensures OccursAt(x + y, pat, k) <==> OccursAt(x, pat, k)
  {
    MatchesInFront(x, y, pat, k, 0);
  }

  /** An occurrence starting in the second part of a concatenation. */
  lemma {:induction false} OccursBehind(x: string, y: string, pat: string, k: nat)
    requires |x| <= k
    ensures OccursAt(x + y, pat, k) <==> OccursAt(y, pat, k - |x|)
  {
    MatchesBehind(x, y, pat, k, 0);
  }

  /** An occurrence at `k` at or after `from` is found, at `k` or before. */
  lemma {:induction false} IndexFromAt(s: string, pat: string, from: nat, k: nat)
    requires from <= k && OccursAt(s, pat, k)
    ensures IndexFrom(s, pat, from).Some? && IndexFrom(s, pat, from).value <= k
    decreases k - from
  {
    if from < k && !OccursAt(s, pat, from) {
      IndexFromAt(s, pat, from + 1, k);
    }
  }

  /** What is found in `x` is found at the same place in `x + y`. */
  lemma {:induction false} IndexFromPrefix(x: string, y: string, pat: string, from: nat, j: nat)
    requires from <= j && IndexFrom(x, pat, from) == Some(j)
    ensures IndexFrom(x + y, pat, from) == Some(j)
    decreases j - from
  {
    OccursInFront(x, y, pat, from);
    if from < j {
      IndexFromPrefix(x, y, pat, from + 1, j);
    }
  }

  /** Searching `x + y` from `p`, behind `x`, is searching `y`, shifted by `|x|`. */
  lemma {:induction false} IndexFromSuffix(x: string, y: string, pat: string, from: nat, p: nat)
    requires p == |x| + from
    ensures IndexFrom(x + y, pat, p) == ShiftBy(IndexFrom(y, pat, from), |x|)
    decreases |y| - from
  {
    if from + |pat| <= |y| {
      OccursBehind(x, y, pat, p);
      if !OccursAt(y, pat, from) {
        IndexFromSuffix(x, y, pat, from + 1, p + 1);
      }
    }
  }

  function ShiftBy(r: Option<nat>, d: nat): Option<nat> {
    match r
    case None => None
    case Some(i) => Some(i + d)
  }

  /** `str_replace( $search, $replace, $s )` with one search string: occurrences
      are replaced from left to right without overlapping; an empty search
      string leaves `s` as it is. */
  function ReplaceAll(s: string, search: string, replace: string): string {
    if search == "" then s else ReplaceFrom(s, search, replace, 0)
  }

  function ReplaceFrom(s: string, search: string, replace: string, from: nat): string
    requires |search| > 0 && from <= |s|
    decreases |s| - from
  {
    match IndexFrom(s, search, from)
    case None => s[from..]
    case Some(i) => s[from..i] + replace + ReplaceFrom(s, search, replace, i + |search|)
  }

  /** Where the search string does not occur, `str_replace` changes nothing. */
  lemma {:induction false} ReplaceAllAbsent(s: string, search: string, replace: string)
    requires !Contains(s, search)
    ensures ReplaceAll(s, search, replace) == s
  {
    if search != "" {
      IndexFromFirst(s, search, 0);
    }
  }

  /** Replacing a string by itself changes nothing. */
  lemma {:induction false} ReplaceAllSelf(s: string, search: string)
    ensures ReplaceAll(s, search, search) == s
  {
    if search != "" {
      ReplaceFromSelf(s, search, 0);
    }
  }

  lemma {:induction false} ReplaceFromSelf(s: string, search: string, from: nat)
    requires |search| > 0 && from <= |s|
    ensures ReplaceFrom(s, search, search, from) == s[from..]
    decreases |s| - from
  {
    match IndexFrom(s, search, from)
    case None =>
    case Some(i) =>
      ReplaceFromSelf(s, search, i + |search|);
      OccursSlice(s, search, i);
      assert s[from..] == s[from..i] + s[i..i + |search|] + s[i + |search|..];
  }

  /** Where the first occurrence of the search string is at `p` and none
      follows it, `str_replace` puts the replacement in its place and keeps
      the rest. */
  lemma {:induction false} ReplaceAllOnce(s: string, search: string, replace: string, p: nat)
    requires |search| > 0
    requires IndexFrom(s, search, 0) == Some(p) && IndexFrom(s, search, p + |search|).None?
    ensures ReplaceAll(s, search, replace) == s[..p] + replace + s[p + |search|..]
  {
    assert ReplaceFrom(s, search, replace, p + |search|) == s[p + |search|..];
    assert ReplaceFrom(s, search, replace, 0) == s[0..p] + replace + ReplaceFrom(s, search, replace, p + |search|);
  }

  /** `explode( $d, $s )` for a one-character delimiter. */
  function Split(s: string, d: char): (parts: seq<string>)
    ensures |parts| > 0
    ensures forall i :: 0 <= i < |parts| ==> d !in parts[i]
    decreases |s|
  {
    if |s| == 0 then [""]
    else
      var rest := Split(s[1..], d);
      if s[0] == d then [""] + rest
      else [[s[0]] + rest[0]] + rest[1..]
  }

  /** `implode( $d, $parts )` for a one-character glue. */
  function Join(parts: seq<string>, d: char): string {
    if |parts| == 0 then ""
    else if |parts| == 1 then parts[0]
    else parts[0] + [d] + Join(parts[1..], d)
  }

  /** Exploding and imploding on the same character gives the string back. */
  lemma {:induction false} JoinSplit(s: string, d: char)
    ensures Join(Split(s, d), d) == s
    decreases |s|
  {
    if |s| > 0 {
      var rest := Split(s[1..], d);
      JoinSplit(s[1..], d);
      if s[0] == d {
        assert Join([""] + rest, d) == "" + [d] + Join(rest, d);
        assert s == [s[0]] + s[1..];
      } else if |rest| == 1 {
        assert s == [s[0]] + s[1..];
      } else {
        var parts := [[s[0]] + rest[0]] + rest[1..];
        assert parts[1..] == rest[1..];
        assert Join(rest, d) == rest[0] + [d] + Join(rest[1..], d);
        assert s == [s[0]] + s[1..];
      }
    }
  }

  /** Text without the delimiter is one piece. */
  lemma {:induction false} SplitWhole(a: string, d: char)
    requires d !in a
    ensures Split(a, d) == [a]
    decreases |a|
  {
    if a != "" {
      SplitWhole(a[1..], d);
      assert [a[0]] + a[1..] == a;
    }
  }

  /** Splitting at one delimiter splits the text on either side of it
      independently. */
  lemma {:induction false} SplitConcat(a: string, rest: string, d: char)
    ensures Split(a + [d] + rest, d) == Split(a, d) + Split(rest, d)
    decreases |a|
  {
    if a == "" {
      var s := a + [d] + rest;
      assert s[0] == d && s[1..] == rest;
    } else {
      SplitConcat(a[1..], rest, d);
      assert a + [d] + rest == [a[0]] + (a[1..] + [d] + rest);
      assert a == [a[0]] + a[1..];
      SplitFirst(a[0], a[1..] + [d] + rest, d);
      SplitFirst(a[0], a[1..], d);
      SplitPrepend(a[0], Split(a[1..], d), Split(rest, d), d);
    }
  }

  /** One step of `Split`: the first character either ends the first piece
      or joins it. */
  lemma SplitFirst(c: char, t: string, d: char)
    ensures Split([c] + t, d) == if c == d then [""] + Split(t, d) else [[c] + Split(t, d)[0]] + Split(t, d)[1..]
  {
    var s := [c] + t;
    assert s[0] == c && s[1..] == t;
  }

  /** Adding a character in front of the pieces commutes with appending
      further pieces. */
  lemma SplitPrepend(c: char, left: seq<string>, right: seq<string>, d: char)
    requires |left| > 0
    ensures (if c == d then [""] + (left + right) else [[c] + (left + right)[0]] + (left + right)[1..]) ==
            (if c == d then [""] + left else [[c] + left[0]] + left[1..]) + right
  {
    if c != d {
      assert (left + right)[0] == left[0];
      assert (left + right)[1..] == left[1..] + right;
    }
  }

  /** The first piece is the text before the first delimiter. */
  lemma {:induction false} SplitAfter(a: string, rest: string, d: char)
    requires d !in a
    ensures Split(a + [d] + rest, d) == [a] + Split(rest, d)
    decreases |a|
  {
    var s := a + [d] + rest;
    if a == "" {
      assert s[0] == d && s[1..] == rest;
    } else {
      assert s[0] == a[0] && s[1..] == a[1..] + [d] + rest;
      SplitAfter(a[1..], rest, d);
      assert [a[0]] + a[1..] == a;
    }
  }

  /** Imploding pieces without the delimiter and exploding again gives the
      pieces back. */
  lemma {:induction false} SplitJoin(parts: seq<string>, d: char)
    requires |parts| > 0
    requires forall i :: 0 <= i < |parts| ==> d !in parts[i]
    ensures Split(Join(parts, d), d) == parts
    decreases |parts|
  {
    if |parts| == 1 {
      SplitWhole(parts[0], d);
    } else {
      SplitJoin(parts[1..], d);
      SplitAfter(parts[0], Join(parts[1..], d), d);
      assert [parts[0]] + parts[1..] == parts;
    }
  }

  /** The characters `trim` removes by default. */
  predicate IsTrimSpace(c: char) {
    c == ' ' || c == '\t' || c == '\n' || c == '\r' || c == '\0' || c == '\U{0B}'
  }

  function TrimLeft(s: string): (r: string)
    ensures |r| <= |s| && r == s[|s| - |r|..]
    ensures forall k :: 0 <= k < |s| - |r| ==> IsTrimSpace(s[k])
    ensures r == "" || !IsTrimSpace(r[0])
    decreases |s|
  {
    if |s| > 0 && IsTrimSpace(s[0]) then TrimLeft(s[1..]) else s
  }

  function TrimRight(s: string): (r: string)
    ensures |r| <= |s| && r == s[..|r|]
    ensures forall k :: |r| <= k < |s| ==> IsTrimSpace(s[k])
    ensures r == "" || !IsTrimSpace(r[|r| - 1])
    decreases |s|
  {
    if |s| > 0 && IsTrimSpace(s[|s| - 1]) then TrimRight(s[..|s| - 1]) else s
  }

  /** `trim( $s )`: the part of `s` left between its leading and trailing
      whitespace. */
  function Trim(s: string): (r: string)
    ensures exists i, j ::
              (0 <= i <= j <= |s| && r == s[i..j]
              && (forall k :: 0 <= k < i ==> IsTrimSpace(s[k]))
              && (forall k :: j <= k < |s| ==> IsTrimSpace(s[k])))
    ensures r == "" || (!IsTrimSpace(r[0]) && !IsTrimSpace(r[|r| - 1]))
  {
    var l := TrimLeft(s);
    var r := TrimRight(l);
    var i := |s| - |l|;
    assert r == s[i..i + |r|];
    r
  }

  /** Trimming twice is trimming once. */
  lemma {:induction false} TrimIdempotent(s: string)
    ensures Trim(Trim(s)) == Trim(s)
  {
    var t := Trim(s);
    assert TrimLeft(t) == t;
    assert TrimRight(t) == t;
  }

  function LowerChar(c: char): char {
    if 'A' <= c <= 'Z' then (c as int - 'A' as int + 'a' as int) as char else c
  }

  /** `strtolower( $s )` on ASCII letters. */
  function ToLower(s: string): (r: string)
    ensures |r| == |s|
    ensures forall k :: 0 <= k < |s| ==> r[k] == LowerChar(s[k])
  {
    seq(|s|, k requires 0 <= k < |s| => LowerChar(s[k]))
  }

  // ---------------------------------------------------------------------
  // The replacement string of `preg_replace`

  /** The back-reference that starts at `i` of a `preg_replace` replacement:
      `\n`, `$n` or `${n}` with one or two decimal digits n. Gives n and the
      position just past the reference. */
  function BackrefAt(r: string, i: nat): (b: Option<(nat, nat)>)
    requires i < |r|
    ensures b.Some? ==> (r[i] == '\\' || r[i] == '$') && i + 2 <= b.value.1 <= |r| && b.value.0 < 100
    ensures b.Some? && r[i] == '\\' ==> IsDigit(r[i + 1])
  {
    var brace := r[i] == '$' && i + 1 < |r| && r[i + 1] == '{';
    var j := if brace then i + 2 else i + 1;
    if (r[i] != '\\' && r[i] != '$') || j >= |r| || !IsDigit(r[j]) then None
    else
      var two := j + 1 < |r| && IsDigit(r[j + 1]);
      var d := r[j] as int - '0' as int;
      var n := if two then 10 * d + (r[j + 1] as int - '0' as int) else d;
      var k := if two then j + 2 else j + 1;
      if !brace then Some((n, k))
      else if k < |r| && r[k] == '}' then Some((n, k + 1))
      else None
  }

  /** Group `n` of a match; a group the match did not set is empty. */
  function Group(groups: seq<string>, n: nat): string {
    if n < |groups| then groups[n] else ""
  }

  /** The replacement from position `i` on, expanded for a match with the
      given groups: a back-reference becomes its group, a backslash in front of
      a backslash or a dollar sign makes that character literal, and every
      other character stands for itself. */
  function ExpandFrom(r: string, groups: seq<string>, i: nat): string
    requires i <= |r|
    decreases |r| - i
  {
    if i == |r| then ""
    else match BackrefAt(r, i)
      case Some(b) => Group(groups, b.0) + ExpandFrom(r, groups, b.1)
      case None =>
        if r[i] == '\\' && i + 1 < |r| && (r[i + 1] == '\\' || r[i + 1] == '$')
        then [r[i + 1]] + ExpandFrom(r, groups, i + 2)
        else [r[i]] + ExpandFrom(r, groups, i + 1)
  }

  /** The text `preg_replace` puts in place of a match whose groups are
      `groups` (group 0 is the whole match) when `r` is its replacement. */
  function PregReplacement(r: string, groups: seq<string>): string {
    ExpandFrom(r, groups, 0)
  }

  /** A character that starts neither a reference nor an escape stands for itself. */
  lemma {:induction false} ExpandPlainStep(r: string, groups: seq<string>, i: nat)
    requires i < |r| && r[i] != '\\' && r[i] != '$'
    ensures ExpandFrom(r, groups, i) == [r[i]] + ExpandFrom(r, groups, i + 1)
  {
    assert BackrefAt(r, i).None?;
  }

  /** A backslash makes the backslash or dollar sign after it literal. */
  lemma {:induction false} ExpandEscapeStep(r: string, groups: seq<string>, i: nat)
    requires i + 1 < |r| && r[i] == '\\' && (r[i + 1] == '\\' || r[i + 1] == '$')
    ensures ExpandFrom(r, groups, i) == [r[i + 1]] + ExpandFrom(r, groups, i + 2)
  {
    assert BackrefAt(r, i).None?;
  }

  /** A replacement without backslashes and dollar signs is put in literally. */
  lemma {:induction false} PlainReplacementLiteral(r: string, groups: seq<string>, i: nat)
    requires i <= |r|
    requires forall k :: i <= k < |r| ==> r[k] != '\\' && r[k] != '$'
    ensures ExpandFrom(r, groups, i) == r[i..]
    decreases |r| - i
  {
    if i < |r| {
      ExpandPlainStep(r, groups, i);
      PlainReplacementLiteral(r, groups, i + 1);
      assert r[i..] == [r[i]] + r[i + 1..];
    }
  }

  /** Every backslash and dollar sign preceded by a backslash: the escaping
      that makes a replacement literal. */
  function EscapeReplacement(x: string): (r: string)
    ensures |r| >= |x|
  {
    if x == [] then []
    else if x[0] == '\\' || x[0] == '$' then ['\\', x[0]] + EscapeReplacement(x[1..])
    else [x[0]] + EscapeReplacement(x[1..])
  }

  /** Expanding an escaped replacement gives back the text that was escaped. */
  lemma {:induction false} EscapedReplacementLiteral(x: string, groups: seq<string>)
    ensures PregReplacement(EscapeReplacement(x), groups) == x
  {
    EscapedFrom(x, [], groups);
    assert [] + EscapeReplacement(x) == EscapeReplacement(x);
  }

  lemma {:induction false} EscapedFrom(x: string, done: string, groups: seq<string>)
    ensures ExpandFrom(done + EscapeReplacement(x), groups, |done|) == x
    decreases |x|
  {
    var r := done + EscapeReplacement(x);
    if x == [] {
      assert |r| == |done|;
    } else {
      var step := if x[0] == '\\' || x[0] == '$' then ['\\', x[0]] else [x[0]];
      assert EscapeReplacement(x) == step + EscapeReplacement(x[1..]);
      assert r == (done + step) + EscapeReplacement(x[1..]);
      assert r[|done|] == step[0];
      if |step| == 2 {
        assert r[|done| + 1] == x[0];
        ExpandEscapeStep(r, groups, |done|);
      } else {
        ExpandPlainStep(r, groups, |done|);
      }
      EscapedFrom(x[1..], done + step, groups);
      assert x == [x[0]] + x[1..];
    }
  }

  /** `$0`, `${1}` and `\\1` name groups, a doubled backslash is one backslash,
      and a dollar sign before a non-digit is kept. */
  lemma ReplacementExamples(whole: string, last: string)
    ensures PregReplacement("$0", [whole, last]) == whole
    ensures PregReplacement("a${1}b", [whole, last]) == "a" + last + "b"
    ensures PregReplacement("\\1", [whole, last]) == last
    ensures PregReplacement("$1", [whole]) == ""
    ensures PregReplacement("\\\\$x", [whole]) == "\\$x"
  {
  }
}

=== FILE: php_values.dfy ===
/** PHP values as the plugin sees them: the scalar and array values stored in
    WordPress options, posted by forms and returned by `has_snippet`, with the
    conversions (`empty`, `(int)`, loose `==`, string conversion, `is_numeric`)
    the plugin relies on. Floats are not modelled. */
module PhpValues {

  datatype Option<+T> = None | Some(value: T)

  /** How a PHP call ends: normally, or by throwing an exception with a message. */
  datatype Outcome = Done | Thrown(message: string)

  /** A computed value, or the end of the request through `wp_die( $message )`. */
  datatype Result<+T> = Ok(value: T) | Died(message: string)

  /** A PHP value; arrays with string keys are maps (their key order is not kept). */
  datatype Value = Null | Bool(b: bool) | Int(i: int) | Str(s: string) | Arr(entries: map<string, Value>)

  /** `! empty( $v )`. */
  predicate Truthy(v: Value) {
    match v
    case Null => false
    case Bool(b) => b
    case Int(i) => i != 0
    case Str(s) => s != "" && s != "0"
    case Arr(m) => m != map[]
  }

  /** `isset( $a[ $key ] )` for a value used as an array: absent keys, null
      entries and non-array values give false. */
  predicate IsSetIn(a: Value, key: string) {
    a.Arr? && key in a.entries && a.entries[key] != Null
  }

  /** The entries of a value used as an array (a non-array has none). */
  function EntriesOf(a: Value): (m: map<string, Value>)
    ensures a.Arr? ==> m == a.entries
    ensures !a.Arr? ==> m == map[]
  {
    if a.Arr? then a.entries else map[]
  }

  /** `$a[ $key ] ?? null`. */
  function EntryOf(a: Value, key: string): (v: Value)
    ensures IsSetIn(a, key) <==> v != Null
  {
    if a.Arr? && key in a.entries then a.entries[key] else Null
  }

  /** `array_merge( $a, $b )` for string keys: the entries of both, those of
      `b` winning. */
  function ArrayMerge(a: map<string, Value>, b: map<string, Value>): (m: map<string, Value>)
    ensures m.Keys == a.Keys + b.Keys
    ensures forall k :: k in b ==> m[k] == b[k]
    ensures forall k :: k in a && k !in b ==> m[k] == a[k]
  {
    a + b
  }

  /** The TypeErrors PHP 8 raises when the first or the second argument of
      `array_merge` is not an array (the message goes on to name the type
      given); like `wp_die`, they end the request. */
  const MergeFirstNotArray: string := "array_merge(): Argument #1 must be of type array"
  const MergeSecondNotArray: string := "array_merge(): Argument #2 must be of type array"

  predicate IsDigit(c: char) { '0' <= c <= '9' }

  /** The whitespace PHP skips in front of (and, for numeric strings, behind) a number. */
  predicate IsNumericSpace(c: char) { c == ' ' || c == '\t' || c == '\n' || c == '\r' || c == '\U{0B}' || c == '\U{0C}' }

  /** Number of leading characters of `s` satisfying `IsDigit`. */
  function DigitRun(s: string, from: nat): (n: nat)
    ensures from + n <= |s| || (from >= |s| && n == 0)
    ensures forall k :: from <= k < from + n ==> IsDigit(s[k])
    ensures from + n < |s| ==> !IsDigit(s[from + n])
    decreases |s| - from
  {
    if from < |s| && IsDigit(s[from]) then 1 + DigitRun(s, from + 1) else 0
  }

  function SpaceRun(s: string, from: nat): (n: nat)
    ensures from + n <= |s| || (from >= |s| && n == 0)
    ensures from + n < |s| ==> !IsNumericSpace(s[from + n])
    decreases |s| - from
  {
    if from < |s| && IsNumericSpace(s[from]) then 1 + SpaceRun(s, from + 1) else 0
  }

  /** Value of the decimal digits `s[from .. from + n]`. */
  function DecimalValue(s: string, from: nat, n: nat): nat
    requires from + n <= |s|
    requires forall k :: from <= k < from + n ==> IsDigit(s[k])
  {
    if n == 0 then 0
    else
      assert IsDigit(s[from + n - 1]);
      10 * DecimalValue(s, from, n - 1) + (s[from + n - 1] as int - '0' as int)
  }

  /** Position just past an optional sign at `p`. */
  function SkipSign(s: string, p: nat): (q: nat)
    ensures q == p || q == p + 1
    ensures p <= |s| ==> q <= |s|
  {
    if p < |s| && (s[p] == '+' || s[p] == '-') then p + 1 else p
  }

  function Pow10(n: nat): (r: nat)
    ensures r > 0
  {
    if n == 0 then 1 else 10 * Pow10(n - 1)
  }

  /** Where the parts of the number at the front of a string lie: its sign,
      the digits before and after an optional decimal point, and the digits
      and sign of an exponent, which counts only when digits follow the `e`
      and its optional sign; `end` is the position just past the number. */
  datatype NumberScan = NumberScan(
    negative: bool, intStart: nat, intLen: nat, fracStart: nat, fracLen: nat,
    expNegative: bool, expStart: nat, expLen: nat, end: nat)

  /** An optional decimal point at `a` and the digits after it: where they
      start and how many there are (none without a point). */
  function FractionAt(s: string, a: nat): (r: (nat, nat))
    requires a <= |s|
    ensures a <= r.0 <= a + 1 && r.0 + r.1 <= |s|
    ensures r.0 == a + 1 <==> a < |s| && s[a] == '.'
    ensures r.0 == a ==> r.1 == 0
    ensures forall k :: r.0 <= k < r.0 + r.1 ==> IsDigit(s[k])
  {
    if a < |s| && s[a] == '.' then (a + 1, DigitRun(s, a + 1)) else (a, 0)
  }

  /** An exponent at `a`: `e` or `E`, an optional sign and at least one
      digit. Gives whether it is negative, where its digits start and how many
      there are; no digits and the start `a` when there is none. */
  function ExponentAt(s: string, a: nat): (r: (bool, nat, nat))
    requires a <= |s|
    ensures a <= r.1 && r.1 + r.2 <= |s|
    ensures r.2 == 0 ==> r.1 == a && !r.0
    ensures forall k :: r.1 <= k < r.1 + r.2 ==> IsDigit(s[k])
  {
    if a + 1 < |s| && (s[a] == 'e' || s[a] == 'E') then
      var x := SkipSign(s, a + 1);
      var n := DigitRun(s, x);
      if n > 0 then (x == a + 2 && s[a + 1] == '-', x, n) else (false, a, 0)
    else (false, a, 0)
  }

  /** The leading number of `s` after whitespace, read the way PHP's numeric
      strings are read; an exponent counts only behind at least one digit. */
  function ScanNumber(s: string): (r: NumberScan)
    ensures r.intStart + r.intLen <= r.end <= |s|
    ensures r.fracStart + r.fracLen <= r.end && r.expStart + r.expLen == r.end
    ensures forall k :: r.intStart <= k < r.intStart + r.intLen ==> IsDigit(s[k])
    ensures forall k :: r.fracStart <= k < r.fracStart + r.fracLen ==> IsDigit(s[k])
    ensures forall k :: r.expStart <= k < r.expStart + r.expLen ==> IsDigit(s[k])
  {
    var p := SpaceRun(s, 0);
    var q := SkipSign(s, p);
    var d1 := DigitRun(s, q);
    var frac := FractionAt(s, q + d1);
    var afterMantissa := frac.0 + frac.1;
    var exp := if d1 > 0 || frac.1 > 0 then ExponentAt(s, afterMantissa) else (false, afterMantissa, 0);
    NumberScan(q == p + 1 && s[p] == '-', q, d1, frac.0, frac.1, exp.0, exp.1, exp.2, exp.1 + exp.2)
  }

  /** `(int) $s`: the leading number (see `ScanNumber`), fraction and
      exponent included, truncated toward zero; a string that does not start
      with a number converts to 0. */
  function StringToInt(s: string): int {
    var r := ScanNumber(s);
    var mantissa := DecimalValue(s, r.intStart, r.intLen) * Pow10(r.fracLen) + DecimalValue(s, r.fracStart, r.fracLen);
    var e: int := DecimalValue(s, r.expStart, r.expLen);
    var shift: int := (if r.expNegative then -e else e) - r.fracLen;
    var m := if shift >= 0 then mantissa * Pow10(shift) else mantissa / Pow10(-shift);
    if r.negative then -m else m
  }

  /** `(int) $v`. */
  function IntCast(v: Value): int {
    match v
    case Null => 0
    case Bool(b) => if b then 1 else 0
    case Int(i) => i
    case Str(s) => StringToInt(s)
    case Arr(m) => if m == map[] then 0 else 1
  }

  /** `is_numeric( $s )` of PHP 8: optional surrounding whitespace, an optional
      sign, digits with an optional decimal point, and an optional exponent. */
  predicate IsNumeric(s: string) {
    var r := ScanNumber(s);
    (r.intLen > 0 || r.fracLen > 0) && r.end + SpaceRun(s, r.end) == |s|
  }

  /** An integer numeric string: optional surrounding whitespace, an optional
      sign and at least one digit. */
  predicate IsIntegerString(s: string) {
    var q := SkipSign(s, SpaceRun(s, 0));
    var n := DigitRun(s, q);
    n > 0 && q + n + SpaceRun(s, q + n) == |s|
  }

  /** Loose `$v == $n` against an integer (PHP 8 rules; numeric strings with a
      fraction or exponent are not modelled). */
  predicate LooseEqualsInt(v: Value, n: int) {
    match v
    case Null => n == 0
    case Bool(b) => b == (n != 0)
    case Int(i) => i == n
    case Str(s) => IsIntegerString(s) && StringToInt(s) == n
    case Arr(_) => false
  }

  function DigitChar(d: nat): char
    requires d < 10
  {
    ('0' as int + d) as char
  }

  function NatToDecimal(n: nat): (s: string)
    ensures |s| > 0
    ensures forall k :: 0 <= k < |s| ==> IsDigit(s[k])
  {
    if n < 10 then [DigitChar(n)] else NatToDecimal(n / 10) + [DigitChar(n % 10)]
  }

  function IntToDecimal(i: int): string {
    if i < 0 then "-" + NatToDecimal(-i) else NatToDecimal(i)
  }

  /** String conversion `(string) $v` (arrays convert to "Array"). */
  function ToPhpString(v: Value): string {
    match v
    case Null => ""
    case Bool(b) => if b then "1" else ""
    case Int(i) => IntToDecimal(i)
    case Str(s) => s
    case Arr(_) => "Array"
  }

  lemma {:induction false} DecimalValueOfNat(n: nat)
    ensures DecimalValue(NatToDecimal(n), 0, |NatToDecimal(n)|) == n
  {
    var s := NatToDecimal(n);
    if n >= 10 {
      var t := NatToDecimal(n / 10);
      assert s == t + [DigitChar(n % 10)];
      DecimalValueOfNat(n / 10);
      DecimalValuePrefix(s, |t|);
      assert DecimalValue(s, 0, |t|) == DecimalValue(t, 0, |t|) by {
        DecimalValueSame(s, t, |t|);
      }
    }
  }

  lemma {:induction false} DecimalValuePrefix(s: string, n: nat)
    requires n + 1 <= |s|
    requires forall k :: 0 <= k < n + 1 ==> IsDigit(s[k])
    ensures DecimalValue(s, 0, n + 1) == 10 * DecimalValue(s, 0, n) + (s[n] as int - '0' as int)
  {
  }

  lemma {:induction false} DecimalValueSame(s: string, t: string, n: nat)
    requires n <= |s| && n <= |t|
    requires forall k :: 0 <= k < n ==> IsDigit(s[k])
    requires forall k :: 0 <= k < n ==> s[k] == t[k]
    ensures forall k :: 0 <= k < n ==> IsDigit(t[k])
    ensures DecimalValue(s, 0, n) == DecimalValue(t, 0, n)
  {
    if n > 0 {
      DecimalValueSame(s, t, n - 1);
    }
  }

  /** Converting a non-negative integer to its decimal text and back with
      `(int)` gives the integer again. */
  lemma {:induction false} NatDecimalRoundTrip(n: nat)
    ensures StringToInt(NatToDecimal(n)) == n
  {
    var s := NatToDecimal(n);
    assert SpaceRun(s, 0) == 0 by { assert !IsNumericSpace(s[0]); }
    assert SkipSign(s, 0) == 0;
    DigitRunAll(s, 0);
    DecimalValueOfNat(n);
  }

  lemma {:induction false} DigitRunAll(s: string, from: nat)
    requires from <= |s|
    requires forall k :: from <= k < |s| ==> IsDigit(s[k])
    ensures DigitRun(s, from) == |s| - from
    decreases |s| - from
  {
    if from < |s| {
      DigitRunAll(s, from + 1);
    }
  }

  /** A run of `n` digits ended by a non-digit or the end of the text. */
  lemma {:induction false} DigitRunExact(s: string, from: nat, n: nat)
    requires from + n <= |s|
    requires forall k :: from <= k < from + n ==> IsDigit(s[k])
    requires from + n == |s| || !IsDigit(s[from + n])
    ensures DigitRun(s, from) == n
    decreases n
  {
    if n > 0 {
      DigitRunExact(s, from + 1, n - 1);
    }
  }

  /** Digits read at an offset have the value of the same digits read alone. */
  lemma {:induction false} DecimalValueAt(s: string, from: nat, t: string, n: nat)
    requires from + n <= |s| && n <= |t|
    requires forall k :: from <= k < from + n ==> IsDigit(s[k])
    requires forall k :: 0 <= k < n ==> s[from + k] == t[k]
    ensures forall k :: 0 <= k < n ==> IsDigit(t[k])
    ensures DecimalValue(s, from, n) == DecimalValue(t, 0, n)
  {
    assert forall k :: 0 <= k < n ==> IsDigit(t[k]) by {
      forall k | 0 <= k < n ensures IsDigit(t[k]) {
        assert IsDigit(s[from + k]);
      }
    }
    if n > 0 {
      DecimalValueAt(s, from, t, n - 1);
      assert s[from + (n - 1)] == t[n - 1];
    }
  }

  /** `n` digits are worth less than `10^n`. */
  lemma {:induction false} DecimalValueBelow(s: string, from: nat, n: nat)
    requires from + n <= |s|
    requires forall k :: from <= k < from + n ==> IsDigit(s[k])
    ensures DecimalValue(s, from, n) < Pow10(n)
  {
    if n > 0 {
      DecimalValueBelow(s, from, n - 1);
      assert IsDigit(s[from + n - 1]);
    }
  }

  /** The decimal text of `n` starts with a digit and has the value `n`. */
  lemma {:induction false} DecimalText(n: nat)
    ensures IsDigit(NatToDecimal(n)[0])
    ensures DecimalValue(NatToDecimal(n), 0, |NatToDecimal(n)|) == n
  {
    DecimalValueOfNat(n);
  }

  /** `(int) "<m>e<k>"` is `m * 10^k`: the exponent counts. */
  lemma {:induction false} ScientificToInt(m: nat, k: nat)
    ensures StringToInt(NatToDecimal(m) + "e" + NatToDecimal(k)) == m * Pow10(k)
  {
    var t, u := NatToDecimal(m), NatToDecimal(k);
    var s := t + "e" + u;
    assert s[|t|] == 'e' && s[|t| + 1] == u[0];
    LeadingDigits(m, s);
    assert FractionAt(s, |t|) == (|t|, 0);
    DecimalText(k);
    assert SkipSign(s, |t| + 1) == |t| + 1;
    DigitRunExact(s, |t| + 1, |u|);
    assert ExponentAt(s, |t|) == (false, |t| + 1, |u|);
    assert ScanNumber(s) == NumberScan(false, 0, |t|, |t|, 0, false, |t| + 1, |u|, |s|);
    DecimalValueAt(s, |t| + 1, u, |u|);
    assert DecimalValue(s, |t| + 1, |u|) == k;
  }

  /** A text that starts with the decimal text of `n`, followed by a
      non-digit or nothing, scans that text as its integer part. */
  lemma {:induction false} LeadingDigits(n: nat, s: string)
    requires NatToDecimal(n) <= s
    requires |NatToDecimal(n)| == |s| || !IsDigit(s[|NatToDecimal(n)|])
    ensures SpaceRun(s, 0) == 0 && SkipSign(s, 0) == 0 && DigitRun(s, 0) == |NatToDecimal(n)|
    ensures forall k :: 0 <= k < |NatToDecimal(n)| ==> IsDigit(s[k])
    ensures DecimalValue(s, 0, |NatToDecimal(n)|) == n
  {
    var t := NatToDecimal(n);
    DecimalText(n);
    assert s[0] == t[0];
    DigitRunExact(s, 0, |t|);
    DecimalValueAt(s, 0, t, |t|);
  }

  /** `(int) "<a>.<digits>"` is `a`: the fraction is cut off. */
  lemma {:induction false} FractionTruncated(a: nat, f: string)
    requires forall k :: 0 <= k < |f| ==> IsDigit(f[k])
    ensures StringToInt(NatToDecimal(a) + "." + f) == a
  {
    var t := NatToDecimal(a);
    var s := t + "." + f;
    assert s[|t|] == '.';
    LeadingDigits(a, s);
    DigitRunExact(s, |t| + 1, |f|);
    assert FractionAt(s, |t|) == (|t| + 1, |f|);
    assert ExponentAt(s, |s|) == (false, |s|, 0);
    assert ScanNumber(s).fracLen == |f|;
    var frac := DecimalValue(s, |t| + 1, |f|);
    DecimalValueBelow(s, |t| + 1, |f|);
    DivideOut(a, Pow10(|f|), frac);
  }

  lemma {:induction false} DivideOut(a: nat, p: nat, f: nat)
    requires f < p
    ensures (a * p + f) / p == a
  {
    var q, r := (a * p + f) / p, (a * p + f) % p;
    assert q * p + r == a * p + f;
    assert q <= a by {
      if a < q { MulGap(a, q, p); }
    }
    assert a <= q by {
      if q < a { MulGap(q, a, p); }
    }
  }

  /** A larger factor gives a product larger by at least one more `p`. */
  lemma {:induction false} MulGap(x: nat, y: nat, p: nat)
    requires x < y
    ensures x * p + p <= y * p
  {
    MulAtLeast(y - x, p);
    assert (y - x) * p == y * p - x * p;
  }

  lemma {:induction false} MulAtLeast(k: nat, p: nat)
    requires k >= 1
    ensures k * p >= p
  {
    assert k * p == (k - 1) * p + p;
  }

  /** `(int) "1e3"` is 1000. */
  lemma {:induction false} ScientificExample()
    ensures StringToInt("1e3") == 1000
  {
    assert NatToDecimal(1) == "1" && NatToDecimal(3) == "3";
    ScientificToInt(1, 3);
    assert NatToDecimal(1) + "e" + NatToDecimal(3) == "1e3";
  }

  /** `(int) "7.25"` is 7. */
  lemma {:induction false} FractionExample()
    ensures StringToInt("7.25") == 7
  {
    assert NatToDecimal(7) == "7";
    assert IsDigit("25"[0]) && IsDigit("25"[1]);
    FractionTruncated(7, "25");
    assert NatToDecimal(7) + "." + "25" == "7.25";
  }
}

=== FILE: plugin_state.dfy ===
/** `PluginState`: the options and transients a plugin registers for removal
    when it is deactivated or uninstalled, and the hooks that remove them. */
module PluginStateHooks {
  import opened PhpValues
  import opened WordPress

  /** An entity to remove: its name and its type (`option` or `transient`). */
  datatype Entity = Entity(name: string, kind: string)

  /** The entity as the source stores it, `[ 'name' => …, 'type' => … ]`. */
  function AsValue(e: Entity): Value {
    Arr(map["name" := Str(e.name), "type" := Str(e.kind)])
  }

  /** `in_array( $needle, $list, true )` over the stored entities. */
  predicate InArrayStrict(needle: Value, list: seq<Entity>) {
    exists i :: 0 <= i < |list| && AsValue(list[i]) == needle
  }

  /** The entities `names` of type `kind`, in order. */
  function EntitiesOf(names: seq<string>, kind: string): (r: seq<Entity>)
    ensures |r| == |names|
    ensures forall i :: 0 <= i < |r| ==> r[i] == Entity(names[i], kind)
  {
    seq(|names|, i requires 0 <= i < |names| => Entity(names[i], kind))
  }

  /** The list registered under `event`, empty when there is none. */
  function ListOf(m: map<string, seq<Entity>>, event: string): seq<Entity> {
    if event in m then m[event] else []
  }

  /** What remains of `store` (the options or the transients) after the
      entities of type `kind` in `es` are deleted in turn. */
  function AfterCleanup(store: map<string, Value>, es: seq<Entity>, kind: string): map<string, Value>
    decreases |es|
  {
    if es == [] then store
    else
      var n := |es| - 1;
      var rest := AfterCleanup(store, es[..n], kind);
      if es[n].kind == kind then rest - {es[n].name} else rest
  }

  /** The names of the entities of type `kind` in `es`. */
  function NamesOfKind(es: seq<Entity>, kind: string): set<string> {
    set i | 0 <= i < |es| && es[i].kind == kind :: es[i].name
  }

  /** Cleanup deletes exactly the listed names of the right type and keeps
      every other entry. */
  lemma {:induction false} AfterCleanupRemoves(store: map<string, Value>, es: seq<Entity>, kind: string)
    ensures AfterCleanup(store, es, kind) == store - NamesOfKind(es, kind)
    decreases |es|
  {
    if es != [] {
      var n := |es| - 1;
      AfterCleanupRemoves(store, es[..n], kind);
      var before := NamesOfKind(es[..n], kind);
      if es[n].kind == kind {
        assert NamesOfKind(es, kind) == before + {es[n].name} by {
          forall x | x in NamesOfKind(es, kind) ensures x in before + {es[n].name} {
            var i :| 0 <= i < |es| && es[i].kind == kind && es[i].name == x;
            if i < n {
              assert es[..n][i] == es[i];
            }
          }
          forall x | x in before ensures x in NamesOfKind(es, kind) {
            var i :| 0 <= i < n && es[..n][i].kind == kind && es[..n][i].name == x;
            assert es[i] == es[..n][i];
          }
        }
      } else {
        assert NamesOfKind(es, kind) == before by {
          forall x | x in NamesOfKind(es, kind) ensures x in before {
            var i :| 0 <= i < |es| && es[i].kind == kind && es[i].name == x;
            assert i < n;
            assert es[..n][i] == es[i];
          }
          forall x | x in before ensures x in NamesOfKind(es, kind) {
            var i :| 0 <= i < n && es[..n][i].kind == kind && es[..n][i].name == x;
            assert es[i] == es[..n][i];
          }
        }
      }
    }
  }

  const AlreadyRegistered: string := "You cannot register the cleanup hooks multiple times."
  const NotRegistered: string := "You have to register the cleanup hooks first before adding entities."
  const NotCallable: string := "The argument $callable must be callable."

  class PluginState {
    /** The main plugin file and its `plugin_basename`. */
    const pluginFile: string
    const basename: string
    var entitiesOnEvent: map<string, seq<Entity>>
    var didRegisterCleanupHooks: bool

    constructor (pluginFile: string, basename: string)
      ensures this.pluginFile == pluginFile && this.basename == basename
      ensures entitiesOnEvent == map[] && !didRegisterCleanupHooks
    {
      this.pluginFile := pluginFile;
      this.basename := basename;
      entitiesOnEvent := map[];
      didRegisterCleanupHooks := false;
    }

    /** `register_cleanup_hooks()`: the first call hooks `deactivate` to the
        plugin's deactivation and `uninstall` to its uninstall action; any
        later call throws. */
    method RegisterCleanupHooks(hooks: Hooks) returns (r: Outcome)
      modifies this, hooks
      ensures old(didRegisterCleanupHooks) ==> r == Thrown(AlreadyRegistered) && hooks.actions == old(hooks.actions)
      ensures !old(didRegisterCleanupHooks) ==>
                r == Done &&
                hooks.actions == old(hooks.actions) + [Action("deactivate_" + basename, "deactivate", 10, 1),
                                                       Action("uninstall_" + basename, "uninstall", 10, 1)]
      ensures didRegisterCleanupHooks && entitiesOnEvent == old(entitiesOnEvent)
    {
      if didRegisterCleanupHooks {
        return Thrown(AlreadyRegistered);
      }
      hooks.AddAction("deactivate_" + basename, "deactivate", 10, 1);
      hooks.AddAction("uninstall_" + basename, "uninstall", 10, 1);
      didRegisterCleanupHooks := true;
      return Done;
    }

    /** `remove_entities_on_event( $names, $type, $event )`: throws before
        the hooks are registered; otherwise appends one entity per name, in
        order. The duplicate test compares a name with stored arrays, so it
        never finds one and a name given twice is stored twice. */
    method RemoveEntitiesOnEvent(names: seq<string>, kind: string, event: string) returns (r: Outcome)
      modifies this
      ensures !old(didRegisterCleanupHooks) ==> r == Thrown(NotRegistered) && entitiesOnEvent == old(entitiesOnEvent)
      ensures old(didRegisterCleanupHooks) ==>
                r == Done &&
                entitiesOnEvent == old(entitiesOnEvent)[event := ListOf(old(entitiesOnEvent), event) + EntitiesOf(names, kind)]
      ensures didRegisterCleanupHooks == old(didRegisterCleanupHooks)
    {
      if !didRegisterCleanupHooks {
        return Thrown(NotRegistered);
      }
      if event !in entitiesOnEvent {
        entitiesOnEvent := entitiesOnEvent[event := []];
      }
      assert ListOf(old(entitiesOnEvent), event) + EntitiesOf(names[..0], kind) == ListOf(old(entitiesOnEvent), event);
      var i := 0;
      while i < |names|
        invariant 0 <= i <= |names|
        invariant didRegisterCleanupHooks == old(didRegisterCleanupHooks)
        invariant entitiesOnEvent == old(entitiesOnEvent)[event := ListOf(old(entitiesOnEvent), event) + EntitiesOf(names[..i], kind)]
      {
        var entity := Entity(names[i], kind);
        assert !InArrayStrict(Str(names[i]), entitiesOnEvent[event]);
        if !InArrayStrict(Str(names[i]), entitiesOnEvent[event]) {
          entitiesOnEvent := entitiesOnEvent[event := entitiesOnEvent[event] + [entity]];
        }
        assert EntitiesOf(names[..i + 1], kind) == EntitiesOf(names[..i], kind) + [entity];
        assert ListOf(old(entitiesOnEvent), event) + EntitiesOf(names[..i + 1], kind)
            == ListOf(old(entitiesOnEvent), event) + EntitiesOf(names[..i], kind) + [entity];
        i := i + 1;
      }
      assert names[..i] == names;
      return Done;
    }

    /** `remove_options_on_uninstall( $options )`. */
    method RemoveOptionsOnUninstall(options: seq<string>) returns (r: Outcome)
      modifies this
      ensures old(didRegisterCleanupHooks) <==> r == Done
      ensures r == Done ==>
                entitiesOnEvent == old(entitiesOnEvent)["uninstall" := ListOf(old(entitiesOnEvent), "uninstall") + EntitiesOf(options, "option")]
      ensures r != Done ==> entitiesOnEvent == old(entitiesOnEvent)
    {
      r := RemoveEntitiesOnEvent(options, "option", "uninstall");
    }

    /** `remove_transients_on_uninstall( $transients )`. */
    method RemoveTransientsOnUninstall(transients: seq<string>) returns (r: Outcome)
      modifies this
      ensures old(didRegisterCleanupHooks) <==> r == Done
      ensures r == Done ==>
                entitiesOnEvent == old(entitiesOnEvent)["uninstall" := ListOf(old(entitiesOnEvent), "uninstall") + EntitiesOf(transients, "transient")]
      ensures r != Done ==> entitiesOnEvent == old(entitiesOnEvent)
    {
      r := RemoveEntitiesOnEvent(transients, "transient", "uninstall");
    }

    /** `remove_options_on_deactivation( $options )`. */
    method RemoveOptionsOnDeactivation(options: seq<string>) returns (r: Outcome)
      modifies this
      ensures old(didRegisterCleanupHooks) <==> r == Done
      ensures r == Done ==>
                entitiesOnEvent == old(entitiesOnEvent)["deactivate" := ListOf(old(entitiesOnEvent), "deactivate") + EntitiesOf(options, "option")]
      ensures r != Done ==> entitiesOnEvent == old(entitiesOnEvent)
    {
      r := RemoveEntitiesOnEvent(options, "option", "deactivate");
    }

    /** `remove_transients_on_deactivation( $transients )`. */
    method RemoveTransientsOnDeactivation(transients: seq<string>) returns (r: Outcome)
      modifies this
      ensures old(didRegisterCleanupHooks) <==> r == Done
      ensures r == Done ==>
                entitiesOnEvent == old(entitiesOnEvent)["deactivate" := ListOf(old(entitiesOnEvent), "deactivate") + EntitiesOf(transients, "transient")]
      ensures r != Done ==> entitiesOnEvent == old(entitiesOnEvent)
    {
      r := RemoveEntitiesOnEvent(transients, "transient", "deactivate");
    }

    /** `cleanup( $event )`: in registration order, deletes the options and
        the transients listed under `event`; other types are skipped. */
    method Cleanup(site: Site, event: string)
      modifies site
      ensures site.options == AfterCleanup(old(site.options), ListOf(entitiesOnEvent, event), "option")
      ensures site.transients == AfterCleanup(old(site.transients), ListOf(entitiesOnEvent, event), "transient")
    {
      if event !in entitiesOnEvent {
        return;
      }
      var list := entitiesOnEvent[event];
      var i := 0;
      while i < |list|
        invariant 0 <= i <= |list|
        invariant site.options == AfterCleanup(old(site.options), list[..i], "option")
        invariant site.transients == AfterCleanup(old(site.transients), list[..i], "transient")
      {
        assert list[..i + 1][..i] == list[..i];
        if list[i].kind == "option" {
          site.DeleteOption(list[i].name);
        } else if list[i].kind == "transient" {
          site.DeleteTransient(list[i].name);
        }
        i := i + 1;
      }
      assert list[..i] == list;
    }

    /** `uninstall()`: cleans up the `uninstall` list only. */
    method Uninstall(site: Site)
      modifies site
      ensures site.options == old(site.options) - NamesOfKind(ListOf(entitiesOnEvent, "uninstall"), "option")
      ensures site.transients == old(site.transients) - NamesOfKind(ListOf(entitiesOnEvent, "uninstall"), "transient")
    {
      Cleanup(site, "uninstall");
      AfterCleanupRemoves(old(site.options), ListOf(entitiesOnEvent, "uninstall"), "option");
      AfterCleanupRemoves(old(site.transients), ListOf(entitiesOnEvent, "uninstall"), "transient");
    }

    /** `deactivate()`: cleans up the `deactivate` list only. */
    method Deactivate(site: Site)
      modifies site
      ensures site.options == old(site.options) - NamesOfKind(ListOf(entitiesOnEvent, "deactivate"), "option")
      ensures site.transients == old(site.transients) - NamesOfKind(ListOf(entitiesOnEvent, "deactivate"), "transient")
    {
      Cleanup(site, "deactivate");
      AfterCleanupRemoves(old(site.options), ListOf(entitiesOnEvent, "deactivate"), "option");
      AfterCleanupRemoves(old(site.transients), ListOf(entitiesOnEvent, "deactivate"), "transient");
    }

    /** `on_activation( $callable )`: throws for an argument that is not
        callable, otherwise hooks `callback` to the plugin's activation.
        `pluginsLoaded` is `did_action( 'plugins_loaded' )`, a count, which
        the source compares with `=== true`: that test never holds, so the
        exception it guards is never thrown. */
    method OnActivation(hooks: Hooks, isCallable: bool, callback: string, pluginsLoaded: nat) returns (r: Outcome)
      modifies hooks
      ensures !isCallable ==> r == Thrown(NotCallable) && hooks.actions == old(hooks.actions)
      ensures isCallable ==> r == Done && hooks.actions == old(hooks.actions) + [Action("activate_" + basename, callback, 10, 1)]
    {
      if !isCallable {
        return Thrown(NotCallable);
      }
      var count := Int(pluginsLoaded);
      if count == Bool(true) {
        // The source throws here.
        assert false;
      }
      hooks.AddAction("activate_" + basename, callback, 10, 1);
      return Done;
    }
  }

  /** Registering the same names twice keeps both copies, in order. */
  lemma {:induction false} NamesStoredTwice(m: map<string, seq<Entity>>, event: string, names: seq<string>, kind: string)
    ensures var once := m[event := ListOf(m, event) + EntitiesOf(names, kind)];
            var twice := once[event := ListOf(once, event) + EntitiesOf(names, kind)];
            ListOf(twice, event) == ListOf(m, event) + EntitiesOf(names + names, kind)
  {
    var e := EntitiesOf(names, kind);
    assert EntitiesOf(names + names, kind) == e + e;
  }
}

=== FILE: settings_builder.dfy ===
/** The settings-page builder (`SettingsBuilder`) and its fields
    (`AbstractSettingsField`): tabs holding element lists, the settings they
    register, and how a field finds its current value. */
module SettingsPage {
  import opened PhpValues
  import opened PhpStrings
  import opened WordPress

  /** A PHP array whose order matters: its keys in insertion order and its
      entries. */
  datatype OrderedMap<K, V> = OrderedMap(keys: seq<K>, values: map<K, V>)

  /** Each key once, and exactly the keys of the entries. */
  ghost predicate ValidMap<K(!new), V>(m: OrderedMap<K, V>) {
    (forall i, j :: 0 <= i < j < |m.keys| ==> m.keys[i] != m.keys[j])
    && (forall k :: k in m.values <==> k in m.keys)
  }

  function EmptyMap<K(!new), V>(): (m: OrderedMap<K, V>)
    ensures ValidMap(m)
  {
    OrderedMap([], map[])
  }

  /** `$a[ $key ] = $v`: an existing key keeps its place, a new one goes last. */
  function Put<K(!new), V>(m: OrderedMap<K, V>, key: K, v: V): (r: OrderedMap<K, V>)
    requires ValidMap(m)
    ensures ValidMap(r)
    ensures r.values == m.values[key := v]
    ensures key in m.values ==> r.keys == m.keys
    ensures key !in m.values ==> r.keys == m.keys + [key]
  {
    if key in m.values then OrderedMap(m.keys, m.values[key := v])
    else OrderedMap(m.keys + [key], m.values[key := v])
  }

  /** The entries of `m` followed by the entries of `b` under `ks`, put in turn. */
  function PutAll<K(!new), V>(m: OrderedMap<K, V>, b: map<K, V>, ks: seq<K>): (r: OrderedMap<K, V>)
    requires ValidMap(m)
    requires forall i :: 0 <= i < |ks| ==> ks[i] in b
    ensures ValidMap(r)
    ensures forall k :: k in r.values <==> k in m.values || k in ks
    ensures forall k :: k in ks ==> r.values[k] == b[k]
    ensures forall k :: k in m.values && k !in ks ==> r.values[k] == m.values[k]
    ensures m.keys <= r.keys
    decreases |ks|
  {
    if ks == [] then m
    else
      var r := PutAll(Put(m, ks[0], b[ks[0]]), b, ks[1..]);
      assert forall k :: k in ks <==> k == ks[0] || k in ks[1..];
      r
  }

  /** `array_merge( $a, $b )` for string keys. */
  function MergeMaps<K(!new), V>(a: OrderedMap<K, V>, b: OrderedMap<K, V>): (r: OrderedMap<K, V>)
    requires ValidMap(a) && ValidMap(b)
  {
    PutAll(a, b.values, b.keys)
  }

  /** Merging keeps the entries of both, those of `b` winning, and keeps the
      order of `a` in front. */
  lemma {:induction false} MergeMapsSpec<K(!new), V>(a: OrderedMap<K, V>, b: OrderedMap<K, V>)
    requires ValidMap(a) && ValidMap(b)
    ensures var r := MergeMaps(a, b);
            ValidMap(r) && r.values == a.values + b.values && a.keys <= r.keys
  {
    PutAllMerged(a, b.values, b.keys);
  }

  /** Putting every key of `b` overlays `b` on the map. */
  lemma {:induction false} PutAllMerged<K(!new), V>(m: OrderedMap<K, V>, b: map<K, V>, ks: seq<K>)
    requires ValidMap(m)
    requires forall i :: 0 <= i < |ks| ==> ks[i] in b
    requires forall k :: k in b ==> k in ks
    ensures PutAll(m, b, ks).values == m.values + b
  {
    var r := PutAll(m, b, ks);
    assert forall k :: k in b <==> k in ks;
    assert r.values.Keys == m.values.Keys + b.Keys;
    MapsAgree(r.values, m.values, b, b.Keys);
  }

  lemma {:induction false} MapsAgree<K, V>(r: map<K, V>, m: map<K, V>, b: map<K, V>, ks: set<K>)
    requires ks == b.Keys
    requires r.Keys == m.Keys + ks
    requires forall k :: k in ks ==> r[k] == b[k]
    requires forall k :: k in m && k !in ks ==> r[k] == m[k]
    ensures r == m + b
  {
    assert r.Keys == (m + b).Keys;
  }

  /** A key of an element list: a field's name, or the index `[]` assigns. */
  datatype ElementKey = Named(name: string) | Index(n: nat)

  /** An element of a tab: a field, known by its name, or another element
      (a button, a section header, a custom field) known by an identifier. */
  datatype Element = Field(name: string) | Other(id: string)

  datatype Tab = Tab(title: string, elements: OrderedMap<ElementKey, Element>)

  /** The index `[]` assigns next: one past the largest index in use, 0 when
      there is none. */
  function NextIndex(keys: seq<ElementKey>): (n: nat)
    ensures forall i :: 0 <= i < |keys| && keys[i].Index? ==> keys[i].n < n
    decreases |keys|
  {
    if keys == [] then 0
    else
      var rest := NextIndex(keys[1..]);
      assert forall i :: 1 <= i < |keys| ==> keys[i] == keys[1..][i - 1];
      if keys[0].Index? && keys[0].n + 1 > rest then keys[0].n + 1 else rest
  }

  const HookSuffix: string := "_merge_settings_page"
  const NoTab: string := "Tab does not exist."
  const NoHook: string := "No hook was registered"

  /** Whether a field or option name addresses an entry of an array option. */
  predicate IsArrayName(name: string) {
    '[' in name
  }

  class SettingsBuilder {
    const optionName: string
    const settingTitle: string
    const menuSlug: string
    var tabs: OrderedMap<string, Tab>
    var sanitizeCallbacks: seq<string>

    /** The tabs are a PHP array, every element list too, and no option
        name has two sanitize callbacks. */
    ghost predicate Valid()
      reads this
    {
      ValidMap(tabs)
      && (forall id :: id in tabs.values ==> ValidMap(tabs.values[id].elements))
      && (forall i, j :: 0 <= i < j < |sanitizeCallbacks| ==> sanitizeCallbacks[i] != sanitizeCallbacks[j])
    }

    constructor (optionName: string, settingTitle: string, menuSlug: string)
      ensures Valid()
      ensures this.optionName == optionName && this.settingTitle == settingTitle && this.menuSlug == menuSlug
      ensures tabs == EmptyMap() && sanitizeCallbacks == []
    {
      this.optionName := optionName;
      this.settingTitle := settingTitle;
      this.menuSlug := menuSlug;
      tabs := EmptyMap();
      sanitizeCallbacks := [];
    }

    /** The name of the merge filter: the menu slug with `-` turned into
        `_`, then `_merge_settings_page`. It is never empty. */
    function MergeHookName(): (r: string)
      ensures |r| >= |HookSuffix| > 0
      ensures r[|r| - |HookSuffix|..] == HookSuffix
    {
      var r := ReplaceAll(menuSlug, "-", "_") + HookSuffix;
      assert r[|r| - |HookSuffix|..] == HookSuffix;
      r
    }

    /** `register_merge_hook()`. */
    method RegisterMergeHook(hooks: Hooks)
      modifies hooks
      ensures hooks.actions == old(hooks.actions) + [Action(MergeHookName(), "merge", 10, 1)]
    {
      hooks.AddAction(MergeHookName(), "merge", 10, 1);
    }

    /** `unregister_merge_hook()`: the hook name is never empty, so the
        exception is never thrown and the filter is always removed. */
    method UnregisterMergeHook(hooks: Hooks) returns (r: Outcome)
      modifies hooks
      ensures r == Done
      ensures hooks.actions == WithoutAction(old(hooks.actions), MergeHookName(), "merge", 10)
      ensures forall a :: a in hooks.actions ==> !(a.hook == MergeHookName() && a.callback == "merge" && a.priority == 10)
    {
      var hookName := MergeHookName();
      if !Truthy(Str(hookName)) {
        // The source throws here.
        assert false;
      }
      hooks.RemoveAction(hookName, "merge", 10);
      return Done;
    }

    /** `merge( $settings_builder )`: the other builder's tabs join these,
        replacing same-id tabs; the tabs already here keep their order in
        front. */
    method Merge(other: SettingsBuilder)
      requires Valid() && other.Valid()
      modifies this
      ensures Valid()
      ensures tabs.values == old(tabs.values) + old(other.tabs.values)
      ensures old(tabs.keys) <= tabs.keys
      ensures sanitizeCallbacks == old(sanitizeCallbacks)
    {
      MergeMapsSpec(tabs, other.tabs);
      tabs := MergeMaps(tabs, other.tabs);
    }

    /** `add_tab( $tab_id, $tab_title )`: a new tab goes last; an existing
        one keeps its place but loses its elements. */
    method AddTab(id: string, title: string)
      requires Valid()
      modifies this
      ensures Valid()
      ensures tabs.values == old(tabs.values)[id := Tab(title, EmptyMap())]
      ensures id in old(tabs.values) ==> tabs.keys == old(tabs.keys)
      ensures id !in old(tabs.values) ==> tabs.keys == old(tabs.keys) + [id]
      ensures sanitizeCallbacks == old(sanitizeCallbacks)
    {
      tabs := Put(tabs, id, Tab(title, EmptyMap()));
    }

    /** `add_field( $tab_id, $field, $sanitize_callback )`: throws for a
        missing tab; otherwise stores the field under its name (replacing a
        same-named one) and, for a name without `[`, registers it as a
        setting, sanitized by `sanitize` or else by the field's own
        `sanitize_input`. */
    method AddField(registry: SettingsRegistry, id: string, name: string, sanitize: Option<string>) returns (r: Outcome)
      requires Valid()
      modifies this, registry
      ensures Valid()
      ensures id !in old(tabs.values) ==>
                r == Thrown(NoTab) && tabs == old(tabs) && registry.settings == old(registry.settings)
      ensures id in old(tabs.values) ==>
                r == Done &&
                tabs.keys == old(tabs.keys) &&
                tabs.values == old(tabs.values)[id := Tab(old(tabs.values)[id].title,
                                                         Put(old(tabs.values)[id].elements, Named(name), Field(name)))]
      ensures id in old(tabs.values) && !IsArrayName(name) ==>
                registry.settings == old(registry.settings) +
                  [Setting(optionName, name, if sanitize.Some? then sanitize.value else "sanitize_input")]
      ensures id in old(tabs.values) && IsArrayName(name) ==> registry.settings == old(registry.settings)
      ensures sanitizeCallbacks == old(sanitizeCallbacks)
    {
      if id !in tabs.values {
        return Thrown(NoTab);
      }
      if !IsArrayName(name) {
        var callback := if sanitize.Some? then sanitize.value else "sanitize_input";
        registry.RegisterSetting(optionName, name, callback);
      }
      var tab := tabs.values[id];
      tabs := Put(tabs, id, Tab(tab.title, Put(tab.elements, Named(name), Field(name))));
      return Done;
    }

    /** `add_element( $tab_id, $element )`: throws for a missing tab;
        otherwise appends the element to the tab's list. */
    method AddElement(id: string, element: Element) returns (r: Outcome)
      requires Valid()
      modifies this
      ensures Valid()
      ensures id !in old(tabs.values) ==> r == Thrown(NoTab) && tabs == old(tabs)
      ensures id in old(tabs.values) ==>
                r == Done &&
                tabs.keys == old(tabs.keys) &&
                (forall t :: t in tabs.values && t != id ==> tabs.values[t] == old(tabs.values)[t]) &&
                id in tabs.values &&
                tabs.values[id].title == old(tabs.values)[id].title &&
                tabs.values[id].elements.keys == old(tabs.values)[id].elements.keys + [Index(NextIndex(old(tabs.values)[id].elements.keys))] &&
                tabs.values[id].elements.values == old(tabs.values)[id].elements.values[Index(NextIndex(old(tabs.values)[id].elements.keys)) := element]
      ensures sanitizeCallbacks == old(sanitizeCallbacks)
    {
      if id !in tabs.values {
        return Thrown(NoTab);
      }
      var tab := tabs.values[id];
      var index := Index(NextIndex(tab.elements.keys));
      assert index !in tab.elements.values;
      tabs := Put(tabs, id, Tab(tab.title, Put(tab.elements, index, element)));
      return Done;
    }

    /** `add_sanitize_callback( $option_name )`: the first time a name is
        given it is recorded and registered as a setting whose callback runs
        the `<name>_options_array_sanitize_callback` filter; later calls do
        nothing. */
    method AddSanitizeCallback(registry: SettingsRegistry, name: string)
      requires Valid()
      modifies this, registry
      ensures Valid()
      ensures name in old(sanitizeCallbacks) ==>
                sanitizeCallbacks == old(sanitizeCallbacks) && registry.settings == old(registry.settings)
      ensures name !in old(sanitizeCallbacks) ==>
                sanitizeCallbacks == old(sanitizeCallbacks) + [name] &&
                registry.settings == old(registry.settings) + [Setting(optionName, name, name + "_options_array_sanitize_callback")]
      ensures tabs == old(tabs)
    {
      if name in sanitizeCallbacks {
        return;
      }
      sanitizeCallbacks := sanitizeCallbacks + [name];
      registry.RegisterSetting(optionName, name, name + "_options_array_sanitize_callback");
    }

    /** The tab `render()` shows: the requested one (`$_GET['tab']`) when it
        exists, else the first; none when there are no tabs. */
    function CurrentTab(requested: Option<string>): (r: Option<string>)
      requires Valid()
      reads this
      ensures tabs.keys == [] ==> r.None?
      ensures tabs.keys != [] && requested.Some? && requested.value in tabs.values ==> r == requested
      ensures tabs.keys != [] && !(requested.Some? && requested.value in tabs.values) ==> r == Some(tabs.keys[0])
    {
      var first := if tabs.keys == [] then None else Some(tabs.keys[0]);
      var current := if requested.Some? then requested else first;
      if current.Some? && current.value in tabs.values then current else first
    }
  }

  /** The option a field name reads: the text before the first `[`. */
  function OptionNameOf(name: string): string {
    Split(name, '[')[0]
  }

  /** The key inside that option: the name without `<option>[` and without
      every `]`. */
  function OptionKeyOf(name: string): string {
    ReplaceAll(ReplaceAll(name, OptionNameOf(name) + "[", ""), "]", "")
  }

  /** A name built as `option[key]` is read back as that option and key. */
  lemma {:induction false} FieldNameParts(option: string, key: string)
    requires '[' !in option && '[' !in key && ']' !in key
    ensures OptionNameOf(option + "[" + key + "]") == option
    ensures OptionKeyOf(option + "[" + key + "]") == key
  {
    var name := option + "[" + key + "]";
    assert name == option + ['['] + (key + "]");
    SplitAfter(option, key + "]", '[');
    var pat := option + "[";
    assert name == pat + (key + "]");
    OccursSlice(name, pat, 0);
    assert IndexFrom(name, pat, 0) == Some(0);
    forall k: nat | |pat| <= k ensures !OccursAt(name, pat, k) {
      OccursSlice(name, pat, k);
      if k + |pat| <= |name| {
        assert name[k + |option|] == (key + "]")[k + |option| - |pat|];
        assert name[k..k + |pat|][|option|] != pat[|option|];
      }
    }
    IndexFromFirst(name, pat, |pat|);
    ReplaceAllOnce(name, pat, "", 0);
    assert name[|pat|..] == key + "]";
    DropLast(key, ']');
  }

  /** Removing a character that only ends the string leaves the rest. */
  lemma {:induction false} DropLast(s: string, c: char)
    requires c !in s
    ensures ReplaceAll(s + [c], [c], "") == s
  {
    var t := s + [c];
    OccursSlice(t, [c], |s|);
    IndexFromAt(t, [c], 0, |s|);
    var p := IndexFrom(t, [c], 0).value;
    OccursSlice(t, [c], p);
    assert t[p] == c;
    assert p == |s|;
    ReplaceAllOnce(t, [c], "", p);
  }

  const FieldTemplates: string := "/../templates/fields/"

  /** A field of the settings page: its name, its template and the options
      passed to that template. */
  class SettingsField {
    const name: string
    const templateName: string
    /** The directory the field classes live in. */
    const dir: string
    var options: map<string, Value>

    constructor (name: string, options: map<string, Value>, templateName: string, dir: string)
      ensures this.name == name && this.options == options && this.templateName == templateName && this.dir == dir
    {
      this.name := name;
      this.options := options;
      this.templateName := templateName;
      this.dir := dir;
    }

    /** `get_value()`: for `option[key]`, that entry of the option (`''`
        when it is not set); otherwise the option of the field's name
        (false when it does not exist). */
    function GetValue(site: Site): (r: Value)
      reads site
      ensures !IsArrayName(name) ==> r == site.GetOption(name, Bool(false))
    {
      if IsArrayName(name) then
        var option := site.GetOption(OptionNameOf(name), Bool(false));
        var key := OptionKeyOf(name);
        if IsSetIn(option, key) then option.entries[key] else Str("")
      else site.GetOption(name, Bool(false))
    }

    /** `render()`: the template options get the field's name and, unless a
        value is already set, its current value. */
    method Render(site: Site)
      modifies this
      ensures options.Keys == old(options).Keys + {"name", "value"}
      ensures options["name"] == Str(name)
      ensures IsSetIn(Arr(old(options)), "value") ==> options["value"] == old(options)["value"]
      ensures !IsSetIn(Arr(old(options)), "value") ==> options["value"] == GetValue(site)
      ensures forall k :: k in old(options) && k != "name" && k != "value" ==> options[k] == old(options)[k]
    {
      options := options["name" := Str(name)];
      if !IsSetIn(Arr(options), "value") {
        options := options["value" := GetValue(site)];
      }
    }

    /** `get_template()`: the template's file under the fields directory. */
    function GetTemplate(): (r: string)
      ensures |r| == |dir| + |FieldTemplates| + |templateName|
      ensures r[..|dir|] == dir && r[|dir|..|dir| + |FieldTemplates|] == FieldTemplates
      ensures r[|r| - |templateName|..] == templateName
    {
      var r := dir + FieldTemplates + templateName;
      assert r[..|dir|] == dir;
      assert r[|dir|..|dir| + |FieldTemplates|] == FieldTemplates;
      assert r[|r| - |templateName|..] == templateName;
      r
    }

    /** `sanitize_input( $input )`: the input unchanged. */
    function SanitizeInput(input: Value): (r: Value)
      ensures r == input
    {
      input
    }
  }

  /** A field named `option[key]` shows that entry of the array option, or
      `''` when it is not set. */
  lemma {:induction false} ArrayFieldValue(f: SettingsField, site: Site, option: string, key: string)
    requires '[' !in option && '[' !in key && ']' !in key
    requires f.name == option + "[" + key + "]"
    ensures var stored := site.GetOption(option, Bool(false));
            f.GetValue(site) == if IsSetIn(stored, key) then stored.entries[key] else Str("")
  {
    FieldNameParts(option, key);
    assert IsArrayName(f.name) by {
      assert f.name[|option|] == '[';
    }
  }
}

=== FILE: wordpress.dfy ===
/** The parts of a WordPress site the plugin reads and changes: the options
    table and the transients. Everything else WordPress answers (hooks that
    have fired, the current request, user capabilities, filters) is passed to
    the operations that ask for it. */
module WordPress {
  import opened PhpValues

  class Site {
    var options: map<string, Value>
    var transients: map<string, Value>

    constructor (options: map<string, Value>, transients: map<string, Value>)
      ensures this.options == options && this.transients == transients
    {
      this.options := options;
      this.transients := transients;
    }

    /** `get_option( $name, $default )`. */
    function GetOption(name: string, default: Value): Value
      reads this
    {
      if name in options then options[name] else default
    }

    /** `update_option( $name, $value )`. */
    method UpdateOption(name: string, value: Value)
      modifies this
      ensures options == old(options)[name := value] && transients == old(transients)
    {
      options := options[name := value];
    }

    /** `delete_option( $name )`. */
    method DeleteOption(name: string)
      modifies this
      ensures options == old(options) - {name} && transients == old(transients)
    {
      options := options - {name};
    }

    /** `get_transient( $name )`: false when it is not set. */
    function GetTransient(name: string): Value
      reads this
    {
      if name in transients then transients[name] else Bool(false)
    }

    /** `set_transient( $name, $value )`. */
    method SetTransient(name: string, value: Value)
      modifies this
      ensures transients == old(transients)[name := value] && options == old(options)
    {
      transients := transients[name := value];
    }

    /** `delete_transient( $name )`. */
    method DeleteTransient(name: string)
      modifies this
      ensures transients == old(transients) - {name} && options == old(options)
    {
      transients := transients - {name};
    }
  }

  /** A callback registered by `add_action`. */
  datatype Action = Action(hook: string, callback: string, priority: int, acceptedArgs: int)

  /** The actions registered with WordPress, in registration order. */
  class Hooks {
    var actions: seq<Action>

    constructor ()
      ensures actions == []
    {
      actions := [];
    }

    /** `add_action( $hook, $callback, $priority, $accepted_args )`. */
    method AddAction(hook: string, callback: string, priority: int, acceptedArgs: int)
      modifies this
      ensures actions == old(actions) + [Action(hook, callback, priority, acceptedArgs)]
    {
      actions := actions + [Action(hook, callback, priority, acceptedArgs)];
    }

    /** `remove_filter( $hook, $callback, $priority )`. */
    method RemoveAction(hook: string, callback: string, priority: int)
      modifies this
      ensures actions == WithoutAction(old(actions), hook, callback, priority)
    {
      actions := WithoutAction(actions, hook, callback, priority);
    }
  }

  /** The actions other than `callback` on `hook` at `priority`, in order. */
  function WithoutAction(actions: seq<Action>, hook: string, callback: string, priority: int): (r: seq<Action>)
    ensures forall a :: a in r <==> a in actions && !(a.hook == hook && a.callback == callback && a.priority == priority)
  {
    if actions == [] then []
    else
      var rest := WithoutAction(actions[1..], hook, callback, priority);
      var a := actions[0];
      if a.hook == hook && a.callback == callback && a.priority == priority then rest else [a] + rest
  }

  /** A setting registered by `register_setting( $group, $name, $sanitize )`. */
  datatype Setting = Setting(group: string, name: string, sanitize: string)

  /** The settings registered with WordPress, in registration order. */
  class SettingsRegistry {
    var settings: seq<Setting>

    constructor ()
      ensures settings == []
    {
      settings := [];
    }

    /** `register_setting( $group, $name, $sanitize )`. */
    method RegisterSetting(group: string, name: string, sanitize: string)
      modifies this
      ensures settings == old(settings) + [Setting(group, name, sanitize)]
    {
      settings := settings + [Setting(group, name, sanitize)];
    }
  }

  /** A recurring event of WP-Cron. */
  datatype CronEvent = CronEvent(timestamp: int, recurrence: string, hook: string)

  /** The events WP-Cron has scheduled. */
  class Scheduler {
    var events: seq<CronEvent>

    constructor (events: seq<CronEvent>)
      ensures this.events == events
    {
      this.events := events;
    }

    /** `wp_next_scheduled( $hook )`: the first time stamp of the hook, None
        (false) when none is scheduled. */
    function NextScheduled(hook: string): (r: Option<int>)
      reads this
      ensures r.None? <==> forall i :: 0 <= i < |events| ==> events[i].hook != hook
      ensures r.Some? ==> exists i :: 0 <= i < |events| && events[i].hook == hook && events[i].timestamp == r.value
    {
      FirstOf(events, hook)
    }

    /** `wp_schedule_event( $timestamp, $recurrence, $hook )`. */
    method ScheduleEvent(timestamp: int, recurrence: string, hook: string)
      modifies this
      ensures events == old(events) + [CronEvent(timestamp, recurrence, hook)]
    {
      events := events + [CronEvent(timestamp, recurrence, hook)];
    }

    /** `wp_unschedule_event( $timestamp, $hook )`: removes the events of the
        hook at that time. */
    method UnscheduleEvent(timestamp: int, hook: string)
      modifies this
      ensures events == Without(old(events), timestamp, hook)
    {
      events := Without(events, timestamp, hook);
    }
  }

  function FirstOf(events: seq<CronEvent>, hook: string): (r: Option<int>)
    ensures r.None? <==> forall i :: 0 <= i < |events| ==> events[i].hook != hook
    ensures r.Some? ==> exists i :: 0 <= i < |events| && events[i].hook == hook && events[i].timestamp == r.value
  {
    if events == [] then None
    else if events[0].hook == hook then Some(events[0].timestamp)
    else
      var r := FirstOf(events[1..], hook);
      assert forall i :: 1 <= i < |events| ==> events[i] == events[1..][i - 1];
      r
  }

  /** The events other than those of `hook` at `timestamp`, in order. */
  function Without(events: seq<CronEvent>, timestamp: int, hook: string): (r: seq<CronEvent>)
    ensures forall e :: e in r <==> e in events && !(e.timestamp == timestamp && e.hook == hook)
  {
    if events == [] then []
    else if events[0].timestamp == timestamp && events[0].hook == hook then Without(events[1..], timestamp, hook)
    else [events[0]] + Without(events[1..], timestamp, hook)
  }
}
